=== FILE: README.md ===
# Dinothawr engine core in Dafny

This project models the core of the Dinothawr tile-game engine. Each Dafny module follows one source file:

- **Results**: the C++ exceptions the engine throws, as a `Result`. The error kinds are `logic_error`, `runtime_error`, `out_of_range` and `length_error`.
- **Utils** (utils.hpp): `join` and `basedir`, and C++'s truncating `/` and `%`. It also holds `tolower` and `find_or_default`, which tilemap.cpp calls but whose definitions are not part of this model; their assumed behaviour is listed under "Left out".
- **Grid**: row-major buffer arithmetic used by every pixel buffer.
- **Blit** (blit.hpp):
  - the packed 8-8-8-8 ARGB pixel as a `bv32`, with channel extraction, `set_if_alpha`, `mask_rgb` and `blend`;
  - `Pos`, with C++ truncating division and the 64-bit key behind `operator<`;
  - `Rect` and its intersection.
- **Surfaces** (surface.hpp, surface.cpp): a shared, immutable pixel buffer placed by a rectangle, with attributes, alternatives and an `ignore_camera` flag.
- **RenderTargets** (render_target.cpp):
  - the owned frame buffer and its camera;
  - `blit_offset`, both as the row-by-row loop it is written as and as a pixel-by-pixel reference `Composite`;
  - `Surface::sub`, which renders through a scratch target.
- **Clusters** (surface_cluster.cpp): an ordered list of surfaces placed and drawn together.
- **SurfaceCaches** (surface_cache.cpp): images decoded once per path, and sprites assembled from `<face>` elements.
- **Tilemaps** (tilemap.cpp): a TMX map.
  - Tilesets cut their image into numbered tiles. Tileset-wide and per-tile properties are merged, and sprites are loaded.
  - Layers place tiles on a grid and collect the collision set.
  - Tiles, layers and collisions can be looked up.
- **Games** (game.cpp): one level being played. This covers the player's collision-checked one-pixel moves and the scene drawn every frame.
- **GameManagers** (game_manager.cpp): the list of levels, the level being played, and the step to the next level when one is won.
- **Fonts** (font.cpp): a bitmap font cut from a grid image with a wrapping `char` counter.
  - The message layout moves a cursor and throws on a missing glyph.
  - A font cluster draws the same message with several offset, recoloured fonts.
- **Libretro** (libretro.cpp): the core of `retro_run`.
  - Frame pacing accumulates microseconds against a 60 Hz reference period, runs `frames` game iterations and presents only the last one.
  - The joypad mapping and the video forwarding are wired up by `load_game`.

Mutation in the source (a `RenderTarget&` being drawn on, a cache filled as a side effect, `GameManager` members) becomes a function from the old value to the new one. An exception becomes an `Err` that stops everything after it. Collaborators outside the core come in as function parameters:

- the XML reader, as already-parsed descriptor datatypes or path-to-descriptor functions;
- the PNG decoder;
- the alt-list `Surface` constructor;
- `refill_color`;
- `RenderTarget::finalize`;
- `Game::won`;
- the frontend's input state.

The loops of `blit_offset`, of the tileset and font cutting, of `render_msg` and of the cluster renders are modelled as methods. Each such method is proved equal to an independent recursive or pixel-wise definition.

## Model

| member | source | states |
|---|---|---|
| Utils.LastSeparator | utils.hpp:29 | the index returned holds '/' or '\\' and no later character does; None exactly when the path has no separator |
| Utils.Basedir | utils.hpp:27-34 | without a separator the result is "."; otherwise it is the prefix strictly before the last separator |
| Utils.Join | utils.hpp:11-17 | joining a single argument gives that argument unchanged |
| Utils.JoinAppend | utils.hpp:19-25 | the variadic join of a concatenated argument list is the concatenation of the joins |
| Utils.LowerChar | tilemap.cpp:193 | 'A'..'Z' map to the letter 32 code points up; every other character is unchanged |
| Utils.ToLower | tilemap.cpp:193 | same length; every character lower-cased in place |
| Utils.TruncatingDivision | blit.hpp:155 | C++ `/` and `%`: a == q*b + m; the remainder is smaller than the divisor in magnitude and has the dividend's sign; they agree with Euclidean division for a non-negative dividend, and a negative dividend rounds toward zero |
| Utils.CRemMagnitude | blit.hpp:155 | the C++ remainder is the remainder of the magnitudes, signed like the dividend |
| Utils.FindOrDefault | tilemap.cpp:144 | the stored value when the key is present, the default otherwise |
| Blit.ChannelMasksPartitionWord | blit.hpp:31-35 | the alpha and RGB masks are disjoint and together cover all 32 bits |
| Blit.ExtractColor | blit.hpp:111-115 | every extracted channel fits in 8 bits |
| Blit.ARGBRoundTrip | blit.hpp:79-93 | packing four bytes and extracting each channel gives back the bytes |
| Blit.ARGBOfChannels | blit.hpp:79-93 | every pixel is rebuilt from its four extracted channels |
| Blit.SetIfAlpha | blit.hpp:71-77 | the destination takes the source pixel exactly when the source alpha is non-zero |
| Blit.SetLineIfAlpha | blit.hpp:95-99 | the n pixels of the destination window become set_if_alpha of the matching source pixels; every other pixel is unchanged |
| Blit.MaskRgb | blit.hpp:101-104 | alpha is cleared and red, green and blue are kept |
| Blit.MaskRgbAll | blit.hpp:106-109 | same length; every pixel loses only its alpha bits |
| Blit.MaskRgbIdempotent | blit.hpp:101-109 | masking twice equals masking once, per pixel and per buffer |
| Blit.Blend | blit.hpp:117-131 | each colour channel is the rounded-up average of the two inputs' channels; alpha is zero |
| Blit.BlendSymmetric | blit.hpp:117-131 | blend is commutative, and blending a pixel with itself only drops its alpha |
| Blit.PosArithmetic | blit.hpp:148-185 | + and - undo each other; + commutes; a - b == a + (-b); * is componentwise; scaling is multiplication by (k, k) |
| Blit.U32 | blit.hpp:163-169 | static_cast to uint32: in range, identity on [0, 2^32), adds 2^32 to a negative int32 |
| Blit.BaseDigits | blit.hpp:163-169 | comparing two base-2^32 two-digit numbers is comparing their digits lexicographically |
| Blit.LessIsLexicographic | blit.hpp:160-172 | operator< is the lexicographic order on (uint32(x), uint32(y)) |
| Blit.LessIsStrictTotalOrder | blit.hpp:160-172 | on int32 coordinates operator< is irreflexive, total on distinct points, and transitive, so it can key a std::set |
| Blit.Intersect | blit.hpp:205-219 | the result is the empty rectangle or a non-empty rectangle inside both operands; non-empty exactly when the operands share a point |
| Blit.IntersectExact | blit.hpp:205-219 | a point is in the intersection iff it is in both rectangles |
| Blit.IntersectCommutes | blit.hpp:205-219 | the intersection does not depend on operand order |
| Blit.IntersectExample | test.cpp:6-13 | {10,20,10,5} & {19,20,10,5} is {19,20,1,5}, the overlapping case of the engine's rectangle test; two further cases (another overlap and a disjoint pair) are added here and are not in that test |
| Surfaces.MakeData | surface.cpp:65-67 | stores the pixels and size verbatim; valid when the pixel count is w*h |
| Surfaces.DataPixel | surface.cpp:29-38 | pixel (x, y) of valid data is element y*w + x |
| Surfaces.FillData | surface.cpp:69-73 | w*h copies of the pixel; the declared size is left as passed (the members are not initialised) |
| Surfaces.FillDataLeavesSizeUnset | surface.cpp:69-73 | with the members left at 0x0, a 2x2 fill holds four pixels but is not valid data, and a surface on it cannot be blitted |
| Surfaces.FilledData | surface.cpp:69-73 | corrected: w*h copies of the pixel in valid data whose declared size is w x h |
| Surfaces.EmptySurface | surface.cpp:16-18 | no data and an empty rectangle at the origin |
| Surfaces.SurfaceOf | surface.cpp:12-14 | shares the data and sits at the origin with the data's size |
| Surfaces.FilledSurface | surface.cpp:7-10 | corrected (second Findings row): built on Surfaces.FilledData rather than the data constructor as written, it is a w x h surface at the origin that follows the camera, can be blitted, and reads the fill pixel at every position inside |
| Surfaces.PixelAt | surface.cpp:29-38 | 0 past the right or bottom edge, else the stored pixel at the surface-relative position |
| Surfaces.PixelRaw | surface.cpp:40-53 | logic_error outside the data; otherwise the row-major index, which is inside the buffer |
| Surfaces.SurfaceOfReadsData | surface.cpp:12-38 | a surface made from valid data can be blitted and reads back exactly that data |
| Surfaces.SetIgnoreCamera | surface.cpp:55-58 | only the flag changes |
| Surfaces.ActiveAlt | surface.hpp:49 | the getter returns the current alt id and index |
| Surfaces.PlacementIsIndependent | surface.hpp:45-46 | moving a surface keeps its data, size, attributes, camera flag and active alt; replacing its attributes keeps its data, rectangle and active alt |
| RenderTargets.NewTarget | render_target.cpp:7-9 | a w x h buffer of zero pixels with the camera at the origin |
| RenderTargets.Clear | render_target.cpp:16-19 | every pixel becomes the colour; size and camera are kept |
| RenderTargets.CameraMove | render_target.cpp:44-47 | the camera moves by the offset; size and buffer are untouched |
| RenderTargets.CameraSet | render_target.cpp:49-52 | the camera is placed at the position; size and buffer are untouched |
| RenderTargets.CameraLaws | render_target.cpp:44-52 | set forgets earlier moves; two moves compose; a move after a set is relative to it |
| RenderTargets.PixelRawNoOffset | render_target.cpp:90-102 | logic_error outside the buffer, else the row-major index, which is inside the buffer |
| RenderTargets.PixelRaw | render_target.cpp:104-107 | defined exactly for world positions inside the camera rectangle, made camera-relative first |
| RenderTargets.ConvertSurface | render_target.cpp:21-27 | the buffer becomes a blittable surface of the target's size and the target is left empty |
| RenderTargets.DestRect | render_target.cpp:64-69 | the camera rectangle, or the same size at the origin for a surface that ignores the camera |
| RenderTargets.BlitClip | render_target.cpp:64-77 | empty, or the points in the placed surface, the destination and the moved subrect; exactly those points |
| RenderTargets.SourcePixel | render_target.cpp:82-87 | the source pixel shown at a world position is the data at the surface-relative position |
| RenderTargets.Composite | render_target.cpp:59-88 | reference blit: a buffer pixel in the clip takes set_if_alpha of the source pixel it shows; every other pixel is unchanged |
| RenderTargets.CompositeAt | render_target.cpp:59-88 | Composite pixel by pixel |
| RenderTargets.BlitStartsInBounds | render_target.cpp:79-84 | the first row of a non-empty clip starts inside both the destination and the source buffer |
| RenderTargets.RowFits | render_target.cpp:84-87 | each clip row lies inside both buffers |
| RenderTargets.BlitOffset | render_target.cpp:59-88 | the clip-then-rows loop as written equals the reference Composite |
| RenderTargets.BlitRows | render_target.cpp:84-87 | after the row loop every clip row is composited and nothing else changed |
| RenderTargets.BlitSurface | render_target.cpp:54-57 | blit is Composite with a zero offset |
| RenderTargets.OffsetIsMovedCopy | render_target.cpp:59-88 | blitting with an offset equals blitting a copy moved by that offset |
| RenderTargets.TransparentBlitChangesNothing | render_target.cpp:59-88 | a surface with no opaque pixel leaves the target as it was |
| RenderTargets.OpaqueBlitOverwritesClip | render_target.cpp:59-88 | a fully opaque surface overwrites every clip pixel with its own pixel and keeps the rest |
| RenderTargets.Sub | surface.cpp:20-27 | a blittable w x h surface at the origin whose data has the requested size |
| RenderTargets.SubPixel | surface.cpp:20-27 | pixel (i, j) of sub(rect) is the original pixel at rect.pos + (i, j) when that is opaque and inside the original, and 0 otherwise |
| Clusters.SetPos | surface_cluster.cpp:15-21 | records the position and places every element's surface there; offsets and surfaces are otherwise kept |
| Clusters.Move | surface.hpp:77 | pos(pos() + offset): every element is placed at the moved position |
| Clusters.SetPosLaws | surface_cluster.cpp:15-21 | placing twice keeps only the second placement; placement keeps the elements blittable |
| Clusters.SetTransform | surface_cluster.cpp:23-26 | installs the transform and keeps elements and position |
| Clusters.RenderElems | surface_cluster.cpp:28-33 | reference render: the target keeps its size and validity |
| Clusters.RenderElemsSnoc | surface_cluster.cpp:28-33 | rendering one more element blits it over what the earlier elements drew, at its (transformed) offset |
| Clusters.TransformIsOffsetMap | surface_cluster.cpp:28-33 | rendering with a transform equals rendering the elements with mapped offsets and no transform |
| Clusters.Render | surface_cluster.cpp:28-33 | the loop as written equals the reference render |
| SurfaceCaches.ConvertRgba | surface_cache.cpp:59-67 | one pixel per four decoded bytes |
| SurfaceCaches.ConvertRgbaChannels | surface_cache.cpp:59-67 | pixel i carries alpha = byte 4i+3, red = 4i, green = 4i+1, blue = 4i+2 |
| SurfaceCaches.LoadImage | surface_cache.cpp:50-70 | runtime_error exactly when decoding fails; otherwise valid data of the decoded size and converted pixels |
| SurfaceCaches.Lookup | surface_cache.cpp:12-20 | a cached entry is returned without decoding; otherwise the image is loaded, the cache gains the path, and the entry is stored on success; other entries are unchanged |
| SurfaceCaches.FromImage | surface_cache.cpp:12-20 | the surface of the looked-up data, or runtime_error, with the lookup's cache |
| SurfaceCaches.FromImageMemoises | surface_cache.cpp:12-20 | after a success, a later from_image of the same path returns the same surface whatever the decoder now says, and keeps the cache |
| SurfaceCaches.FaceNodes | surface_cache.cpp:32 | the suffix of the children starting at the first `face` element; every earlier child is not a face |
| SurfaceCaches.FaceAlts | surface_cache.cpp:32-45 | succeeds exactly when every face's image is cached or decodes, failing with runtime_error otherwise; one alt per visited node, in order, carrying that node's id and the cached or decoded image of its path; earlier cache entries are kept |
| SurfaceCaches.FromSprite | surface_cache.cpp:22-48 | runtime_error when the sprite document fails to load or a face image is neither cached nor decodes, and only then; otherwise the alts carry each face's id and image, with the `start_id`, and earlier cache entries are kept |
| SurfaceCaches.LookupKeepsImages | surface_cache.cpp:37-42 | a lookup changes neither which paths have an image nor which image an available path yields |
| SurfaceCaches.SpriteSharesImageCache | surface_cache.cpp:37-42 | a face whose image is already cached reuses the cached data |
| Tilemaps.GetAttributes | tilemap.cpp:37-49 | exactly the names that occur become keys |
| Tilemaps.GetAttributesFirstWins | tilemap.cpp:37-49 | std::map::insert keeps the first value: a name maps to the value of its first occurrence |
| Tilemaps.Merge | tilemap.cpp:104 | copying through std::inserter: keys are united, an existing key keeps its value, a new key takes the copied one |
| Tilemaps.MergePropsIsMerge | tilemap.cpp:103-104 | laying properties over globals one by one equals merging the globals into get_attributes |
| Tilemaps.MergeUpdate | tilemap.cpp:104 | setting a key before the merge equals setting it after |
| Tilemaps.TileAttributePrecedence | tilemap.cpp:103-111 | a tile's own property overrides a tileset-wide one of the same name; an unshadowed global is inherited; nothing else appears |
| Tilemaps.Numbering | tilemap.cpp:88-96 | the keys are the old ones plus base .. base+n-1 |
| Tilemaps.CutAt | tilemap.cpp:88-96 | the id firstgid+k holds the k-th row-major tile |
| Tilemaps.CutKeeps | tilemap.cpp:88-96 | ids the tileset does not number keep their earlier entry or absence |
| Tilemaps.NumberingAt | tilemap.cpp:88-96 | the entry under a numbered id is the piece of that number; others are kept |
| Tilemaps.TileRectAt | tilemap.cpp:88-93 | tile number row*cols + col is the tile-sized rectangle at (col*tw, row*th) |
| Tilemaps.CutterAgrees | tilemap.cpp:88-96 | at every visited cell the loops' cut is the piece of its row-major number |
| Tilemaps.CellAgrees | tilemap.cpp:88-96 | one cell of CutterAgrees |
| Tilemaps.CutTiles | tilemap.cpp:88-96 | the two cutting loops as written equal the reference row-major numbering |
| Tilemaps.CutGrid | tilemap.cpp:88-96 | the outer loop numbers every tile of the grid |
| Tilemaps.CutRow | tilemap.cpp:90-95 | the inner loop numbers one row and advances id_cnt by the column count |
| Tilemaps.LoadSprite | tilemap.cpp:109 | from_sprite of the path: only runtime_error, and always when the sprite document fails |
| Tilemaps.ApplyTile | tilemap.cpp:99-112 | a tile node replaces only its own id, whose attributes become the merged ones; without a `sprite` attribute it cannot fail and keeps the cache; with one, it fails exactly when the sprite load fails, and otherwise the tile is the loaded sprite carrying the merged attributes, with the loader's cache |
| Tilemaps.ApplyTiles | tilemap.cpp:99-112 | without any `sprite` attribute the tile loop cannot fail |
| Tilemaps.ApplyTilesRuntimeError | tilemap.cpp:99-112 | the loop fails only with runtime_error |
| Tilemaps.ApplyTilesFrame | tilemap.cpp:99-112 | the loop adds exactly the ids its nodes name; other ids are unchanged |
| Tilemaps.ApplyTilesAttrs | tilemap.cpp:99-112 | the last node naming an id decides that tile's attributes |
| Tilemaps.AddTileset | tilemap.cpp:51-113 | logic_error for a zero dimension (72-73) or an image of the wrong size (78-79); runtime_error for a failed image or sprite; success implies valid geometry; an image of the declared size and no `sprite` attribute guarantee success |
| Tilemaps.ApplyTilesOutcome | tilemap.cpp:99-112 | whether the `<tile>` loop fails, and with which error, does not depend on the tiles it starts from |
| Tilemaps.AddTilesetOutcome | tilemap.cpp:51-113 | whether a tileset loads, and with which error, does not depend on the tiles added before it |
| Tilemaps.AddTilesetTiles | tilemap.cpp:51-113 | after success, an id the tileset numbers and no tile node names is the cut tile; ids it neither numbers nor names are untouched |
| Tilemaps.CutTileShape | tilemap.cpp:93-94 | a cut tile is tile-sized, at the origin, and carries exactly the tileset-wide attributes |
| Tilemaps.AddTilesets | tilemap.cpp:30-31 | success implies every tileset's geometry is valid |
| Tilemaps.AddTilesetsOutcome | tilemap.cpp:30-31 | the tileset loop succeeds exactly when every tileset loads on its own; otherwise it fails with the error of the first tileset that does not |
| Tilemaps.CellPosRowMajor | tilemap.cpp:134 | for a positive width, cell i is column i mod w of row i / w |
| Tilemaps.PlacedAt | tilemap.cpp:139-140 | the gid's tile moved to cell * (tilewidth, tileheight), otherwise unchanged |
| Tilemaps.PlaceCellsKeepsTiles | tilemap.cpp:137-146 | placing cells only moves table entries: what each gid stands for is unchanged |
| Tilemaps.PlaceCellsKeys | tilemap.cpp:137-146 | only the non-zero gids of the layer gain a table entry (tiles[gid] default-constructs) |
| Tilemaps.PlaceCellsElems | tilemap.cpp:137-146 | one appended element per non-zero cell, after the earlier ones |
| Tilemaps.PlaceCellsElemAt | tilemap.cpp:137-146 | the element of the i-th non-zero cell is that gid's tile at that cell's pixel position, with a zero offset |
| Tilemaps.PlaceCellsAllElems | tilemap.cpp:130-147 | on a fresh layer, every non-zero cell has its element: that gid's tile at the cell's pixel position, after the elements of the earlier non-zero cells |
| Tilemaps.PlaceCellsCollisions | tilemap.cpp:137-146 | a cell enters the collision set exactly when it has a non-zero gid whose tile's `collision` attribute is "true" |
| Tilemaps.AddLayer | tilemap.cpp:115-154 | logic_error exactly for a zero width or height; otherwise the layer's properties and name, one element per non-zero cell showing that gid's tile at the cell's pixel position, a table that stands for the same tiles, and a collision set that gains exactly the cells holding a tile whose `collision` is "true" |
| Tilemaps.AddLayers | tilemap.cpp:33-34 | succeeds exactly when no layer has a zero dimension; one layer per descriptor, in order, each placed at the origin with no transform, with one element per non-zero cell, each showing the tiles of the starting table at its cells; the collision set gains exactly the colliding cells of every layer |
| Tilemaps.Build | tilemap.cpp:14-35 | runtime_error for a missing document, logic_error for a zero map dimension; success exactly when the tilesets load and no layer is empty; then the map's sizes and layers follow the document, each layer at the origin with no transform and one element per non-zero gid, every element shows the tile the tilesets gave its gid, and a cell is a collision exactly when some layer places a colliding tile there |
| Tilemaps.SetMapPos | tilemap.cpp:156-161 | every layer's cluster is placed at the position and the map records it; the collisions are kept |
| Tilemaps.RenderLayers | tilemap.cpp:163-167 | the target keeps its size and validity |
| Tilemaps.RenderLayersSnoc | tilemap.cpp:163-167 | one more layer is drawn over what the earlier layers drew |
| Tilemaps.FindElem | tilemap.cpp:180-182 | std::find_if: the first element whose position plus offset is the query, or none |
| Tilemaps.FindTile | tilemap.cpp:175-188 | out_of_range exactly for a bad layer index; otherwise the first matching element, or none when no element matches |
| Tilemaps.FindLayerFrom | tilemap.cpp:231-233 | the first layer from the start index whose lower-cased name equals the query, or none |
| Tilemaps.FindLayer | tilemap.cpp:229-239 | the first layer whose lower-cased name equals the query; none exactly when no layer matches |
| Tilemaps.UpperCaseQueryMisses | tilemap.cpp:229-239 | a query with an upper-case letter never finds a layer |
| Tilemaps.FindTileByName | tilemap.cpp:190-200 | found exactly when a layer matches and has an element at the position; that element sits there |
| Tilemaps.Collision | tilemap.cpp:169-173 | a tile collides iff it is in the collision set or the first "blocks" layer has an element at the tile's pixel position |
| Tilemaps.BuildBlittable | tilemap.cpp:14-35 | with a sprite constructor that yields blittable surfaces, every layer element of a built map can be blitted |
| Games.GameTarget | game.cpp:9 | length_error exactly when w*h is negative (std::vector); otherwise a zero buffer of size w x h |
| Games.NewGame | game.cpp:8-13 | the map's error propagates, a negative pixel size is a length_error, and a failed decode of `level.png` a runtime_error; success exactly when none of these happens; the player's data is that image's and it sits at (16, 16); the target has the map's pixel size |
| Games.NewGameValid | game.cpp:8-13 | a loaded game whose map has a non-negative pixel size is ready for frames |
| Games.RowHits | game.cpp:55-56 | true iff some tile of the row range collides |
| Games.AreaHits | game.cpp:54-57 | true iff some tile of the rectangle of tiles collides |
| Games.Hits | game.cpp:48-57 | true iff a tile of the truncating-division tile range under the rectangle collides |
| Games.ScanCollisions | game.cpp:54-57 | the nested loops as written find a hit iff the range holds a colliding tile |
| Games.MoveIfNoCollision | game.cpp:44-60 | a blocked move leaves the game unchanged; otherwise the player moves by exactly the offset |
| Games.Try | game.cpp:34-41 | one direction moves the player by the offset or not at all; nothing else changes; validity is kept |
| Games.UpdatePlayer | game.cpp:29-42 | only the player's position changes, by at most one pixel per axis; validity is kept; with a callback, the four one-direction tries run Up, Down, Left, Right, each on the game the previous one left |
| Games.PressedInOrder | game.cpp:29-42 | the final rectangle is reached by testing Up, Down, Left and Right in that order, each against the map from the rectangle the earlier directions left |
| Games.NoInputNoMove | game.cpp:29-42 | without a callback, or with no direction pressed, nothing changes |
| Games.SingleDirection | game.cpp:29-42 | a single pressed direction moves the player one pixel that way unless blocked |
| Games.Scene | game.cpp:19-21 | the composed scene is a valid target of the game's size |
| Games.Iterate | game.cpp:15-27 | player updated, scene composed and finalized; a frame of the buffer, width, height and pitch 4*width is sent exactly when a video callback is set |
| Games.PlayerOnTop | game.cpp:19-21 | where the player shows an opaque pixel, that pixel is in the scene; elsewhere the scene shows the layers over the background |
| Games.ClearedToBackground | game.cpp:19 | the background is ARGB(0xff, 0xa0, 0x80, 0x80) and fills the buffer before the layers are drawn |
| GameManagers.LevelPaths | game_manager.cpp:19-21 | one path dir/source per `<map>` child, in order |
| GameManagers.ChangeLevel | game_manager.cpp:36-43 | out_of_range past the last level; a failed load propagates; otherwise the loaded game at that index with the levels kept |
| GameManagers.ResetLevel | game_manager.cpp:31-34 | succeeds exactly when the current index is inside the list and that level loads; a failing load's error is passed on; out_of_range past the list |
| GameManagers.NewManager | game_manager.cpp:12-27 | runtime_error for an unreadable file; out_of_range for a game without levels; otherwise success exactly when level 0 loads (its error propagating), with level 0 loaded and dir = basedir(path) |
| GameManagers.Iterate | game_manager.cpp:45-57 | one game frame; a won level advances the index by one; winning the last level drops the game and the manager is done; winning an earlier level loads the next one, succeeding exactly when that load does and passing its error on; the levels are kept |
| GameManagers.IterateValid | game_manager.cpp:45-57 | a frame keeps the manager's invariant |
| GameManagers.Play | game_manager.cpp:45-57 | frames until done or n are run keep the invariant and the levels |
| GameManagers.WonStep | game_manager.cpp:49-56 | a won frame moves to the next level and runs the game loaded from it, and is done exactly after the last one |
| GameManagers.WinningRun | game_manager.cpp:45-57 | when every frame wins, k frames from level c reach level c + k, and the game is done exactly when c + k is the level count |
| GameManagers.NotWonStays | game_manager.cpp:45-57 | a frame that is not won keeps the level list and its index, and the manager is not done |
| Fonts.GlyphCodeStep | font.cpp:40 | start_ascii++ on a char gives the code of the next cell, wrapping modulo 256 |
| Fonts.FirstCell | font.cpp:38-47 | the first cell among the first 256 that carries the code |
| Fonts.GlyphCodeIs | font.cpp:38-47 | cell i carries code c exactly when i is FirstCell(c) plus a multiple of 256 |
| Fonts.Pieces | font.cpp:42-43 | cell i cuts the glyph-sized sub-surface at column i % width, row i / width |
| Fonts.GlyphsUpToAt | font.cpp:38-47 | after k cells a code has a glyph iff its first cell is among them, and the glyph is the piece of the last such cell |
| Fonts.GlyphTable | font.cpp:38-47 | every glyph can be blitted and keeps ignoreCamera false |
| Fonts.GlyphTableAt | font.cpp:38-47 | code c has a glyph iff its first cell is in the grid; the glyph is the piece of the last cell carrying c |
| Fonts.FullGridDefinesAll | font.cpp:38-47 | a grid of at least 256 cells defines every character |
| Fonts.CutterAgrees | font.cpp:38-47 | at every visited cell the loops' cut is the piece of its row-major number |
| Fonts.CutGlyphs | font.cpp:38-47 | the nested loops as written build exactly the reference glyph table |
| Fonts.CutCells | font.cpp:38-47 | the outer loop stores the glyphs of every cell |
| Fonts.CutRow | font.cpp:40-46 | one row stores its cells' glyphs and advances the char counter by the width |
| Fonts.LoadFont | font.cpp:12-48 | runtime_error for a missing document or an image that does not decode; logic_error for a zero size (29-30) or a size mismatch (35-36); success exactly when none of these happens, giving a valid font with the declared glyph size |
| Fonts.LoadFontGlyph | font.cpp:12-48 | a loaded font maps a code to the piece of the last cell carrying it, and has no glyph for a code no cell carries |
| Fonts.GlyphSurface | font.cpp:50-57 | the glyph of the code, or logic_error exactly when it has none |
| Fonts.SetColor | font.cpp:59-63 | the same codes and glyph size, each glyph refilled with the colour |
| Fonts.LineColumnAfterNewline | font.cpp:77-81 | a newline adds one line and resets the column |
| Fonts.FirstLineColumn | font.cpp:67-76 | before the first newline, character j is drawn on line 0 at column j |
| Fonts.MissingFrom | font.cpp:73 | the first character from i on that is neither a newline nor a glyph; every earlier one can be drawn |
| Fonts.Drawn | font.cpp:69-82 | the first k characters drawn leave a valid target of the same size |
| Fonts.DrawnStep | font.cpp:69-82 | a newline draws nothing; any other character blits its glyph at x0 + column*gw, y0 + line*(gh + newline_offset) over the earlier ones |
| Fonts.Rendered | font.cpp:65-83 | the target keeps its size and validity |
| Fonts.RenderedMeaning | font.cpp:65-83 | logic_error exactly when some character is neither a newline nor a glyph; every character before the first such one is drawn; success draws them all |
| Fonts.NewlinesDrawNothing | font.cpp:77-81 | a message of newlines only leaves the target unchanged |
| Fonts.RenderMsg | font.cpp:65-83 | the cursor loop as written equals the reference Rendered |
| Fonts.AddFont | font.cpp:85-92 | a failed load propagates; succeeds exactly when the font loads, with one more font at the end, recoloured glyph by glyph, with its offset and the loaded glyph size |
| Fonts.GlyphSize | font.cpp:94-107 | the largest glyph width and the largest glyph height over the fonts, each attained by some font |
| Fonts.ClusterFrom | font.cpp:109-114 | the target keeps its size and validity |
| Fonts.AddedFontDrawsLast | font.cpp:109-114 | an added font draws over what the earlier fonts drew, unless an earlier one threw |
| Fonts.ClusterAppend | font.cpp:109-114 | rendering a cluster with one more font is the old rendering followed by that font's rendering |
| Fonts.RenderOffset | font.cpp:119-123 | an offset font renders at the position shifted by its offset |
| Fonts.RenderCluster | font.cpp:109-114 | the loop as written equals the reference ClusterRendered |
| Libretro.FrameTime | libretro.cpp:180-181 | time_reference unless the frame-time callback is in use and the option is on, in which case the reported time |
| Libretro.AddedRounds | libretro.cpp:185-188 | a time under half a period is added as is; a longer one is rounded to a whole number of periods within half a period of it |
| Libretro.Flags | libretro.cpp:195-199 | n iterations; only the last presents |
| Libretro.FlagsPresentOnce | libretro.cpp:195-199 | a non-empty schedule presents exactly one frame |
| Libretro.Schedule | libretro.cpp:185-200 | frames <= 0: nothing runs and the time is kept; otherwise `frames` iterations, only the last presenting, and `frames` periods are subtracted |
| Libretro.ScheduleBalanced | libretro.cpp:185-200 | with a non-negative frame time, total_time stays within half a period of zero and frames is never negative |
| Libretro.NominalRateOneIteration | libretro.cpp:185-200 | at exactly one period per run, each run iterates once, presents, and keeps total_time |
| Libretro.DoublePeriodTwoIterations | libretro.cpp:185-200 | a reported time of two periods iterates twice and presents only the second |
| Libretro.RunManyConserves | libretro.cpp:185-200 | over any sequence of runs, the start time plus what was added equals the final time plus one period per iteration |
| Libretro.RunManyBalanced | libretro.cpp:185-200 | a balanced total_time stays balanced over any sequence of non-negative frame times |
| Libretro.NoDrift | libretro.cpp:185-200 | after any sequence of runs, the iteration count times the period is within half a period of the elapsed time |
| Libretro.ButtonsOneToOne | libretro.cpp:214-229 | the input-to-button switch is a bijection onto the seven buttons read |
| Libretro.InputCallback | libretro.cpp:214-229 | an input is pressed exactly when its button is pressed on port 0's joypad |
| Libretro.Wired | libretro.cpp:231-236 | load_game installs the joypad callback and a video callback |
| Libretro.Forward | libretro.cpp:231-236 | a frame reaches the frontend exactly when present_frame is set |
| Libretro.IterateAll | libretro.cpp:191-201 | the loop as written: if it completes, the invariant and the levels are kept and one frame is presented per set flag |
| Libretro.LastLevelWonEarly | libretro.cpp:191-199 | winning the last level on the first of two iterations makes the second iterate a null game |
| Libretro.PlayBatch | libretro.cpp:191-201 | the guarded loop: the invariant and levels are kept; at most one frame per set flag, and exactly that many while the game is running |
| Libretro.PlayBatchIsPlay | libretro.cpp:191-201 | the guarded loop moves the manager exactly as that many GameManager frames stopping at done, and fails exactly when they do |
| Libretro.GuardAgrees | libretro.cpp:191-201 | wherever the loop as written completes or throws, the guarded loop gives the same outcome |
| Libretro.Presents | libretro.cpp:198-199 | one video call per forwarded frame, in order |
| Libretro.RetroRun | libretro.cpp:177-201 | corrected (first Findings row): runs the batch through Libretro.PlayBatch, the loop with the missing done() guard, and agrees with the loop as written wherever that completes (Libretro.GuardAgrees); total_time follows the schedule; the invariant and levels are kept; shutdown is requested exactly when done; at most one video call, exactly one while running; with n > 0 scheduled iterations, the run succeeds exactly when n GameManager frames with video do and leaves the manager where they do, and while running it presents the frame of the n-th of them; frames <= 0 gives a duplicate-frame call and nothing else |
| Libretro.PlayBatchLastFrame | libretro.cpp:191-199 | with only the last of n iterations presented, a batch that leaves the game running presents exactly the frame drawn by the n-th GameManager frame |
| Libretro.NominalRun | libretro.cpp:177-201 | at the nominal rate, a run of a game in progress is one GameManager frame whose picture is presented |

## Left out

- I/O, as described above. XML parsing, PNG decoding and file loading are parameters: descriptor datatypes, `string -> Option<...>` readers and a `Decoder`. The `std::cerr` logging and the error message texts are not modelled; errors are reduced to their exception kind.
- `Utils::xml_node_walker`, `string_cast` and `operator<<`: `join` is modelled on arguments that are already strings, and a gid is already a `nat`.
- `Surface(alts, start_id)`, `active_alt(id, index)`, `refill_color` and `RenderTarget::finalize` are not part of this model and come in as function parameters. `SpritesBlittable` and `FinalizeKeepsTarget` are hypotheses about those parameters.
- Game::won is not part of this model and comes in as an oracle (`FrameEnv.won`).
- Integer widths: coordinates, sizes and `total_time` are unbounded integers. The C++ `int`, the 64-bit `total_time` and `unsigned` overflow are not modelled. Gids and tile ids are `int`/`nat` rather than `unsigned`, and `m_current_level` is a `nat` with no wrap.
- Blit.U32 and Blit.LessIsStrictTotalOrder: the order is proved only for coordinates that fit an `int32`, the range the source's `int` fields hold.
- The `RenderTarget(width, height)` size in NewTarget and ConvertSurface uses `nat` parameters. A negative product is handled only in Games.GameTarget, where `std::vector` throws `length_error`.
- Surfaces.FillData, Surfaces.FilledData and Surfaces.FilledSurface take `nat` sizes. `Data(Pixel, int, int)` throws `length_error` from `pixels(w * h)` for a negative product; that error is not modelled.
- GameManagers.LoadsValid and Games.GameValid: frames are proved only for games whose map has non-negative pixel width and height. The source also accepts a map whose pixel width and height are both negative: the product is positive, so game.cpp:9 allocates the target, and tilemap.cpp rejects only zero sizes. Frames on such a game are not modelled.
- Tilemaps.AddTileset takes tile sizes as `nat`; a negative tile size from the document is not modelled.
- RenderTargets.BlitOffset and RenderTargets.Composite require `Blittable`: a surface with data whose rectangle has the data's size. `blit_offset` strides by the surface rectangle (render_target.cpp:84-87) and does not check this; a surface whose rectangle differs from its data is not modelled. Every surface the engine blits satisfies it: glyphs, cut tiles and the player's image, by construction; sprite surfaces, by the SpritesBlittable hypothesis.
- Surfaces.PixelAt requires non-negative surface-relative coordinates. The source does not check them (surface.cpp:34), and a negative one reads outside the buffer.
- `SurfaceCluster::vec()` hands out the element list itself; in the model it is the cluster's `elems` field, so no member models it.
- Utils.LowerChar, Utils.ToLower and Utils.FindOrDefault: the definitions of `Utils::tolower` and `Utils::find_or_default` are not part of this model; utils.hpp defines only `join` and `basedir`. They are assumed from their use at tilemap.cpp:144 and :193: `tolower` lower-cases 'A'..'Z' only (the "C" locale) and leaves every other character alone, and `find_or_default` returns the stored value of a present key and the default otherwise. Tilemaps.UpperCaseQueryMisses rests on the first assumption.
- Fonts.GlyphTable: the constructor calls the `ignore_camera()` getter at font.cpp:45, which changes nothing, so glyphs keep following the camera. The model follows the code as written.
- Fonts.CutGlyphs skips the loops when the grid has no cells, which the source does implicitly.
- Libretro.ScheduleBalanced, Libretro.RunManyBalanced and Libretro.NoDrift assume non-negative frame times; a negative reported time can unbalance the accumulator.
- `retro_run`'s `check_variables`, `input_poll_cb`, the background music step (`get_bg().step`), the audio callback and the rest of libretro.cpp outside lines 177-236 are left out. The frontend's `RETRO_ENVIRONMENT_SHUTDOWN` call is the `shutdown` flag of `RunOutput`.
- An exception escaping `retro_run` is an `Err` result; the frontend's reaction to it is not modelled.
- Header drift: game.hpp's `Input` lists five inputs, while libretro.cpp also switches on `Menu` and `Reset`. The model's `Input` has all seven, so the `default` branch of `input_cb` cannot be reached. `GameManager`'s callback constructor and `Font`'s `RenderAlignment`, font map and id are declared only in headers and are not modelled.
- A `Decoder` only returns four bytes per pixel (the `ValidDecoded` type), as lodepng's RGBA decode does; a decoder that returns a short buffer is not modelled.

## Findings

| source | as written | input that shows it | evidently intended | confidence | as-written member | corrected member |
|---|---|---|---|---|---|---|
| libretro.cpp:191-199 | `retro_run` calls `game->iterate()` `frames` times without checking `done()`. `GameManager::iterate` dereferences `game` (game_manager.cpp:47), which is null once the last level is won (game_manager.cpp:53). | The last level is won on the first iteration of a run whose reported frame time is 2 × 16666 µs, so `frames` is 2. | Stop iterating once the game is done. | not executed | Libretro.LastLevelWonEarly | Libretro.PlayBatch |
| surface.cpp:69-73 | `Data(Pixel, int, int)` fills `w*h` pixels but never assigns the `w` and `h` members, so `Surface(Pixel, int, int)` (surface.cpp:7-10) gets data whose declared size is indeterminate. | `Surface(pix, 2, 2)` with the members holding 0: four pixels are stored, but the data claims 0x0. | Initialise `w(w), h(h)` as the other `Data` constructor does (surface.cpp:65-67). | not executed | Surfaces.FillDataLeavesSizeUnset | Surfaces.FilledData |

=== FILE: blit.dfy ===
/** Pixel and geometry primitives of blit.hpp: the packed 8-8-8-8 ARGB
    pixel (`PixelBase<uint32_t, 8,24, 8,16, 8,8, 8,0>`), positions and
    rectangles. */
module Blit {

  import opened Utils

  /** One packed pixel: alpha in bits 24..31, red 16..23, green 8..15, blue 0..7. */
  type Pixel = bv32

  const AlphaMask: Pixel := 0xff00_0000
  const RgbMask: Pixel := 0x00ff_ffff

  /** Alpha, red, green and blue never share a bit and fill the 32-bit word. */
  lemma ChannelMasksPartitionWord()
    ensures AlphaMask & RgbMask == 0
    ensures AlphaMask | RgbMask == 0xffff_ffff
  {
  }

  /** `PixelBase::ARGB` for the 8-bit channels: every `>> (8 - bits)` is a
      shift by zero, so the inputs are shifted into place and OR-ed without
      any masking. */
  function ARGB(a: bv32, r: bv32, g: bv32, b: bv32): Pixel {
    (a << 24) | (r << 16) | (g << 8) | b
  }

  /** `extract_color<shift, 8>`: the 8-bit channel starting at bit `shift`. */
  function ExtractColor(p: Pixel, shift: nat): (c: bv32)
    requires shift <= 24
    ensures c <= 0xff
  {
    (p >> shift) & 0xff
  }

  /** Packing four bytes and extracting each channel gives the bytes back,
      so no channel overwrites another. */
  lemma ARGBRoundTrip(a: bv32, r: bv32, g: bv32, b: bv32)
    requires a <= 0xff && r <= 0xff && g <= 0xff && b <= 0xff
    ensures ExtractColor(ARGB(a, r, g, b), 24) == a
    ensures ExtractColor(ARGB(a, r, g, b), 16) == r
    ensures ExtractColor(ARGB(a, r, g, b), 8) == g
    ensures ExtractColor(ARGB(a, r, g, b), 0) == b
  {
  }

  /** A pixel is rebuilt from its four channels. */
  lemma ARGBOfChannels(p: Pixel)
    ensures ARGB(ExtractColor(p, 24), ExtractColor(p, 16), ExtractColor(p, 8), ExtractColor(p, 0)) == p
  {
  }

  /** True when the pixel's alpha channel is non-zero: the cut-out test. */
  predicate Opaque(p: Pixel) {
    p & AlphaMask != 0
  }

  /** `set_if_alpha`: the destination takes the source pixel iff the source
      has a non-zero alpha channel. */
  function SetIfAlpha(dst: Pixel, src: Pixel): (r: Pixel)
    ensures Opaque(src) ==> r == src
    ensures !Opaque(src) ==> r == dst
  {
    if src & AlphaMask != 0 then src else dst
  }

  /** `set_line_if_alpha(dst + dOff, src + sOff, n)`: `set_if_alpha` on the
      `n` pixels starting at the two offsets; every other destination pixel
      is kept. */
  method SetLineIfAlpha(dst: seq<Pixel>, dOff: nat, src: seq<Pixel>, sOff: nat, n: nat)
    returns (r: seq<Pixel>)
    requires dOff + n <= |dst| && sOff + n <= |src|
    ensures |r| == |dst|
    ensures forall i :: dOff <= i < dOff + n ==> r[i] == SetIfAlpha(dst[i], src[sOff + i - dOff])
    ensures forall i :: 0 <= i < |dst| && !(dOff <= i < dOff + n) ==> r[i] == dst[i]
  {
    r := dst;
    var x := 0;
    while x < n
      invariant 0 <= x <= n
      invariant |r| == |dst|
      invariant forall i :: dOff <= i < dOff + x ==> r[i] == SetIfAlpha(dst[i], src[sOff + i - dOff])
      invariant forall i :: 0 <= i < |dst| && !(dOff <= i < dOff + x) ==> r[i] == dst[i]
    {
      r := r[dOff + x := SetIfAlpha(r[dOff + x], src[sOff + x])];
      x := x + 1;
    }
  }

  /** `mask_rgb_function`: the pixel with its alpha channel cleared. */
  function MaskRgb(p: Pixel): (r: Pixel)
    ensures r & AlphaMask == 0
    ensures ExtractColor(r, 16) == ExtractColor(p, 16)
    ensures ExtractColor(r, 8) == ExtractColor(p, 8)
    ensures ExtractColor(r, 0) == ExtractColor(p, 0)
  {
    p & RgbMask
  }

  /** `mask_rgb(dst, size)`: `mask_rgb_function` applied to a whole buffer. */
  function MaskRgbAll(buf: seq<Pixel>): (r: seq<Pixel>)
    ensures |r| == |buf|
    ensures forall i :: 0 <= i < |buf| ==> r[i] & AlphaMask == 0
    ensures forall i :: 0 <= i < |buf| ==> r[i] | (buf[i] & AlphaMask) == buf[i]
  {
    seq(|buf|, i requires 0 <= i < |buf| => MaskRgb(buf[i]))
  }

  /** Masking is idempotent, pixel-wise and buffer-wise. */
  lemma MaskRgbIdempotent(buf: seq<Pixel>)
    ensures forall i :: 0 <= i < |buf| ==> MaskRgb(MaskRgb(buf[i])) == MaskRgb(buf[i])
    ensures MaskRgbAll(MaskRgbAll(buf)) == MaskRgbAll(buf)
  {
  }

  /** `blend`: the rounded average of each colour channel; alpha is dropped. */
  function Blend(a: Pixel, b: Pixel): (r: Pixel)
    ensures r & AlphaMask == 0
    ensures ExtractColor(r, 16) == (ExtractColor(a, 16) + ExtractColor(b, 16) + 1) >> 1
    ensures ExtractColor(r, 8) == (ExtractColor(a, 8) + ExtractColor(b, 8) + 1) >> 1
    ensures ExtractColor(r, 0) == (ExtractColor(a, 0) + ExtractColor(b, 0) + 1) >> 1
  {
    var resR := (ExtractColor(a, 16) + ExtractColor(b, 16) + 1) >> 1;
    var resG := (ExtractColor(a, 8) + ExtractColor(b, 8) + 1) >> 1;
    var resB := (ExtractColor(a, 0) + ExtractColor(b, 0) + 1) >> 1;
    (resR << 16) | (resG << 8) | resB
  }

  /** Blending is symmetric, and blending a pixel with itself only drops its
      alpha channel. */
  lemma BlendSymmetric(a: Pixel, b: Pixel)
    ensures Blend(a, b) == Blend(b, a)
    ensures Blend(a, a) == MaskRgb(a)
  {
  }

  /** A position; the source's `int` fields are modelled unbounded. */
  datatype Pos = Pos(x: int, y: int) {
    function Add(o: Pos): Pos { Pos(x + o.x, y + o.y) }
    function Sub(o: Pos): Pos { Pos(x - o.x, y - o.y) }
    function Mul(o: Pos): Pos { Pos(x * o.x, y * o.y) }
    function Neg(): Pos { Pos(-x, -y) }
    function Scale(k: int): Pos { Pos(k * x, k * y) }
    /** `operator/(int)`: C++ truncating division of both coordinates. */
    function Div(d: int): Pos
      requires d != 0
    {
      Pos(CDiv(x, d), CDiv(y, d))
    }
  }

  /** The origin `Pos()`. */
  const Origin := Pos(0, 0)

  /** Position arithmetic is componentwise and `+`/`-` undo each other. */
  lemma PosArithmetic(p: Pos, q: Pos, k: int)
    ensures p.Add(q).Sub(q) == p
    ensures p.Add(q) == q.Add(p)
    ensures p.Sub(q) == p.Add(q.Neg())
    ensures p.Mul(q).x == p.x * q.x && p.Mul(q).y == p.y * q.y
    ensures p.Scale(k) == Pos(k, k).Mul(p)
  {
  }

  const TwoPow32 := 0x1_0000_0000

  /** `static_cast<uint32_t>` of a two's-complement `int`. */
  function U32(v: int): (r: nat)
    ensures r < TwoPow32
    ensures 0 <= v < TwoPow32 ==> r == v
    ensures -TwoPow32 <= v < 0 ==> r == v + TwoPow32
  {
    v % TwoPow32
  }

  /** The 64-bit key `operator<` compares: x in the high word, y in the low. */
  function PackedKey(p: Pos): nat {
    U32(p.x) * TwoPow32 + U32(p.y)
  }

  /** `Pos::operator<`. */
  predicate Less(p: Pos, q: Pos) {
    PackedKey(p) < PackedKey(q)
  }

  predicate IsInt32(v: int) {
    -0x8000_0000 <= v < 0x8000_0000
  }

  /** Splitting a two-digit number in base 2^32 into its digits. */
  lemma {:induction false} BaseDigits(a: nat, b: nat, c: nat, d: nat)
    requires b < TwoPow32 && d < TwoPow32
    ensures a * TwoPow32 + b < c * TwoPow32 + d <==> a < c || (a == c && b < d)
  {
    if a < c {
      assert a * TwoPow32 + TwoPow32 <= c * TwoPow32;
    } else if a > c {
      assert c * TwoPow32 + TwoPow32 <= a * TwoPow32;
    }
  }

  /** `operator<` is the lexicographic order on (uint32(x), uint32(y)). */
  lemma LessIsLexicographic(p: Pos, q: Pos)
    ensures Less(p, q) <==> U32(p.x) < U32(q.x) || (U32(p.x) == U32(q.x) && U32(p.y) < U32(q.y))
  {
    BaseDigits(U32(p.x), U32(p.y), U32(q.x), U32(q.y));
  }

  /** On 32-bit positions `operator<` is a strict total order: irreflexive,
      transitive, and exactly one of p < q, q < p holds for p != q. */
  lemma LessIsStrictTotalOrder(p: Pos, q: Pos, s: Pos)
    requires IsInt32(p.x) && IsInt32(p.y) && IsInt32(q.x) && IsInt32(q.y)
    ensures !Less(p, p)
    ensures p != q ==> (Less(p, q) <==> !Less(q, p))
    ensures p == q ==> !Less(p, q) && !Less(q, p)
    ensures Less(p, q) && Less(q, s) ==> Less(p, s)
  {
    LessIsLexicographic(p, q);
    LessIsLexicographic(q, p);
  }

  /** A rectangle: position and (possibly non-positive) width and height. */
  datatype Rect = Rect(pos: Pos, w: int, h: int) {
    /** `operator+(Pos)`: the same rectangle moved by `o`. */
    function Shift(o: Pos): Rect { Rect(pos.Add(o), w, h) }
    function Unshift(o: Pos): Rect { Rect(pos.Sub(o), w, h) }

    /** `operator bool`. */
    predicate Truthy() { w > 0 && h > 0 }

    /** Point `p` lies inside the rectangle. */
    predicate Contains(p: Pos) {
      pos.x <= p.x < pos.x + w && pos.y <= p.y < pos.y + h
    }

    /** This rectangle lies inside `o`. */
    predicate Within(o: Rect) {
      o.pos.x <= pos.x && pos.x + w <= o.pos.x + o.w &&
      o.pos.y <= pos.y && pos.y + h <= o.pos.y + o.h
    }
  }

  /** `Rect()`: the empty rectangle at the origin. */
  const EmptyRect := Rect(Origin, 0, 0)

  function Max(a: int, b: int): int { if a < b then b else a }
  function Min(a: int, b: int): int { if a < b then a else b }

  /** `Rect::operator&`: the intersection, or `Rect(Pos(0, 0), 0, 0)` when
      it is empty. */
  function Intersect(a: Rect, b: Rect): (r: Rect)
    ensures r == EmptyRect || (r.Truthy() && r.Within(a) && r.Within(b))
    ensures r.Truthy() <==> exists p :: a.Contains(p) && b.Contains(p)
  {
    var xLeft := Max(a.pos.x, b.pos.x);
    var xRight := Min(a.pos.x + a.w, b.pos.x + b.w);
    var width := xRight - xLeft;
    var yTop := Max(a.pos.y, b.pos.y);
    var yBottom := Min(a.pos.y + a.h, b.pos.y + b.h);
    var height := yBottom - yTop;
    if width <= 0 || height <= 0 then
      EmptyRect
    else
      assert a.Contains(Pos(xLeft, yTop)) && b.Contains(Pos(xLeft, yTop));
      Rect(Pos(xLeft, yTop), width, height)
  }

  /** The intersection holds exactly the points both rectangles hold. */
  lemma IntersectExact(a: Rect, b: Rect, p: Pos)
    ensures Intersect(a, b).Contains(p) <==> a.Contains(p) && b.Contains(p)
  {
  }

  /** Intersection does not depend on the order of its operands. */
  lemma IntersectCommutes(a: Rect, b: Rect)
    ensures Intersect(a, b) == Intersect(b, a)
  {
  }

  /** The case the engine's own test prints: two 10x5 rectangles one
      column apart overlap in a 1x5 strip. */
  lemma IntersectExample()
    ensures Intersect(Rect(Pos(10, 20), 10, 5), Rect(Pos(19, 20), 10, 5)) == Rect(Pos(19, 20), 1, 5)
    ensures Intersect(Rect(Pos(0, 0), 10, 10), Rect(Pos(5, 5), 10, 10)) == Rect(Pos(5, 5), 5, 5)
    ensures !Intersect(Rect(Pos(0, 0), 10, 10), Rect(Pos(20, 0), 10, 10)).Truthy()
  {
  }
}

=== FILE: font.dfy ===
/** `Font` and `FontCluster` (font.cpp): a bitmap font cut from a grid
    image, one glyph per character code, and the cursor arithmetic that
    lays a message out glyph by glyph. Characters are the bytes of a
    `char`, so codes wrap modulo 256. */
module Fonts {

  import opened Results
  import opened Utils
  import opened Grid
  import opened Blit
  import opened Surfaces
  import opened RenderTargets
  import opened SurfaceCaches

  /** A character, as the value of a `char`'s byte. */
  type Char = c: int | 0 <= c < 256

  const Newline: Char := 10

  /** The `<glyphs>` element of a font document. A missing element or
      attribute reads as 0 (or "" for `source`), as pugixml's `as_int`
      and `value` do. */
  datatype GlyphsDesc = GlyphsDesc(
    startAscii: int, width: int, height: int, glyphwidth: int, glyphheight: int, source: string)

  /** A font: the glyph of each character code and the glyph size. */
  datatype Font = Font(glyphs: map<Char, Surface>, gw: int, gh: int)

  /** `Font()`: no glyphs, glyph size 0x0. */
  const EmptyFont := Font(map[], 0, 0)

  /** Every glyph can be blitted. */
  predicate FontValid(f: Font) {
    forall c :: c in f.glyphs ==> Blittable(f.glyphs[c])
  }

  // ------------------------------------------------------------ glyph codes

  /** The code of the i-th cell, counting row-major: `start_ascii`
      converted to `char` and incremented once per cell, wrapping. */
  function GlyphCode(start: int, i: int): Char {
    (start + i) % 256
  }

  /** `start_ascii++` on a `char`: the next byte value, wrapping. */
  function NextChar(c: Char): Char {
    (c + 1) % 256
  }

  /** Incrementing the `char` counter gives the next cell's code. */
  lemma GlyphCodeStep(start: int, i: int)
    ensures NextChar(GlyphCode(start, i)) == GlyphCode(start, i + 1)
  {
  }

  /** The first cell whose code is c: cells i with this offset modulo 256
      are exactly the cells carrying c. */
  function FirstCell(start: int, c: Char): (r: nat)
    ensures r < 256 && GlyphCode(start, r) == c
  {
    (c - start) % 256
  }

  /** Cell i carries code c exactly when it is FirstCell(c) plus a multiple
      of 256. */
  lemma GlyphCodeIs(start: int, i: int, c: Char)
    requires i >= 0
    ensures GlyphCode(start, i) == c <==> (i - FirstCell(start, c)) % 256 == 0
  {
  }

  /** The number of cells the constructor's loops visit. */
  function Cells(d: GlyphsDesc): nat {
    if d.width > 0 && d.height > 0 then d.width * d.height else 0
  }

  /** Cell i's rectangle in the font image: column i % width, row
      i / width, one glyph in size. */
  function CellRect(d: GlyphsDesc, i: int): Rect
    requires d.width > 0
  {
    Rect(Pos((i % d.width) * d.glyphwidth, (i / d.width) * d.glyphheight), d.glyphwidth, d.glyphheight)
  }

  /** A grid with columns whose glyphs have non-negative sizes, so that
      every cell can be cut. */
  predicate GridOk(d: GlyphsDesc) {
    d.width > 0 && d.glyphwidth >= 0 && d.glyphheight >= 0
  }

  /** The piece of the image each cell cuts out, as a function of the
      cell index. */
  function Pieces(img: Surface, d: GlyphsDesc): (cut: int -> Surface)
    requires Blittable(img) && GridOk(d)
    ensures forall i :: cut(i) == Sub(img, CellRect(d, i))
  {
    i => Sub(img, CellRect(d, i))
  }

  /** The glyph map after the first k cells: each cell stores its piece
      under its code, replacing what an earlier cell with the same code
      stored. */
  function GlyphsUpTo(cut: int -> Surface, start: int, k: nat): map<Char, Surface>
    decreases k
  {
    if k == 0 then map[] else GlyphsUpTo(cut, start, k - 1)[GlyphCode(start, k - 1) := cut(k - 1)]
  }

  /** Every stored glyph is one of the first k pieces. */
  lemma {:induction false} GlyphsUpToFrom(cut: int -> Surface, start: int, k: nat, c: Char)
    requires c in GlyphsUpTo(cut, start, k)
    ensures exists i :: 0 <= i < k && GlyphsUpTo(cut, start, k)[c] == cut(i)
    decreases k
  {
    if GlyphCode(start, k - 1) == c {
      assert GlyphsUpTo(cut, start, k)[c] == cut(k - 1);
    } else {
      GlyphsUpToFrom(cut, start, k - 1, c);
    }
  }

  /** The geometry the constructor checks before cutting: the image is
      `width` glyphs wide and `height` glyphs high, all sizes non-zero. */
  predicate GeometryOk(img: Surface, d: GlyphsDesc) {
    && d.width != 0 && d.height != 0 && d.glyphwidth != 0 && d.glyphheight != 0
    && img.rect.w >= 0 && img.rect.h >= 0
    && img.rect.w == d.width * d.glyphwidth && img.rect.h == d.height * d.glyphheight
  }

  /** With the geometry checked, a grid that has any cells has positive
      glyph sizes. */
  lemma CellsHavePositiveSize(img: Surface, d: GlyphsDesc)
    requires GeometryOk(img, d) && Cells(d) > 0
    ensures GridOk(d) && d.glyphwidth > 0 && d.glyphheight > 0
  {
  }

  /** The glyph map the constructor builds; every glyph can be blitted
      and follows the camera. */
  function GlyphTable(img: Surface, d: GlyphsDesc): (r: map<Char, Surface>)
    requires Blittable(img) && GeometryOk(img, d)
    ensures forall c :: c in r ==> Blittable(r[c]) && !r[c].ignoreCamera
  {
    if Cells(d) == 0 then map[]
    else
      CellsHavePositiveSize(img, d);
      var r := GlyphsUpTo(Pieces(img, d), d.startAscii, Cells(d));
      assert forall c :: c in r ==> Blittable(r[c]) && !r[c].ignoreCamera by {
        forall c | c in r
          ensures Blittable(r[c]) && !r[c].ignoreCamera
        {
          GlyphsUpToFrom(Pieces(img, d), d.startAscii, Cells(d), c);
        }
      }
      r
  }

  /** The last of the first k cells that carries code c. */
  function LastCell(start: int, c: Char, k: nat): int {
    FirstCell(start, c) + 256 * ((k - 1 - FirstCell(start, c)) / 256)
  }

  /** Which codes the first k cells define and which cell wins: c has a
      glyph exactly when some cell below k carries it, and the glyph is
      the piece of the last such cell. */
  lemma {:induction false} GlyphsUpToAt(cut: int -> Surface, start: int, k: nat, c: Char)
    ensures c in GlyphsUpTo(cut, start, k) <==> FirstCell(start, c) < k
    ensures c in GlyphsUpTo(cut, start, k) ==> GlyphsUpTo(cut, start, k)[c] == cut(LastCell(start, c, k))
    decreases k
  {
    if k > 0 {
      GlyphsUpToAt(cut, start, k - 1, c);
      LastCellStep(start, c, k);
    }
  }

  /** How the last cell carrying c moves when cell k - 1 is added. */
  lemma LastCellStep(start: int, c: Char, k: nat)
    requires k > 0
    ensures GlyphCode(start, k - 1) == c ==> FirstCell(start, c) < k && LastCell(start, c, k) == k - 1
    ensures GlyphCode(start, k - 1) != c ==> (FirstCell(start, c) < k <==> FirstCell(start, c) < k - 1)
    ensures GlyphCode(start, k - 1) != c && FirstCell(start, c) < k - 1 ==>
              LastCell(start, c, k) == LastCell(start, c, k - 1)
  {
    var i0 := FirstCell(start, c);
    var q := k - 1 - i0;
    GlyphCodeIs(start, k - 1, c);
    Decompose(q, 256);
    if q % 256 == 0 {
      assert q == 256 * (q / 256);
      assert q / 256 >= 0;
    } else if i0 < k - 1 {
      DivModUnique(q - 1, 256, q / 256, q % 256 - 1);
    }
  }

  /** The constructor's glyph map, cell by cell: code c has a glyph iff one
      of the width*height cells carries it, and the glyph is the piece at
      the last such cell (later cells overwrite earlier ones). */
  lemma GlyphTableAt(img: Surface, d: GlyphsDesc, c: Char)
    requires Blittable(img) && GeometryOk(img, d)
    ensures c in GlyphTable(img, d) <==> FirstCell(d.startAscii, c) < Cells(d)
    ensures c in GlyphTable(img, d) ==>
              GridOk(d) && GlyphTable(img, d)[c] == Sub(img, CellRect(d, LastCell(d.startAscii, c, Cells(d))))
  {
    if Cells(d) > 0 {
      CellsHavePositiveSize(img, d);
      GlyphsUpToAt(Pieces(img, d), d.startAscii, Cells(d), c);
    }
  }

  /** A grid of at least 256 cells defines every character. */
  lemma FullGridDefinesAll(img: Surface, d: GlyphsDesc, c: Char)
    requires Blittable(img) && GeometryOk(img, d) && Cells(d) >= 256
    ensures c in GlyphTable(img, d)
  {
    GlyphTableAt(img, d, c);
  }

  /** The image cut at pixel (x, y) into a glyph-sized piece: the body of
      the constructor's loops. */
  function Cutter(img: Surface, d: GlyphsDesc): (int, int) -> Surface
    requires Blittable(img) && GridOk(d)
  {
    (x: int, y: int) => Sub(img, Rect(Pos(x, y), d.glyphwidth, d.glyphheight))
  }

  /** The cut at column x of row y is the piece of cell y*width + x. */
  ghost predicate AgreesAt(d: GlyphsDesc, piece: int -> Surface, cut: (int, int) -> Surface, x: int, y: int) {
    piece(y * d.width + x) == cut(x * d.glyphwidth, y * d.glyphheight)
  }

  ghost predicate Agrees(d: GlyphsDesc, piece: int -> Surface, cut: (int, int) -> Surface) {
    forall x, y :: 0 <= x < d.width && 0 <= y ==> AgreesAt(d, piece, cut, x, y)
  }

  /** Row-major cell numbering agrees with the cuts of the loops. */
  lemma CutterAgrees(img: Surface, d: GlyphsDesc)
    requires Blittable(img) && GridOk(d)
    ensures Agrees(d, Pieces(img, d), Cutter(img, d))
  {
    forall x, y | 0 <= x < d.width && 0 <= y
      ensures AgreesAt(d, Pieces(img, d), Cutter(img, d), x, y)
    {
      CellAgrees(img, d, x, y);
    }
  }

  /** One cell of `CutterAgrees`. */
  lemma CellAgrees(img: Surface, d: GlyphsDesc, x: int, y: int)
    requires Blittable(img) && GridOk(d) && 0 <= x < d.width && 0 <= y
    ensures AgreesAt(d, Pieces(img, d), Cutter(img, d), x, y)
  {
    var rect := Rect(Pos(x * d.glyphwidth, y * d.glyphheight), d.glyphwidth, d.glyphheight);
    CellRectAt(d, x, y, y * d.width);
    assert Pieces(img, d)(y * d.width + x) == Sub(img, rect);
    assert Cutter(img, d)(x * d.glyphwidth, y * d.glyphheight) == Sub(img, rect);
  }

  /** Cell number y*width + x is the cell at column x of row y. */
  lemma CellRectAt(d: GlyphsDesc, x: int, y: int, base: int)
    requires GridOk(d) && 0 <= x < d.width && 0 <= y && base == y * d.width
    ensures CellRect(d, base + x) == Rect(Pos(x * d.glyphwidth, y * d.glyphheight), d.glyphwidth, d.glyphheight)
  {
    DivModUnique(base + x, d.width, y, x);
  }

  /** The nested loops of the constructor: rows y, columns x, a `char`
      code that is incremented after every cell, and
      `surf_map[code] = surf.sub({x*gw, y*gh}, gw, gh)`. A grid with a
      non-positive width or height has no cell, and the loops store
      nothing. */
  method CutGlyphs(img: Surface, d: GlyphsDesc) returns (glyphs: map<Char, Surface>)
    requires Blittable(img) && GeometryOk(img, d)
    ensures glyphs == GlyphTable(img, d)
  {
    glyphs := map[];
    if Cells(d) > 0 {
      CellsHavePositiveSize(img, d);
      CutterAgrees(img, d);
      glyphs := CutCells(d, Pieces(img, d), Cutter(img, d));
    }
  }

  /** The loops over a grid with cells: row by row. */
  method CutCells(d: GlyphsDesc, piece: int -> Surface, cut: (int, int) -> Surface)
    returns (glyphs: map<Char, Surface>)
    requires GridOk(d) && d.height > 0 && Agrees(d, piece, cut)
    ensures glyphs == GlyphsUpTo(piece, d.startAscii, Cells(d))
  {
    glyphs := map[];
    var code: Char := GlyphCode(d.startAscii, 0);
    var y := 0;
    ghost var base := 0;
    while y < d.height
      invariant 0 <= y <= d.height && base == y * d.width
      invariant code == GlyphCode(d.startAscii, base)
      invariant glyphs == GlyphsUpTo(piece, d.startAscii, base)
    {
      code, glyphs := CutRow(d, piece, cut, y, base, code, glyphs);
      NextRow(y, d.width, 0);
      base := base + d.width;
      y := y + 1;
    }
    assert base == d.width * d.height;
  }

  /** One row of the loops: the cells of row y, left to right, from cell
      number `base`. */
  method CutRow(d: GlyphsDesc, piece: int -> Surface, cut: (int, int) -> Surface,
                y: int, ghost base: int, code0: Char, glyphs0: map<Char, Surface>)
    returns (code: Char, glyphs: map<Char, Surface>)
    requires GridOk(d) && 0 <= y && Agrees(d, piece, cut) && base == y * d.width && base >= 0
    requires code0 == GlyphCode(d.startAscii, base)
    requires glyphs0 == GlyphsUpTo(piece, d.startAscii, base)
    ensures code == GlyphCode(d.startAscii, base + d.width)
    ensures glyphs == GlyphsUpTo(piece, d.startAscii, base + d.width)
  {
    code, glyphs := code0, glyphs0;
    var x := 0;
    while x < d.width
      invariant 0 <= x <= d.width
      invariant code == GlyphCode(d.startAscii, base + x)
      invariant glyphs == GlyphsUpTo(piece, d.startAscii, base + x)
    {
      assert AgreesAt(d, piece, cut, x, y);
      glyphs := glyphs[code := cut(x * d.glyphwidth, y * d.glyphheight)];
      GlyphCodeStep(d.startAscii, base + x);
      code := NextChar(code);
      x := x + 1;
    }
  }

  /** The path of the font image: `basedir(font)/source`. */
  function ImagePath(path: string, d: GlyphsDesc): string {
    Join([Basedir(path), "/", d.source])
  }

  /** The four sizes of a `<glyphs>` element are non-zero. */
  predicate SizesNonZero(d: GlyphsDesc) {
    d.width != 0 && d.height != 0 && d.glyphwidth != 0 && d.glyphheight != 0
  }

  /** A decoded image is exactly width x height glyphs. */
  predicate ImageFits(img: Decoded, d: GlyphsDesc)
    requires img.Decoded?
  {
    img.w == d.width * d.glyphwidth && img.h == d.height * d.glyphheight
  }

  /** `Font(font)`: `runtime_error` when the document does not load,
      `logic_error` for a zero size, `runtime_error` when the image does
      not decode (it is loaded through a cache of its own), `logic_error`
      when the image is not width x height glyphs; otherwise the glyph
      table and the glyph size. */
  function LoadFont(path: string, docs: string -> Option<GlyphsDesc>, decode: Decoder): (r: Result<Font>)
    ensures docs(path).None? ==> r == Err(RuntimeError)
    ensures docs(path).Some? ==> var d := docs(path).value;
      (d.width == 0 || d.height == 0 || d.glyphwidth == 0 || d.glyphheight == 0 ==> r == Err(LogicError))
    ensures r.Err? ==> r.error == RuntimeError || r.error == LogicError
    ensures r.Ok? ==> docs(path).Some? && decode(ImagePath(path, docs(path).value)).Decoded?
    ensures r.Ok? ==> var d := docs(path).value; var img := decode(ImagePath(path, d));
      && img.w == d.width * d.glyphwidth && img.h == d.height * d.glyphheight
      && r.value.gw == d.glyphwidth && r.value.gh == d.glyphheight && r.value.gw != 0 && r.value.gh != 0
      && FontValid(r.value)
    ensures docs(path).Some? && decode(ImagePath(path, docs(path).value)).DecodeError? ==> r.Err?
    ensures docs(path).Some? && SizesNonZero(docs(path).value)
            && decode(ImagePath(path, docs(path).value)).DecodeError?
            ==> r == Err(RuntimeError)
    ensures docs(path).Some? && SizesNonZero(docs(path).value)
            && decode(ImagePath(path, docs(path).value)).Decoded?
            && !ImageFits(decode(ImagePath(path, docs(path).value)), docs(path).value)
            ==> r == Err(LogicError)
    ensures r.Ok? <==> (docs(path).Some? && SizesNonZero(docs(path).value)
                        && decode(ImagePath(path, docs(path).value)).Decoded?
                        && ImageFits(decode(ImagePath(path, docs(path).value)), docs(path).value))
  {
    match docs(path)
    case None => Err(RuntimeError)
    case Some(d) =>
      if d.width == 0 || d.height == 0 || d.glyphwidth == 0 || d.glyphheight == 0 then Err(LogicError)
      else
        match FromImage(map[], ImagePath(path, d), decode).0
        case Err(e) => Err(e)
        case Ok(img) =>
          if img.rect.w != d.width * d.glyphwidth || img.rect.h != d.height * d.glyphheight then Err(LogicError)
          else Ok(Font(GlyphTable(img, d), d.glyphwidth, d.glyphheight))
  }

  /** A loaded font maps a character to the piece of the last cell that
      carries its code, and to nothing when no cell does. */
  lemma LoadFontGlyph(path: string, docs: string -> Option<GlyphsDesc>, decode: Decoder, c: Char)
    requires LoadFont(path, docs, decode).Ok?
    ensures var d := docs(path).value; var f := LoadFont(path, docs, decode).value;
      var img := FromImage(map[], ImagePath(path, d), decode).0.value;
      && (c in f.glyphs <==> FirstCell(d.startAscii, c) < Cells(d))
      && (c in f.glyphs ==> d.width > 0 && f.glyphs[c] == Sub(img, CellRect(d, LastCell(d.startAscii, c, Cells(d)))))
  {
    var d := docs(path).value;
    var img := FromImage(map[], ImagePath(path, d), decode).0.value;
    GlyphTableAt(img, d, c);
  }

  // ------------------------------------------------------------ lookup

  /** `Font::surface(c)`: the glyph, or `logic_error` when c has none. */
  function GlyphSurface(f: Font, c: Char): (r: Result<Surface>)
    ensures r.Err? <==> c !in f.glyphs
    ensures r.Err? ==> r.error == LogicError
    ensures r.Ok? ==> r.value == f.glyphs[c]
  {
    if c in f.glyphs then Ok(f.glyphs[c]) else Err(LogicError)
  }

  /** `set_color`: every glyph refilled with the colour. `Surface::refill_color`
      is not part of this model and comes in as `refill`. */
  function SetColor(f: Font, pix: Pixel, refill: (Surface, Pixel) -> Surface): (r: Font)
    ensures r.glyphs.Keys == f.glyphs.Keys && r.gw == f.gw && r.gh == f.gh
    ensures forall c :: c in r.glyphs ==> r.glyphs[c] == refill(f.glyphs[c], pix)
  {
    f.(glyphs := map c | c in f.glyphs :: refill(f.glyphs[c], pix))
  }

  // ------------------------------------------------------------ layout

  /** The number of newlines before position k. */
  function Line(msg: seq<Char>, k: nat): nat
    requires k <= |msg|
  {
    if k == 0 then 0 else Line(msg, k - 1) + (if msg[k - 1] == Newline then 1 else 0)
  }

  /** The number of characters between the last newline before k and k. */
  function Column(msg: seq<Char>, k: nat): nat
    requires k <= |msg|
  {
    if k == 0 then 0 else if msg[k - 1] == Newline then 0 else Column(msg, k - 1) + 1
  }

  /** Where character k is drawn: the column times the glyph width from
      x0, the line times the glyph height plus newline offset from y0. */
  function Cursor(f: Font, msg: seq<Char>, x0: int, y0: int, nl: int, k: nat): Pos
    requires k <= |msg|
  {
    Pos(x0 + Column(msg, k) * f.gw, y0 + Line(msg, k) * (f.gh + nl))
  }

  /** Line and column of the j-th character after a newline: one line more
      than before the newline, column j. */
  lemma {:induction false} LineColumnAfterNewline(a: seq<Char>, b: seq<Char>, j: nat)
    requires forall i :: 0 <= i < |b| ==> b[i] != Newline
    requires j <= |b|
    ensures var msg := a + [Newline] + b;
      Line(msg, |a| + 1 + j) == Line(a, |a|) + 1 && Column(msg, |a| + 1 + j) == j
    decreases j
  {
    var msg := a + [Newline] + b;
    if j == 0 {
      LinePrefix(msg, a, |a|);
      assert msg[|a|] == Newline;
    } else {
      LineColumnAfterNewline(a, b, j - 1);
      assert msg[|a| + j] == b[j - 1];
    }
  }

  /** A line and column on the first line of a message without a newline
      before it: line 0, column j. */
  lemma {:induction false} FirstLineColumn(msg: seq<Char>, j: nat)
    requires j <= |msg| && forall i :: 0 <= i < j ==> msg[i] != Newline
    ensures Line(msg, j) == 0 && Column(msg, j) == j
    decreases j
  {
    if j > 0 {
      FirstLineColumn(msg, j - 1);
    }
  }

  /** Line counts only look at the prefix. */
  lemma {:induction false} LinePrefix(msg: seq<Char>, a: seq<Char>, k: nat)
    requires k <= |a| <= |msg| && a == msg[..|a|]
    ensures Line(msg, k) == Line(a, k)
    decreases k
  {
    if k > 0 {
      LinePrefix(msg, a, k - 1);
      assert msg[k - 1] == a[k - 1];
    }
  }

  /** Character i is drawable: a newline, or a code with a glyph. */
  predicate Drawable(f: Font, c: Char) {
    c == Newline || c in f.glyphs
  }

  predicate NoMissing(f: Font, msg: seq<Char>, k: nat)
    requires k <= |msg|
  {
    forall i :: 0 <= i < k ==> Drawable(f, msg[i])
  }

  /** The index of the first character from i on that has no glyph, or
      the length of the message. */
  function MissingFrom(f: Font, msg: seq<Char>, i: nat): (r: nat)
    requires i <= |msg|
    ensures i <= r <= |msg|
    ensures forall j :: i <= j < r ==> Drawable(f, msg[j])
    ensures r < |msg| ==> !Drawable(f, msg[r])
    decreases |msg| - i
  {
    if i == |msg| || !Drawable(f, msg[i]) then i else MissingFrom(f, msg, i + 1)
  }

  /** The target after the first k characters are laid out: a newline
      draws nothing; any other character's glyph is blitted at its cursor
      through an empty sub-rectangle. */
  function Drawn(t: Target, f: Font, msg: seq<Char>, x0: int, y0: int, nl: int, k: nat): (r: Target)
    requires TargetValid(t) && FontValid(f) && k <= |msg| && NoMissing(f, msg, k)
    ensures TargetValid(r) && r.rect == t.rect
    decreases k
  {
    if k == 0 then t
    else
      var prev := Drawn(t, f, msg, x0, y0, nl, k - 1);
      if msg[k - 1] == Newline then prev
      else Composite(prev, f.glyphs[msg[k - 1]], EmptyRect, Cursor(f, msg, x0, y0, nl, k - 1))
  }

  /** One more character: a newline leaves the target alone, any other
      character blits its glyph at its cursor. */
  lemma DrawnStep(t: Target, f: Font, msg: seq<Char>, x0: int, y0: int, nl: int, k: nat)
    requires TargetValid(t) && FontValid(f) && k < |msg| && NoMissing(f, msg, k + 1)
    ensures NoMissing(f, msg, k)
    ensures msg[k] == Newline ==> Drawn(t, f, msg, x0, y0, nl, k + 1) == Drawn(t, f, msg, x0, y0, nl, k)
    ensures msg[k] != Newline ==>
              Drawn(t, f, msg, x0, y0, nl, k + 1)
                == Composite(Drawn(t, f, msg, x0, y0, nl, k), f.glyphs[msg[k]], EmptyRect, Cursor(f, msg, x0, y0, nl, k))
  {
  }

  /** What `render_msg` leaves behind: every character before the first
      one without a glyph is drawn, and that character, if any, throws
      `logic_error`. */
  function Rendered(t: Target, f: Font, msg: seq<Char>, x0: int, y0: int, nl: int): (r: (Target, Result<()>))
    requires TargetValid(t) && FontValid(f)
    ensures TargetValid(r.0) && r.0.rect == t.rect
  {
    var n := MissingFrom(f, msg, 0);
    (Drawn(t, f, msg, x0, y0, nl, n), if n < |msg| then Err(LogicError) else Ok(()))
  }

  /** A message renders completely, with every character drawn, exactly
      when each of its characters is a newline or has a glyph; otherwise
      `logic_error` is thrown. */
  lemma RenderedMeaning(t: Target, f: Font, msg: seq<Char>, x0: int, y0: int, nl: int)
    requires TargetValid(t) && FontValid(f)
    ensures var r := Rendered(t, f, msg, x0, y0, nl);
      && (r.1.Err? <==> exists i :: 0 <= i < |msg| && !Drawable(f, msg[i]))
      && (r.1.Err? ==> r.1.error == LogicError)
      && (r.1.Ok? ==> r.0 == Drawn(t, f, msg, x0, y0, nl, |msg|))
      && (r.1.Err? ==> var n := MissingFrom(f, msg, 0);
            n < |msg| && !Drawable(f, msg[n]) && r.0 == Drawn(t, f, msg, x0, y0, nl, n))
  {
  }

  /** A message of newlines only draws nothing. */
  lemma {:induction false} NewlinesDrawNothing(t: Target, f: Font, msg: seq<Char>, x0: int, y0: int, nl: int, k: nat)
    requires TargetValid(t) && FontValid(f) && k <= |msg|
    requires forall i :: 0 <= i < |msg| ==> msg[i] == Newline
    ensures Drawn(t, f, msg, x0, y0, nl, k) == t
    decreases k
  {
    if k > 0 {
      NewlinesDrawNothing(t, f, msg, x0, y0, nl, k - 1);
    }
  }

  /** `Font::render_msg`: walk the message keeping the cursor; a newline
      moves it to the start of the next line, any other character is
      looked up (which may throw) and blitted, moving the cursor one glyph
      right. */
  method RenderMsg(t: Target, f: Font, msg: seq<Char>, x: int, y: int, nl: int)
    returns (r: Target, res: Result<()>)
    requires TargetValid(t) && FontValid(f)
    ensures (r, res) == Rendered(t, f, msg, x, y, nl)
  {
    var origX := x;
    var cx, cy := x, y;
    r := t;
    var i := 0;
    while i < |msg|
      invariant 0 <= i <= |msg| && NoMissing(f, msg, i)
      invariant cx == x + Column(msg, i) * f.gw && cy == y + Line(msg, i) * (f.gh + nl)
      invariant r == Drawn(t, f, msg, x, y, nl, i)
    {
      var c := msg[i];
      if c != Newline {
        var s := GlyphSurface(f, c);
        if s.Err? {
          assert MissingFrom(f, msg, 0) == i;
          return r, Err(s.error);
        }
        assert Pos(cx, cy) == Cursor(f, msg, x, y, nl, i);
        DrawnStep(t, f, msg, x, y, nl, i);
        r := BlitOffset(r, s.value, EmptyRect, Pos(cx, cy));
        assert (Column(msg, i) + 1) * f.gw == Column(msg, i) * f.gw + f.gw;
        cx := cx + f.gw;
      } else {
        DrawnStep(t, f, msg, x, y, nl, i);
        assert (Line(msg, i) + 1) * (f.gh + nl) == Line(msg, i) * (f.gh + nl) + (f.gh + nl);
        cy := cy + f.gh + nl;
        cx := origX;
      }
      i := i + 1;
    }
    assert MissingFrom(f, msg, 0) == |msg|;
    res := Ok(());
  }

  // ------------------------------------------------------------ clusters

  /** `FontCluster::OffsetFont`: a font drawn shifted by an offset. */
  datatype OffsetFont = OffsetFont(font: Font, offset: Pos)

  predicate ClusterValid(fonts: seq<OffsetFont>) {
    forall i :: 0 <= i < |fonts| ==> FontValid(fonts[i].font)
  }

  /** `add_font`: the font loaded, recoloured and appended with its
      offset; a font that fails to load throws and adds nothing. */
  function AddFont(fonts: seq<OffsetFont>, path: string, offset: Pos, color: Pixel,
                   docs: string -> Option<GlyphsDesc>, decode: Decoder,
                   refill: (Surface, Pixel) -> Surface): (r: Result<seq<OffsetFont>>)
    ensures LoadFont(path, docs, decode).Err? ==> r == Err(LoadFont(path, docs, decode).error)
    ensures r.Ok? <==> LoadFont(path, docs, decode).Ok?
    ensures r.Ok? ==> |r.value| == |fonts| + 1 && r.value[..|fonts|] == fonts
    ensures r.Ok? ==> var f := LoadFont(path, docs, decode).value; var g := r.value[|fonts|].font;
      && r.value[|fonts|].offset == offset && g.gw == f.gw && g.gh == f.gh
      && g.glyphs.Keys == f.glyphs.Keys
      && forall c :: c in g.glyphs ==> g.glyphs[c] == refill(f.glyphs[c], color)
  {
    match LoadFont(path, docs, decode)
    case Err(e) => Err(e)
    case Ok(f) => Ok(fonts + [OffsetFont(SetColor(f, color, refill), offset)])
  }

  /** `FontCluster::glyph_size`: the largest glyph width and the largest
      glyph height over the fonts (possibly of different fonts);
      `max_element` of an empty list would be dereferenced, so the list
      must not be empty. */
  function GlyphSize(fonts: seq<OffsetFont>): (r: Pos)
    requires |fonts| > 0
    ensures forall i :: 0 <= i < |fonts| ==> fonts[i].font.gw <= r.x && fonts[i].font.gh <= r.y
    ensures exists i :: 0 <= i < |fonts| && fonts[i].font.gw == r.x
    ensures exists j :: 0 <= j < |fonts| && fonts[j].font.gh == r.y
    decreases |fonts|
  {
    if |fonts| == 1 then Pos(fonts[0].font.gw, fonts[0].font.gh)
    else
      var rest := GlyphSize(fonts[1..]);
      assert forall i :: 1 <= i < |fonts| ==> fonts[i] == fonts[1..][i - 1];
      Pos(Max(fonts[0].font.gw, rest.x), Max(fonts[0].font.gh, rest.y))
  }

  /** `FontCluster::render_msg` from the i-th font on: every font in
      insertion order, each at the position shifted by its offset; an
      exception stops the walk. */
  function ClusterFrom(t: Target, fonts: seq<OffsetFont>, i: nat, msg: seq<Char>, x: int, y: int, nl: int)
    : (r: (Target, Result<()>))
    requires TargetValid(t) && ClusterValid(fonts) && i <= |fonts|
    ensures TargetValid(r.0) && r.0.rect == t.rect
    decreases |fonts| - i
  {
    if i == |fonts| then (t, Ok(()))
    else
      var o := fonts[i];
      var p := Rendered(t, o.font, msg, x + o.offset.x, y + o.offset.y, nl);
      if p.1.Err? then p else ClusterFrom(p.0, fonts, i + 1, msg, x, y, nl)
  }

  function ClusterRendered(t: Target, fonts: seq<OffsetFont>, msg: seq<Char>, x: int, y: int, nl: int)
    : (r: (Target, Result<()>))
    requires TargetValid(t) && ClusterValid(fonts)
  {
    ClusterFrom(t, fonts, 0, msg, x, y, nl)
  }

  /** Adding a font draws it on top of what the earlier fonts drew. */
  lemma AddedFontDrawsLast(t: Target, fonts: seq<OffsetFont>, o: OffsetFont, msg: seq<Char>, x: int, y: int, nl: int)
    requires TargetValid(t) && ClusterValid(fonts) && FontValid(o.font)
    ensures ClusterValid(fonts + [o])
    ensures var p := ClusterRendered(t, fonts, msg, x, y, nl);
      ClusterRendered(t, fonts + [o], msg, x, y, nl)
        == if p.1.Err? then p else Rendered(p.0, o.font, msg, x + o.offset.x, y + o.offset.y, nl)
  {
    AppendValid(fonts, o);
    ClusterAppend(t, fonts, o, 0, msg, x, y, nl);
  }

  lemma AppendValid(fonts: seq<OffsetFont>, o: OffsetFont)
    requires ClusterValid(fonts) && FontValid(o.font)
    ensures ClusterValid(fonts + [o])
  {
    assert forall i :: 0 <= i < |fonts| ==> (fonts + [o])[i] == fonts[i];
  }

  lemma {:induction false} ClusterAppend(t: Target, fonts: seq<OffsetFont>, o: OffsetFont, i: nat,
                                         msg: seq<Char>, x: int, y: int, nl: int)
    requires TargetValid(t) && ClusterValid(fonts) && FontValid(o.font) && ClusterValid(fonts + [o])
    requires i <= |fonts|
    ensures var p := ClusterFrom(t, fonts, i, msg, x, y, nl);
      ClusterFrom(t, fonts + [o], i, msg, x, y, nl)
        == if p.1.Err? then p else Rendered(p.0, o.font, msg, x + o.offset.x, y + o.offset.y, nl)
    decreases |fonts| - i
  {
    var all := fonts + [o];
    if i == |fonts| {
      assert all[i] == o;
      var p := Rendered(t, o.font, msg, x + o.offset.x, y + o.offset.y, nl);
      assert ClusterFrom(t, all, i, msg, x, y, nl) == if p.1.Err? then p else ClusterFrom(p.0, all, i + 1, msg, x, y, nl);
    } else {
      var f := fonts[i];
      assert all[i] == f;
      var p := Rendered(t, f.font, msg, x + f.offset.x, y + f.offset.y, nl);
      assert ClusterFrom(t, all, i, msg, x, y, nl) == if p.1.Err? then p else ClusterFrom(p.0, all, i + 1, msg, x, y, nl);
      assert ClusterFrom(t, fonts, i, msg, x, y, nl) == if p.1.Err? then p else ClusterFrom(p.0, fonts, i + 1, msg, x, y, nl);
      if p.1.Ok? {
        ClusterAppend(p.0, fonts, o, i + 1, msg, x, y, nl);
      }
    }
  }

  /** `OffsetFont::render_msg`: the font's own render at the shifted
      position. */
  method RenderOffset(t: Target, o: OffsetFont, msg: seq<Char>, x: int, y: int, nl: int)
    returns (r: Target, res: Result<()>)
    requires TargetValid(t) && FontValid(o.font)
    ensures (r, res) == Rendered(t, o.font, msg, x + o.offset.x, y + o.offset.y, nl)
  {
    r, res := RenderMsg(t, o.font, msg, x + o.offset.x, y + o.offset.y, nl);
  }

  /** The loop of `FontCluster::render_msg`. */
  method RenderCluster(t: Target, fonts: seq<OffsetFont>, msg: seq<Char>, x: int, y: int, nl: int)
    returns (r: Target, res: Result<()>)
    requires TargetValid(t) && ClusterValid(fonts)
    ensures (r, res) == ClusterRendered(t, fonts, msg, x, y, nl)
  {
    r := t;
    var i := 0;
    while i < |fonts|
      invariant 0 <= i <= |fonts| && TargetValid(r)
      invariant ClusterRendered(t, fonts, msg, x, y, nl) == ClusterFrom(r, fonts, i, msg, x, y, nl)
    {
      var out;
      r, out := RenderOffset(r, fonts[i], msg, x, y, nl);
      if out.Err? {
        return r, out;
      }
      i := i + 1;
    }
    res := Ok(());
  }
}

=== FILE: game.dfy ===
/** `Game` (game.cpp): one level being played. The map is built from the
    level file, the player sprite is the level's PNG, and each frame moves
    the player by the pressed directions (a move is refused when a tile
    under the moved player collides) and then draws background, map and
    player. The input and video callbacks and `RenderTarget::finalize` are
    parameters. */
module Games {

  import opened Results
  import opened Utils
  import opened Blit
  import opened Surfaces
  import opened RenderTargets
  import opened SurfaceCaches
  import opened Tilemaps

  /** `Icy::Input`. game.hpp lists the first five; libretro.cpp also asks
      for `Menu` and `Reset`. */
  datatype Input = Up | Down | Left | Right | Push | Menu | Reset

  /** A level being played: map, frame buffer, player sprite and the cache
      the player image was loaded through. */
  datatype Game = Game(level: Tilemap, target: Target, player: Surface, cache: Cache)

  /** What `Game(level)` reads through: the XML reader (the map document
      of a path, None when it fails to load) and the image loaders. */
  datatype Loaders = Loaders(maps: string -> Option<MapDesc>, env: Env)

  /** Where the player is put when a level starts. */
  const PlayerStart := Pos(16, 16)

  /** The colour every frame is cleared to. */
  const Background: Pixel := ARGB(0xff, 0xa0, 0x80, 0x80)

  /** `RenderTarget(width, height)`: the buffer is a `std::vector` of
      `width * height` pixels, so a negative product is a `length_error`;
      otherwise all pixels are zero and the camera is at the origin. */
  function GameTarget(w: int, h: int): (r: Result<Target>)
    ensures r.Err? <==> w * h < 0
    ensures r.Err? ==> r.error == LengthError
    ensures r.Ok? ==> r.value.rect == Rect(Origin, w, h) && |r.value.buffer| == w * h
    ensures r.Ok? ==> forall i :: 0 <= i < |r.value.buffer| ==> r.value.buffer[i] == 0
    ensures r.Ok? && w >= 0 && h >= 0 ==> r.value == NewTarget(w, h)
  {
    if w * h < 0 then Err(LengthError) else Ok(Target(seq(w * h, _ => 0), Rect(Origin, w, h)))
  }

  /** `Game(level)`: the map of the level file, a target of the map's
      pixel size, and the image `level + ".png"` from a fresh cache as the
      player, moved to (16, 16). Each step's exception propagates: the
      map's, a `length_error` for a negative pixel size, and the image's
      `runtime_error`. */
  function NewGame(level: string, ld: Loaders): (r: Result<Game>)
    ensures Build(level, ld.maps(level), ld.env).Err? ==> r == Err(Build(level, ld.maps(level), ld.env).error)
    ensures r.Ok? ==> var m := Build(level, ld.maps(level), ld.env);
      m.Ok? && r.value.level == m.value
      && r.value.target.rect == Rect(Origin, PixWidth(m.value), PixHeight(m.value))
      && |r.value.target.buffer| == PixWidth(m.value) * PixHeight(m.value)
    ensures r.Ok? ==> ld.env.decode(Join([level, ".png"])).Decoded?
    ensures r.Ok? ==> var d := ld.env.decode(Join([level, ".png"]));
      r.value.player.rect == Rect(PlayerStart, d.w, d.h) && !r.value.player.ignoreCamera
    ensures Build(level, ld.maps(level), ld.env).Ok? && ld.env.decode(Join([level, ".png"])).DecodeError?
            && PixWidth(Build(level, ld.maps(level), ld.env).value) * PixHeight(Build(level, ld.maps(level), ld.env).value) >= 0
            ==> r == Err(RuntimeError)
    ensures Build(level, ld.maps(level), ld.env).Ok?
            && PixWidth(Build(level, ld.maps(level), ld.env).value) * PixHeight(Build(level, ld.maps(level), ld.env).value) < 0
            ==> r == Err(LengthError)
    ensures r.Ok? <==> (Build(level, ld.maps(level), ld.env).Ok?
                       && PixWidth(Build(level, ld.maps(level), ld.env).value) * PixHeight(Build(level, ld.maps(level), ld.env).value) >= 0
                       && ld.env.decode(Join([level, ".png"])).Decoded?)
    ensures r.Ok? ==> r.value.player.data == Some(LoadImage(Join([level, ".png"]), ld.env.decode).value)
  {
    match Build(level, ld.maps(level), ld.env)
    case Err(e) => Err(e)
    case Ok(m) =>
      match GameTarget(PixWidth(m), PixHeight(m))
      case Err(e) => Err(e)
      case Ok(t) =>
        var (img, cache) := FromImage(map[], Join([level, ".png"]), ld.env.decode);
        match img
        case Err(e) => Err(e)
        case Ok(p) => Ok(Game(m, t, p.(rect := p.rect.(pos := PlayerStart)), cache))
  }

  /** What a frame needs: a target of non-negative size, a map and a
      player that can be blitted, and the non-zero tile size the tilemap
      constructor checked. */
  predicate GameValid(g: Game) {
    TargetValid(g.target) && LayersBlittable(g.level.layers) && Blittable(g.player)
    && g.level.tilewidth != 0 && g.level.tileheight != 0
  }

  /** A game whose map has a non-negative pixel size and whose sprites can
      be blitted is ready to run frames. */
  lemma NewGameValid(level: string, ld: Loaders)
    requires SpritesBlittable(ld.env)
    ensures var r := NewGame(level, ld);
      r.Ok? && PixWidth(r.value.level) >= 0 && PixHeight(r.value.level) >= 0 ==> GameValid(r.value)
  {
    BuildBlittable(level, ld.maps(level), ld.env);
  }

  // ---------------------------------------------------------------- movement

  /** The tile columns (or rows) `move_if_no_collision` checks for a span of
      `len` pixels from `start`: from `start / tile` to
      `(start + len - 1) / tile`, with C++ truncating division. */
  function SpanFirst(start: int, tile: int): int
    requires tile != 0
  {
    CDiv(start, tile)
  }

  function SpanLast(start: int, len: int, tile: int): int
    requires tile != 0
  {
    CDiv(start + len - 1, tile)
  }

  /** Tile (x, y) lies in the range checked for the rectangle r. */
  predicate UnderRect(m: Tilemap, r: Rect, x: int, y: int)
    requires m.tilewidth != 0 && m.tileheight != 0
  {
    SpanFirst(r.pos.x, m.tilewidth) <= x <= SpanLast(r.pos.x, r.w, m.tilewidth)
    && SpanFirst(r.pos.y, m.tileheight) <= y <= SpanLast(r.pos.y, r.h, m.tileheight)
  }

  /** Some tile of the range checked for r collides. */
  ghost predicate Blocked(m: Tilemap, r: Rect)
    requires m.tilewidth != 0 && m.tileheight != 0
  {
    exists x, y :: UnderRect(m, r, x, y) && Collision(m, Pos(x, y))
  }

  /** A colliding tile in columns x .. x1 of row y. */
  function RowHits(m: Tilemap, y: int, x: int, x1: int): (r: bool)
    ensures r <==> exists x' :: x <= x' <= x1 && Collision(m, Pos(x', y))
    decreases x1 - x + 1
  {
    if x > x1 then false
    else Collision(m, Pos(x, y)) || RowHits(m, y, x + 1, x1)
  }

  /** A colliding tile in rows y .. y1, columns x0 .. x1. */
  function AreaHits(m: Tilemap, y: int, y1: int, x0: int, x1: int): (r: bool)
    ensures r <==> exists x', y' :: y <= y' <= y1 && x0 <= x' <= x1 && Collision(m, Pos(x', y'))
    decreases y1 - y + 1
  {
    if y > y1 then false
    else RowHits(m, y, x0, x1) || AreaHits(m, y + 1, y1, x0, x1)
  }

  /** Whether the tiles under r hold a colliding one, as a computation. */
  function Hits(m: Tilemap, r: Rect): (b: bool)
    requires m.tilewidth != 0 && m.tileheight != 0
    ensures b <==> Blocked(m, r)
  {
    AreaHits(m, SpanFirst(r.pos.y, m.tileheight), SpanLast(r.pos.y, r.h, m.tileheight),
             SpanFirst(r.pos.x, m.tilewidth), SpanLast(r.pos.x, r.w, m.tilewidth))
  }

  /** The scan of `move_if_no_collision`, as written: rows outside,
      columns inside, stopping at the first colliding tile. */
  method ScanCollisions(m: Tilemap, r: Rect) returns (hit: bool)
    requires m.tilewidth != 0 && m.tileheight != 0
    ensures hit <==> Blocked(m, r)
  {
    var minX, maxX := SpanFirst(r.pos.x, m.tilewidth), SpanLast(r.pos.x, r.w, m.tilewidth);
    var minY, maxY := SpanFirst(r.pos.y, m.tileheight), SpanLast(r.pos.y, r.h, m.tileheight);
    var y := minY;
    while y <= maxY
      invariant minY <= y && (minY <= maxY ==> y <= maxY + 1)
      invariant forall x', y' :: minY <= y' < y && minX <= x' <= maxX ==> !Collision(m, Pos(x', y'))
      decreases maxY - y
    {
      var x := minX;
      while x <= maxX
        invariant minX <= x && (minX <= maxX ==> x <= maxX + 1)
        invariant forall x' :: minX <= x' < x ==> !Collision(m, Pos(x', y))
        decreases maxX - x
      {
        if Collision(m, Pos(x, y)) {
          assert UnderRect(m, r, x, y);
          return true;
        }
        x := x + 1;
      }
      y := y + 1;
    }
    hit := false;
  }

  /** `move_if_no_collision(offset)`: the player moves by exactly
      `offset` unless a tile under the moved player collides, in which
      case nothing changes. */
  function MoveIfNoCollision(g: Game, offset: Pos): (r: Game)
    requires g.level.tilewidth != 0 && g.level.tileheight != 0
    ensures Blocked(g.level, g.player.rect.Shift(offset)) ==> r == g
    ensures !Blocked(g.level, g.player.rect.Shift(offset)) ==>
              r == g.(player := g.player.(rect := g.player.rect.Shift(offset)))
  {
    if Hits(g.level, g.player.rect.Shift(offset)) then g
    else g.(player := g.player.(rect := g.player.rect.Shift(offset)))
  }

  /** One direction of `update_player`: a one-pixel move when the input
      is pressed. The move happens in full or not at all; the player's
      size and everything else stay, and blittability is kept. */
  function Try(g: Game, pressed: Input -> bool, i: Input, offset: Pos): (r: Game)
    requires g.level.tilewidth != 0 && g.level.tileheight != 0
    ensures r.player.rect.pos == g.player.rect.pos
            || (pressed(i) && r.player.rect.pos == g.player.rect.pos.Add(offset))
    ensures r.player == g.player.(rect := r.player.rect)
    ensures r.player.rect.w == g.player.rect.w && r.player.rect.h == g.player.rect.h
    ensures r.level == g.level && r.target == g.target && r.cache == g.cache
    ensures GameValid(g) ==> GameValid(r)
  {
    if pressed(i) then MoveIfNoCollision(g, offset) else g
  }

  /** `update_player`: nothing without an input callback; otherwise Up,
      Down, Left and Right in that order, each checked from the position
      the previous one left. */
  function UpdatePlayer(g: Game, input: Option<Input -> bool>): (r: Game)
    requires g.level.tilewidth != 0 && g.level.tileheight != 0
    ensures r.level == g.level && r.target == g.target && r.cache == g.cache
    ensures r.player == g.player.(rect := r.player.rect)
    ensures r.player.rect.w == g.player.rect.w && r.player.rect.h == g.player.rect.h
    ensures -1 <= r.player.rect.pos.x - g.player.rect.pos.x <= 1
    ensures -1 <= r.player.rect.pos.y - g.player.rect.pos.y <= 1
    ensures GameValid(g) ==> GameValid(r)
    ensures input.Some? ==>
              r == Try(Try(Try(Try(g, input.value, Up, Pos(0, -1)), input.value, Down, Pos(0, 1)),
                           input.value, Left, Pos(-1, 0)), input.value, Right, Pos(1, 0))
  {
    match input
    case None => g
    case Some(pressed) =>
      var g1 := Try(g, pressed, Up, Pos(0, -1));
      var g2 := Try(g1, pressed, Down, Pos(0, 1));
      var g3 := Try(g2, pressed, Left, Pos(-1, 0));
      Try(g3, pressed, Right, Pos(1, 0))
  }

  /** The player's rectangle after one direction of `update_player`,
      tested against the map from the rectangle `rect` the earlier
      directions left. */
  ghost function StepRect(level: Tilemap, pressed: Input -> bool, rect: Rect, i: Input, offset: Pos): Rect
    requires level.tilewidth != 0 && level.tileheight != 0
  {
    if pressed(i) && !Blocked(level, rect.Shift(offset)) then rect.Shift(offset) else rect
  }

  /** The directions are tried Up, Down, Left, Right, each from where the
      previous ones left the player: with Up and Left both free, the Left
      move is tested one pixel higher than the player started. */
  lemma PressedInOrder(g: Game, pressed: Input -> bool)
    requires g.level.tilewidth != 0 && g.level.tileheight != 0
    ensures var up := StepRect(g.level, pressed, g.player.rect, Up, Pos(0, -1));
      var down := StepRect(g.level, pressed, up, Down, Pos(0, 1));
      var left := StepRect(g.level, pressed, down, Left, Pos(-1, 0));
      UpdatePlayer(g, Some(pressed)).player.rect == StepRect(g.level, pressed, left, Right, Pos(1, 0))
  {
  }

  /** Without a callback, or with no direction pressed, the player stays. */
  lemma NoInputNoMove(g: Game, input: Option<Input -> bool>)
    requires g.level.tilewidth != 0 && g.level.tileheight != 0
    requires input.Some? ==> !input.value(Up) && !input.value(Down) && !input.value(Left) && !input.value(Right)
    ensures UpdatePlayer(g, input) == g
  {
  }

  /** A single pressed direction moves the player one pixel that way
      exactly when the tiles under the moved player do not collide. */
  lemma SingleDirection(g: Game, pressed: Input -> bool, i: Input, offset: Pos)
    requires g.level.tilewidth != 0 && g.level.tileheight != 0
    requires (i, offset) in {(Up, Pos(0, -1)), (Down, Pos(0, 1)), (Left, Pos(-1, 0)), (Right, Pos(1, 0))}
    requires forall j: Input :: pressed(j) <==> j == i
    ensures var r := UpdatePlayer(g, Some(pressed));
      r.player.rect.pos == (if Blocked(g.level, g.player.rect.Shift(offset)) then g.player.rect.pos
                            else g.player.rect.pos.Add(offset))
  {
  }

  // ---------------------------------------------------------------- frames

  /** What the video callback receives: buffer, width, height and pitch
      in bytes. */
  datatype Frame = Frame(pixels: seq<Pixel>, width: int, height: int, pitch: int)

  /** `RenderTarget::finalize` keeps the buffer a valid frame buffer. */
  ghost predicate FinalizeKeepsTarget(finalize: Target -> Target) {
    forall t :: TargetValid(t) ==> TargetValid(finalize(t))
  }

  /** The picture `iterate` composes before `finalize`: the background,
      the map's layers in order, then the player on top. */
  function Scene(g: Game): (t: Target)
    requires GameValid(g)
    ensures TargetValid(t) && t.rect == g.target.rect
  {
    Composite(RenderLayers(Clear(g.target, Background), g.level.layers), g.player, EmptyRect, Origin)
  }

  /** `Game::iterate`: update the player, draw the scene, `finalize`, and
      hand the buffer to the video callback (if set) with a pitch of four
      bytes per pixel. */
  function Iterate(g: Game, input: Option<Input -> bool>, finalize: Target -> Target, hasVideo: bool)
    : (r: (Game, Option<Frame>))
    requires GameValid(g) && FinalizeKeepsTarget(finalize)
    ensures GameValid(r.0)
    ensures r.0 == UpdatePlayer(g, input).(target := finalize(Scene(UpdatePlayer(g, input))))
    ensures r.1.Some? <==> hasVideo
    ensures r.1.Some? ==> r.1.value == Frame(r.0.target.buffer, r.0.target.rect.w, r.0.target.rect.h, r.0.target.rect.w * 4)
  {
    var g1 := UpdatePlayer(g, input);
    var t := finalize(Scene(g1));
    var g2 := g1.(target := t);
    (g2, if hasVideo then Some(Frame(t.buffer, t.rect.w, t.rect.h, t.rect.w * 4)) else None)
  }

  /** The player is drawn last: wherever the player shows an opaque pixel,
      the scene shows that pixel whatever the map drew there; elsewhere
      the scene shows what the map drew over the background. */
  lemma PlayerOnTop(g: Game, k: int)
    requires GameValid(g) && 0 <= k < |g.target.buffer|
    ensures g.target.rect.w > 0
    ensures var under := RenderLayers(Clear(g.target, Background), g.level.layers);
      var q := WorldOf(under, g.player, k);
      if BlitClip(under, g.player, EmptyRect, Origin).Contains(q) && Opaque(SourcePixel(g.player, Origin, q))
      then Scene(g).buffer[k] == SourcePixel(g.player, Origin, q)
      else Scene(g).buffer[k] == under.buffer[k]
  {
    var under := RenderLayers(Clear(g.target, Background), g.level.layers);
    CompositeAt(under, g.player, EmptyRect, Origin, k);
  }

  /** Before the layers are drawn every pixel is the background colour. */
  lemma ClearedToBackground(g: Game, k: int)
    requires 0 <= k < |g.target.buffer|
    ensures Clear(g.target, Background).buffer[k] == Background
    ensures ExtractColor(Background, 24) == 0xff && ExtractColor(Background, 16) == 0xa0
    ensures ExtractColor(Background, 8) == 0x80 && ExtractColor(Background, 0) == 0x80
  {
    ARGBRoundTrip(0xff, 0xa0, 0x80, 0x80);
  }
}

=== FILE: game_manager.dfy ===
/** `GameManager` (game_manager.cpp): the list of levels of a game file
    and the level being played. A won level makes way for the next one;
    winning the last level ends the game. Whether a level is won
    (`Game::won`) is not part of this model and comes in as an oracle. */
module GameManagers {

  import opened Results
  import opened Utils
  import opened RenderTargets
  import opened Tilemaps
  import opened Games

  /** The game file's directory, the level paths, the index of the level
      being played (`unsigned`) and the loaded game, None once finished. */
  datatype Manager = Manager(dir: string, levels: seq<string>, current: nat, game: Option<Game>)

  /** The level paths: `dir/source` for each `<map>` child, in order. */
  function LevelPaths(dir: string, sources: seq<string>): (r: seq<string>)
    ensures |r| == |sources|
    ensures forall i :: 0 <= i < |sources| ==> r[i] == Join([dir, "/", sources[i]])
  {
    seq(|sources|, i requires 0 <= i < |sources| => Join([dir, "/", sources[i]]))
  }

  /** `GameManager()`: no levels, level 0, no game. */
  const EmptyManager := Manager("", [], 0, None)

  /** `change_level(level)`: `levels.at(level)` throws `out_of_range` past
      the end; otherwise that level is loaded (its exception propagating)
      and becomes the current one. */
  function ChangeLevel(m: Manager, level: nat, ld: Loaders): (r: Result<Manager>)
    ensures level >= |m.levels| ==> r == Err(OutOfRange)
    ensures level < |m.levels| && NewGame(m.levels[level], ld).Err? ==> r == Err(NewGame(m.levels[level], ld).error)
    ensures r.Ok? <==> level < |m.levels| && NewGame(m.levels[level], ld).Ok?
    ensures r.Ok? ==> r.value.current == level && r.value.game == Some(NewGame(m.levels[level], ld).value)
    ensures r.Ok? ==> r.value.levels == m.levels && r.value.dir == m.dir
  {
    if level >= |m.levels| then Err(OutOfRange)
    else
      match NewGame(m.levels[level], ld)
      case Err(e) => Err(e)
      case Ok(g) => Ok(m.(game := Some(g), current := level))
  }

  /** `reset_level`: the current level is loaded afresh. */
  function ResetLevel(m: Manager, ld: Loaders): (r: Result<Manager>)
    ensures r.Ok? ==> r.value.current == m.current && r.value.levels == m.levels
    ensures r.Ok? ==> m.current < |m.levels| && NewGame(m.levels[m.current], ld).Ok?
                      && r.value.game == Some(NewGame(m.levels[m.current], ld).value)
    ensures m.current >= |m.levels| ==> r == Err(OutOfRange)
    ensures r.Ok? <==> m.current < |m.levels| && NewGame(m.levels[m.current], ld).Ok?
    ensures m.current < |m.levels| && NewGame(m.levels[m.current], ld).Err? ==>
              r == Err(NewGame(m.levels[m.current], ld).error)
  {
    ChangeLevel(m, m.current, ld)
  }

  /** `GameManager(path)`: `games` is what the XML reader finds in the game
      file (the `source` of each `<map>` child of `<game>`, None when the
      file fails to load, a `runtime_error`); level 0 is then loaded, and
      the manager is built exactly when it loads, its error propagating
      otherwise. */
  function NewManager(path: string, games: string -> Option<seq<string>>, ld: Loaders): (r: Result<Manager>)
    ensures games(path).None? ==> r == Err(RuntimeError)
    ensures games(path).Some? && |games(path).value| == 0 ==> r == Err(OutOfRange)
    ensures r.Ok? ==> (games(path).Some? && |games(path).value| > 0
                       && r.value.dir == Basedir(path) && r.value.levels == LevelPaths(Basedir(path), games(path).value)
                       && r.value.current == 0 && NewGame(r.value.levels[0], ld).Ok?
                       && r.value.game == Some(NewGame(r.value.levels[0], ld).value))
    ensures games(path).Some? && |games(path).value| > 0 ==>
              var first := LevelPaths(Basedir(path), games(path).value)[0];
              && (r.Ok? <==> NewGame(first, ld).Ok?)
              && (NewGame(first, ld).Err? ==> r == Err(NewGame(first, ld).error))
  {
    match games(path)
    case None => Err(RuntimeError)
    case Some(sources) =>
      var dir := Basedir(path);
      ResetLevel(Manager(dir, LevelPaths(dir, sources), 0, None), ld)
  }

  /** `done()`: no game is loaded. */
  predicate Done(m: Manager) {
    m.game.None?
  }

  /** The manager's invariant: a loaded game is ready for frames and its
      level is in the list. */
  predicate ManagerValid(m: Manager) {
    m.game.Some? ==> GameValid(m.game.value) && m.current < |m.levels|
  }

  /** The hypotheses under which every level that loads is ready for
      frames: sprites can be blitted and each map has a non-negative pixel
      size. */
  ghost predicate LoadsValid(ld: Loaders) {
    && SpritesBlittable(ld.env)
    && forall path :: NewGame(path, ld).Ok? ==>
         PixWidth(NewGame(path, ld).value.level) >= 0 && PixHeight(NewGame(path, ld).value.level) >= 0
  }

  lemma LoadedValid(path: string, ld: Loaders)
    requires LoadsValid(ld)
    ensures NewGame(path, ld).Ok? ==> GameValid(NewGame(path, ld).value)
  {
    NewGameValid(path, ld);
  }

  /** Everything one frame of the manager depends on besides the manager:
      the input callback, `finalize`, whether a video callback is set, the
      win oracle and the loaders. */
  datatype FrameEnv = FrameEnv(
    input: Option<Input -> bool>,
    finalize: Target -> Target,
    hasVideo: bool,
    won: Game -> bool,
    ld: Loaders)

  ghost predicate FrameEnvValid(fe: FrameEnv) {
    FinalizeKeepsTarget(fe.finalize) && LoadsValid(fe.ld)
  }

  /** `GameManager::iterate`: one frame of the game; if the game is then
      won, the level index goes up by one, and either the game is dropped
      (past the last level) or the next level is loaded. */
  function Iterate(m: Manager, fe: FrameEnv): (r: (Result<Manager>, Option<Frame>))
    requires m.game.Some? && GameValid(m.game.value) && FinalizeKeepsTarget(fe.finalize)
    ensures r.1 == Games.Iterate(m.game.value, fe.input, fe.finalize, fe.hasVideo).1
    ensures var g := Games.Iterate(m.game.value, fe.input, fe.finalize, fe.hasVideo).0;
      !fe.won(g) ==> r.0 == Ok(m.(game := Some(g)))
    ensures var g := Games.Iterate(m.game.value, fe.input, fe.finalize, fe.hasVideo).0;
      r.0.Ok? && fe.won(g) ==> r.0.value.current == m.current + 1
    ensures var g := Games.Iterate(m.game.value, fe.input, fe.finalize, fe.hasVideo).0;
      r.0.Ok? ==> (Done(r.0.value) <==> fe.won(g) && m.current + 1 >= |m.levels|)
    ensures r.0.Ok? ==> r.0.value.levels == m.levels && r.0.value.dir == m.dir
    ensures var g := Games.Iterate(m.game.value, fe.input, fe.finalize, fe.hasVideo).0;
      fe.won(g) && m.current + 1 >= |m.levels| ==> r.0 == Ok(m.(current := m.current + 1, game := None))
    ensures var g := Games.Iterate(m.game.value, fe.input, fe.finalize, fe.hasVideo).0;
      fe.won(g) && m.current + 1 < |m.levels| ==>
        var next := NewGame(m.levels[m.current + 1], fe.ld);
        && (r.0.Ok? <==> next.Ok?)
        && (next.Err? ==> r.0 == Err(next.error))
        && (r.0.Ok? ==> r.0.value.game == Some(next.value))
  {
    var (g, frame) := Games.Iterate(m.game.value, fe.input, fe.finalize, fe.hasVideo);
    var m1 := m.(game := Some(g));
    if !fe.won(g) then (Ok(m1), frame)
    else
      var next := m.current + 1;
      if next >= |m.levels| then (Ok(m1.(current := next, game := None)), frame)
      else (ChangeLevel(m1.(current := next), next, fe.ld), frame)
  }

  /** A frame keeps the manager's invariant. */
  lemma IterateValid(m: Manager, fe: FrameEnv)
    requires ManagerValid(m) && m.game.Some? && FrameEnvValid(fe)
    ensures var r := Iterate(m, fe).0; r.Ok? ==> ManagerValid(r.value)
  {
    var g := Games.Iterate(m.game.value, fe.input, fe.finalize, fe.hasVideo).0;
    if fe.won(g) && m.current + 1 < |m.levels| {
      LoadedValid(m.levels[m.current + 1], fe.ld);
      NextValid(m, fe);
    }
  }

  /** A frame that wins an earlier level keeps the invariant when the next
      level loads ready for frames. */
  lemma NextValid(m: Manager, fe: FrameEnv)
    requires ManagerValid(m) && m.game.Some? && FinalizeKeepsTarget(fe.finalize)
    requires fe.won(Games.Iterate(m.game.value, fe.input, fe.finalize, fe.hasVideo).0)
    requires m.current + 1 < |m.levels|
    requires var next := NewGame(m.levels[m.current + 1], fe.ld); next.Ok? ==> GameValid(next.value)
    ensures var r := Iterate(m, fe).0; r.Ok? ==> ManagerValid(r.value)
  {
    LoadedInto(Iterate(m, fe).0, NewGame(m.levels[m.current + 1], fe.ld), m.current + 1, m.levels);
  }

  /** A manager holding a game that is ready for frames, at an index inside
      its levels, keeps the invariant. */
  lemma LoadedInto(r: Result<Manager>, next: Result<Game>, current: nat, levels: seq<string>)
    requires r.Ok? <==> next.Ok?
    requires r.Ok? ==> r.value.game == Some(next.value) && r.value.current == current && r.value.levels == levels
    requires current < |levels|
    requires next.Ok? ==> GameValid(next.value)
    ensures r.Ok? ==> ManagerValid(r.value)
  {
  }

  /** Up to `n` frames, stopping once the game is done; the first
      exception stops the run. */
  function Play(m: Manager, n: nat, fe: FrameEnv): (r: Result<Manager>)
    requires ManagerValid(m) && FrameEnvValid(fe)
    ensures r.Ok? ==> ManagerValid(r.value) && r.value.levels == m.levels
    decreases n
  {
    if n == 0 || Done(m) then Ok(m)
    else
      IterateValid(m, fe);
      match Iterate(m, fe).0
      case Err(e) => Err(e)
      case Ok(m') => Play(m', n - 1, fe)
  }

  /** Every level of the list loads. */
  ghost predicate AllLevelsLoad(m: Manager, ld: Loaders) {
    forall i :: 0 <= i < |m.levels| ==> NewGame(m.levels[i], ld).Ok?
  }

  /** A won frame on a level that is not the last one moves to the next
      level when that level loads. */
  lemma WonStep(m: Manager, fe: FrameEnv)
    requires ManagerValid(m) && FrameEnvValid(fe) && m.game.Some? && AllLevelsLoad(m, fe.ld)
    requires forall g :: fe.won(g)
    ensures var r := Iterate(m, fe).0;
      && r.Ok? && r.value.current == m.current + 1 && r.value.levels == m.levels
      && ManagerValid(r.value) && AllLevelsLoad(r.value, fe.ld)
      && (Done(r.value) <==> m.current + 1 == |m.levels|)
      && (m.current + 1 < |m.levels| ==> r.value.game == Some(NewGame(m.levels[m.current + 1], fe.ld).value))
  {
    IterateValid(m, fe);
    var g := Games.Iterate(m.game.value, fe.input, fe.finalize, fe.hasVideo).0;
    assert fe.won(g);
  }

  /** A frame that does not throw hands the rest of the run to the next
      manager. */
  lemma PlayStep(m: Manager, k: nat, fe: FrameEnv)
    requires ManagerValid(m) && FrameEnvValid(fe) && m.game.Some? && k > 0
    requires Iterate(m, fe).0.Ok?
    ensures ManagerValid(Iterate(m, fe).0.value)
    ensures Play(m, k, fe) == Play(Iterate(m, fe).0.value, k - 1, fe)
  {
    IterateValid(m, fe);
  }

  /** Levels are played in order: when every frame wins and every level
      loads, k frames from level c lead to level c + k, and the game is
      done exactly after the last level has been won. */
  lemma {:induction false} WinningRun(m: Manager, k: nat, fe: FrameEnv)
    requires ManagerValid(m) && FrameEnvValid(fe) && m.game.Some? && AllLevelsLoad(m, fe.ld)
    requires forall g :: fe.won(g)
    requires k <= |m.levels| - m.current
    ensures var r := Play(m, k, fe);
      r.Ok? && r.value.current == m.current + k
      && (Done(r.value) <==> m.current + k == |m.levels|)
    decreases k
  {
    if k > 0 {
      WonStep(m, fe);
      var m1 := Iterate(m, fe).0.value;
      PlayStep(m, k, fe);
      if k > 1 {
        WinningRun(m1, k - 1, fe);
      }
    }
  }

  /** A frame that is not won keeps the level and its index. */
  lemma NotWonStays(m: Manager, fe: FrameEnv)
    requires m.game.Some? && GameValid(m.game.value) && FinalizeKeepsTarget(fe.finalize)
    requires forall g :: !fe.won(g)
    ensures var r := Iterate(m, fe).0;
      r.Ok? && r.value.current == m.current && !Done(r.value) && r.value.levels == m.levels
  {
  }
}

=== FILE: libretro.dfy ===
/** The libretro front of the engine (libretro.cpp): how one `retro_run`
    turns the time the frontend reports into a number of game iterations,
    which of those iterations reach the frontend's video callback, and how
    the game's abstract inputs map to joypad buttons. The frontend's
    callbacks are parameters: the frame time it last reported, the joypad
    state of port 0, and the game's own collaborators in a `FrameEnv`. */
module Libretro {

  import opened Results
  import opened Utils
  import opened Grid
  import opened RenderTargets
  import opened Games
  import opened GameManagers

  // ---------------------------------------------------------------- pacing

  /** `time_reference`: microseconds per frame at 60 frames per second. */
  const TimeReference: int := 1000000 / 60

  /** `time_reference >> 1`. */
  const HalfReference: int := TimeReference / 2

  /** Where the frame time of one run comes from: whether the frontend
      accepted the frame-time callback, whether the `dino_timer` option is
      enabled, and the time the callback last reported. */
  datatype Timing = Timing(useCallback: bool, optionOn: bool, reported: int)

  /** The frame time of one run: the reported time when the callback is in
      use and enabled, the reference otherwise. */
  function FrameTime(t: Timing): (r: int)
    ensures !t.useCallback || !t.optionOn ==> r == TimeReference
    ensures t.useCallback && t.optionOn ==> r == t.reported
  {
    if !t.useCallback || !t.optionOn then TimeReference else t.reported
  }

  /** What one frame time adds to `total_time`: a time under half the
      reference counts as it is, a longer one as a whole number of
      reference periods (C++ division). */
  function Added(ft: int): int {
    if ft < HalfReference then ft
    else CDiv(ft + HalfReference, TimeReference) * TimeReference
  }

  /** A frame time of at least half the reference is rounded to the nearest
      multiple of the reference; a non-negative time adds a non-negative
      amount. */
  lemma AddedRounds(ft: int)
    ensures ft >= HalfReference ==>
      Added(ft) % TimeReference == 0 && ft - HalfReference < Added(ft) <= ft + HalfReference
    ensures ft >= 0 ==> Added(ft) >= 0
    ensures ft < HalfReference ==> Added(ft) == ft
  {
    if ft >= HalfReference {
      TruncatingDivision(ft + HalfReference, TimeReference);
      var q := (ft + HalfReference) / TimeReference;
      assert Added(ft) == q * TimeReference;
    }
  }

  /** `frames`: the accumulated time in reference periods, rounded to the
      nearest (C++ division). */
  function FrameCount(total: int): int {
    CDiv(total + HalfReference, TimeReference)
  }

  /** The present flags of `n` iterations: `present_frame` is false for all
      but the last one. */
  function Flags(n: nat): (r: seq<bool>)
    ensures |r| == n
    ensures forall i :: 0 <= i < n ==> (r[i] <==> i == n - 1)
  {
    seq(n, i requires 0 <= i < n => i == n - 1)
  }

  /** The pacing part of `retro_run`: the new `total_time` and the present
      flag of each game iteration, in order; no iteration at all means the
      previous frame is shown again. */
  function Schedule(total: int, ft: int): (r: (int, seq<bool>))
    ensures var acc := total + Added(ft); var n := FrameCount(acc);
      && (n <= 0 ==> r == (acc, []))
      && (n > 0 ==> |r.1| == n && r.0 == acc - TimeReference * n)
    ensures forall i :: 0 <= i < |r.1| ==> (r.1[i] <==> i == |r.1| - 1)
  {
    var acc := total + Added(ft);
    var n := FrameCount(acc);
    if n <= 0 then (acc, [])
    else (acc - TimeReference * n, Flags(n))
  }

  /** The pacing invariant: `total_time` stays within half a period of
      zero. */
  predicate Balanced(total: int) {
    -HalfReference <= total < HalfReference
  }

  /** Each run keeps the accumulator balanced when the frame time is not
      negative, so the lag carried from run to run never reaches a whole
      frame. */
  lemma ScheduleBalanced(total: int, ft: int)
    requires Balanced(total) && ft >= 0
    ensures Balanced(Schedule(total, ft).0)
    ensures FrameCount(total + Added(ft)) >= 0
  {
    AddedRounds(ft);
    var acc := total + Added(ft);
    Decompose(acc + HalfReference, TimeReference);
    assert FrameCount(acc) == (acc + HalfReference) / TimeReference;
  }

  /** At the nominal rate (the callback off, or reporting exactly one
      period) every run iterates the game exactly once, presents that
      iteration, and leaves the accumulator as it was. */
  lemma NominalRateOneIteration(total: int)
    requires Balanced(total)
    ensures Schedule(total, TimeReference) == (total, [true])
  {
    DivModUnique(TimeReference + HalfReference, TimeReference, 1, HalfReference);
    assert Added(TimeReference) == TimeReference;
    var acc := total + TimeReference;
    DivModUnique(acc + HalfReference, TimeReference, 1, total + HalfReference);
    assert FrameCount(acc) == 1;
    assert Flags(1) == [true];
  }

  /** A reported time of two periods makes a run iterate twice, presenting
      only the second iteration. */
  lemma DoublePeriodTwoIterations()
    ensures Schedule(0, 2 * TimeReference) == (0, [false, true])
  {
    assert Added(2 * TimeReference) == 2 * TimeReference;
    assert FrameCount(2 * TimeReference) == 2;
    assert Flags(2) == [false, true];
  }

  /** Many runs: the final `total_time` and the number of game iterations. */
  function RunMany(total: int, fts: seq<int>): (r: (int, nat))
    decreases |fts|
  {
    if |fts| == 0 then (total, 0)
    else
      var first := Schedule(total, fts[0]);
      var rest := RunMany(first.0, fts[1..]);
      (rest.0, |first.1| + rest.1)
  }

  /** The time the runs add to the accumulator. */
  function SumAdded(fts: seq<int>): int
    decreases |fts|
  {
    if |fts| == 0 then 0 else Added(fts[0]) + SumAdded(fts[1..])
  }

  /** No time is lost or invented: over any sequence of runs, what was
      added equals the iterations' periods plus the change of the
      accumulator. */
  lemma {:induction false} RunManyConserves(total: int, fts: seq<int>)
    ensures var r := RunMany(total, fts);
      total + SumAdded(fts) == r.0 + TimeReference * r.1
    decreases |fts|
  {
    if |fts| > 0 {
      var first := Schedule(total, fts[0]);
      RunManyConserves(first.0, fts[1..]);
      var rest := RunMany(first.0, fts[1..]);
      assert total + Added(fts[0]) == first.0 + TimeReference * |first.1|;
      Periods(|first.1|, rest.1);
    }
  }

  lemma Periods(a: int, b: int)
    ensures TimeReference * (a + b) == TimeReference * a + TimeReference * b
  {
  }

  /** Runs keep the accumulator balanced when no frame time is negative. */
  lemma {:induction false} RunManyBalanced(total: int, fts: seq<int>)
    requires Balanced(total)
    requires forall i :: 0 <= i < |fts| ==> fts[i] >= 0
    ensures Balanced(RunMany(total, fts).0)
    decreases |fts|
  {
    if |fts| > 0 {
      ScheduleBalanced(total, fts[0]);
      RunManyBalanced(Schedule(total, fts[0]).0, fts[1..]);
    }
  }

  /** The game does not drift from the clock: starting balanced, the
      number of iterations over any sequence of runs is the time added,
      in periods, rounded to the nearest. */
  lemma NoDrift(total: int, fts: seq<int>)
    requires Balanced(total)
    requires forall i :: 0 <= i < |fts| ==> fts[i] >= 0
    ensures var k := RunMany(total, fts).1;
      TimeReference * k - HalfReference <= total + SumAdded(fts) < TimeReference * k + HalfReference
  {
    RunManyConserves(total, fts);
    RunManyBalanced(total, fts);
  }

  // ---------------------------------------------------------------- input

  /** The joypad buttons of port 0 the game reads. */
  datatype Button = JoypadUp | JoypadDown | JoypadLeft | JoypadRight | JoypadB | JoypadA | JoypadX

  /** The `switch` of `input_cb`. */
  function ButtonOf(i: Input): Button {
    match i
    case Up => JoypadUp
    case Down => JoypadDown
    case Left => JoypadLeft
    case Right => JoypadRight
    case Push => JoypadB
    case Menu => JoypadA
    case Reset => JoypadX
  }

  /** The input each button stands for. */
  function InputOf(b: Button): Input {
    match b
    case JoypadUp => Up
    case JoypadDown => Down
    case JoypadLeft => Left
    case JoypadRight => Right
    case JoypadB => Push
    case JoypadA => Menu
    case JoypadX => Reset
  }

  /** Every input has a button of its own and every button serves one
      input: no two inputs share a button. */
  lemma ButtonsOneToOne(i: Input, b: Button)
    ensures InputOf(ButtonOf(i)) == i
    ensures ButtonOf(InputOf(b)) == b
    ensures ButtonOf(i) == b <==> InputOf(b) == i
  {
  }

  /** `input_cb`: an input is pressed when its button on port 0's joypad
      is down. */
  function InputCallback(pressed: Button -> bool): (cb: Input -> bool)
    ensures forall i :: cb(i) == pressed(ButtonOf(i))
  {
    i => pressed(ButtonOf(i))
  }

  /** The game's collaborators as `load_game` wires them: the joypad as
      input and the gated video callback, which is always set. */
  function Wired(pressed: Button -> bool, finalize: Target -> Target, won: Game -> bool, ld: Loaders)
    : (fe: FrameEnv)
    ensures fe.input.Some? && fe.hasVideo
    ensures forall i :: fe.input.value(i) == pressed(ButtonOf(i))
  {
    FrameEnv(Some(InputCallback(pressed)), finalize, true, won, ld)
  }

  // ---------------------------------------------------------------- iterations

  /** The video callback of `load_game`: a frame reaches the frontend only
      while `present_frame` is set. */
  function Forward(present: bool, frame: Option<Frame>): (r: seq<Frame>)
    ensures |r| <= 1
    ensures |r| == 1 <==> present && frame.Some?
    ensures |r| == 1 ==> r[0] == frame.value
  {
    if present && frame.Some? then [frame.value] else []
  }

  /** The number of set flags. */
  function Presented(flags: seq<bool>): nat
    decreases |flags|
  {
    if |flags| == 0 then 0 else (if flags[0] then 1 else 0) + Presented(flags[1..])
  }

  /** A schedule presents exactly one iteration. */
  lemma {:induction false} FlagsPresentOnce(n: nat)
    requires n > 0
    ensures Presented(Flags(n)) == 1
    decreases n
  {
    if n > 1 {
      assert Flags(n)[1..] == Flags(n - 1);
      FlagsPresentOnce(n - 1);
    }
  }

  /** The loop of `retro_run` as written: one `GameManager::iterate` per
      flag, whose frame is forwarded when the flag is set. An iteration on
      a finished manager dereferences its null game (`NullGame`). */
  datatype Outcome = Completed(m: Manager, frames: seq<Frame>) | Threw(e: Error) | NullGame

  function IterateAll(m: Manager, flags: seq<bool>, fe: FrameEnv): (r: Outcome)
    requires ManagerValid(m) && FrameEnvValid(fe)
    ensures r.Completed? ==> ManagerValid(r.m) && r.m.levels == m.levels
    ensures r.Completed? ==> |r.frames| == Presented(flags)
    decreases |flags|
  {
    if |flags| == 0 then Completed(m, [])
    else if Done(m) then NullGame
    else
      var fe' := fe.(hasVideo := true);
      IterateValid(m, fe');
      var (res, frame) := GameManagers.Iterate(m, fe');
      match res
      case Err(e) => Threw(e)
      case Ok(m1) =>
        match IterateAll(m1, flags[1..], fe)
        case Completed(m2, frames) => Completed(m2, Forward(flags[0], frame) + frames)
        case other => other
  }

  /** The loop with the evidently intended guard: iterations stop once the
      game is done. */
  function PlayBatch(m: Manager, flags: seq<bool>, fe: FrameEnv): (r: Result<(Manager, seq<Frame>)>)
    requires ManagerValid(m) && FrameEnvValid(fe)
    ensures r.Ok? ==> ManagerValid(r.value.0) && r.value.0.levels == m.levels
    ensures r.Ok? ==> |r.value.1| <= Presented(flags)
    ensures r.Ok? && !Done(r.value.0) ==> |r.value.1| == Presented(flags)
    decreases |flags|
  {
    if |flags| == 0 || Done(m) then Ok((m, []))
    else
      var fe' := fe.(hasVideo := true);
      IterateValid(m, fe');
      var (res, frame) := GameManagers.Iterate(m, fe');
      match res
      case Err(e) => Err(e)
      case Ok(m1) =>
        match PlayBatch(m1, flags[1..], fe)
        case Err(e) => Err(e)
        case Ok((m2, frames)) => Ok((m2, Forward(flags[0], frame) + frames))
  }

  /** The guarded loop moves the manager exactly as `|flags|` frames of
      `GameManager::iterate` that stop at the end of the game do, whatever
      the flags. */
  lemma {:induction false} PlayBatchIsPlay(m: Manager, flags: seq<bool>, fe: FrameEnv)
    requires ManagerValid(m) && FrameEnvValid(fe)
    ensures var p := Play(m, |flags|, fe.(hasVideo := true));
      && (PlayBatch(m, flags, fe).Ok? <==> p.Ok?)
      && (p.Ok? ==> PlayBatch(m, flags, fe).value.0 == p.value)
    decreases |flags|
  {
    if |flags| > 0 && !Done(m) {
      var fe' := fe.(hasVideo := true);
      BatchStep(m, flags, fe);
      PlayStep(m, |flags|, fe');
      var s := GameManagers.Iterate(m, fe').0;
      if s.Ok? {
        PlayBatchIsPlay(s.value, flags[1..], fe);
        assert Play(m, |flags|, fe') == Play(s.value, |flags[1..]|, fe');
      } else {
        assert Play(m, |flags|, fe') == Err(s.error) && PlayBatch(m, flags, fe) == Err(s.error);
      }
    }
  }

  /** With a schedule of n iterations (only the last one presented), a
      batch that leaves the game running presents exactly the frame of the
      n-th manager frame: the one drawn from where n - 1 frames left it. */
  lemma {:induction false} PlayBatchLastFrame(m: Manager, n: nat, fe: FrameEnv)
    requires ManagerValid(m) && FrameEnvValid(fe) && n > 0
    ensures var b := PlayBatch(m, Flags(n), fe);
      b.Ok? && !Done(b.value.0) ==> NthFrame(m, n, fe).Some? && b.value.1 == [NthFrame(m, n, fe).value]
    decreases n
  {
    var fe' := fe.(hasVideo := true);
    if !Done(m) {
      IterateValid(m, fe');
      var (res, frame) := GameManagers.Iterate(m, fe');
      assert Flags(n)[1..] == Flags(n - 1);
      if res.Ok? {
        if n == 1 {
          SingleBatch(m, fe);
          FirstFrame(m, fe);
        } else {
          PlayBatchLastFrame(res.value, n - 1, fe);
          NthFrameStep(m, n, fe);
          var b1 := PlayBatch(res.value, Flags(n - 1), fe);
          if b1.Ok? {
            assert PlayBatch(m, Flags(n), fe) == Ok((b1.value.0, Forward(false, frame) + b1.value.1));
          }
        }
      }
    }
  }

  /** A batch of one presented iteration shows the first frame. */
  lemma SingleBatch(m: Manager, fe: FrameEnv)
    requires ManagerValid(m) && FrameEnvValid(fe) && !Done(m)
    requires GameManagers.Iterate(m, fe.(hasVideo := true)).0.Ok?
    ensures var s := GameManagers.Iterate(m, fe.(hasVideo := true));
      PlayBatch(m, Flags(1), fe) == Ok((s.0.value, Forward(true, s.1)))
  {
    var fe' := fe.(hasVideo := true);
    IterateValid(m, fe');
    var s := GameManagers.Iterate(m, fe');
    assert Flags(1) == [true];
    assert PlayBatch(s.0.value, Flags(1)[1..], fe) == Ok((s.0.value, []));
    assert PlayBatch(m, Flags(1), fe) == Ok((s.0.value, Forward(true, s.1) + []));
    assert Forward(true, s.1) + [] == Forward(true, s.1);
  }

  /** The first frame is the frame of the first manager frame. */
  lemma FirstFrame(m: Manager, fe: FrameEnv)
    requires ManagerValid(m) && FrameEnvValid(fe) && !Done(m)
    ensures NthFrame(m, 1, fe) == GameManagers.Iterate(m, fe.(hasVideo := true)).1
  {
    assert Play(m, 0, fe.(hasVideo := true)) == Ok(m);
  }

  /** After a first frame that does not throw, the n-th frame is the
      (n - 1)-th frame from the manager that frame left. */
  lemma NthFrameStep(m: Manager, n: nat, fe: FrameEnv)
    requires ManagerValid(m) && FrameEnvValid(fe) && n > 1 && !Done(m)
    requires GameManagers.Iterate(m, fe.(hasVideo := true)).0.Ok?
    ensures var s := GameManagers.Iterate(m, fe.(hasVideo := true)).0.value;
      ManagerValid(s) && NthFrame(m, n, fe) == NthFrame(s, n - 1, fe)
  {
    GameManagers.PlayStep(m, n - 1, fe.(hasVideo := true));
  }

  /** The frame the n-th manager frame draws with video on, when the
      first n - 1 frames succeed and leave the game running. */
  ghost function NthFrame(m: Manager, n: nat, fe: FrameEnv): (f: Option<Frame>)
    requires ManagerValid(m) && FrameEnvValid(fe) && n > 0
    ensures f.Some? ==> Play(m, n - 1, fe.(hasVideo := true)).Ok?
  {
    var fe' := fe.(hasVideo := true);
    var p := Play(m, n - 1, fe');
    if p.Ok? && !Done(p.value) then GameManagers.Iterate(p.value, fe').1 else None
  }

  /** A batch scheduled by Flags(n) moves the manager as n manager frames
      do and presents the n-th frame while the game goes on. */
  lemma ScheduledBatch(m: Manager, n: nat, fe: FrameEnv)
    requires ManagerValid(m) && FrameEnvValid(fe) && n > 0
    ensures var p := Play(m, n, fe.(hasVideo := true)); var b := PlayBatch(m, Flags(n), fe);
      && (b.Ok? <==> p.Ok?)
      && (b.Ok? ==> b.value.0 == p.value)
      && (b.Ok? && !Done(b.value.0) ==> NthFrame(m, n, fe).Some? && b.value.1 == [NthFrame(m, n, fe).value])
  {
    PlayBatchIsPlay(m, Flags(n), fe);
    PlayBatchLastFrame(m, n, fe);
  }

  /** One iteration of the guarded loop on a running game. */
  lemma BatchStep(m: Manager, flags: seq<bool>, fe: FrameEnv)
    requires ManagerValid(m) && FrameEnvValid(fe) && |flags| > 0 && !Done(m)
    ensures var s := GameManagers.Iterate(m, fe.(hasVideo := true)).0;
      s.Ok? ==> ManagerValid(s.value)
    ensures var s := GameManagers.Iterate(m, fe.(hasVideo := true)).0;
      && (s.Err? ==> PlayBatch(m, flags, fe) == Err(s.error))
      && (s.Ok? ==> (PlayBatch(m, flags, fe).Ok? <==> PlayBatch(s.value, flags[1..], fe).Ok?))
      && (s.Ok? && PlayBatch(m, flags, fe).Ok? ==>
            PlayBatch(m, flags, fe).value.0 == PlayBatch(s.value, flags[1..], fe).value.0)
  {
    IterateValid(m, fe.(hasVideo := true));
  }

  /** One frame of `Play` on a running game. */
  lemma PlayStep(m: Manager, n: nat, fe: FrameEnv)
    requires ManagerValid(m) && FrameEnvValid(fe) && n > 0 && !Done(m)
    ensures var s := GameManagers.Iterate(m, fe).0;
      s.Ok? ==> ManagerValid(s.value)
    ensures var s := GameManagers.Iterate(m, fe).0;
      && (s.Err? ==> Play(m, n, fe) == Err(s.error))
      && (s.Ok? ==> Play(m, n, fe) == Play(s.value, n - 1, fe))
  {
    IterateValid(m, fe);
  }

  /** Where the manager is still running after the loop as written, the
      guard changes nothing. */
  lemma {:induction false} GuardAgrees(m: Manager, flags: seq<bool>, fe: FrameEnv)
    requires ManagerValid(m) && FrameEnvValid(fe)
    ensures var r := IterateAll(m, flags, fe);
      && (r.Completed? ==> PlayBatch(m, flags, fe) == Ok((r.m, r.frames)))
      && (r.Threw? ==> PlayBatch(m, flags, fe) == Err(r.e))
    decreases |flags|
  {
    if |flags| > 0 && !Done(m) {
      var fe' := fe.(hasVideo := true);
      IterateValid(m, fe');
      match GameManagers.Iterate(m, fe').0
      case Err(e) =>
      case Ok(m1) =>
        GuardAgrees(m1, flags[1..], fe);
    }
  }

  /** The loop as written crashes when the last level is won on an
      iteration that is not the run's last one: here a run of two
      iterations (a reported frame time of two periods) whose first
      iteration wins the last level calls `iterate` on the null game. */
  lemma LastLevelWonEarly(m: Manager, fe: FrameEnv)
    requires ManagerValid(m) && FrameEnvValid(fe) && m.game.Some?
    requires m.current + 1 == |m.levels|
    requires forall g :: fe.won(g)
    ensures IterateAll(m, Schedule(0, 2 * TimeReference).1, fe) == NullGame
  {
    DoublePeriodTwoIterations();
    var fe' := fe.(hasVideo := true);
    var g := Games.Iterate(m.game.value, fe'.input, fe'.finalize, fe'.hasVideo).0;
    assert fe.won(g);
    var m1 := GameManagers.Iterate(m, fe').0.value;
    assert Done(m1);
    assert IterateAll(m, [false, true], fe) == IterateAll(m1, [true], fe);
  }

  // ---------------------------------------------------------------- retro_run

  /** The state `retro_run` works on: `total_time` and the game manager. */
  datatype Core = Core(total: int, manager: Manager)

  /** A call of the frontend's video callback: the previous frame again
      (`video_cb(NULL, ...)`) or a new one. */
  datatype VideoCall = Duplicate | Present(frame: Frame)

  /** What one run leaves behind: the new state, the video calls in order,
      and whether the frontend is asked to shut down. */
  datatype RunOutput = RunOutput(core: Core, video: seq<VideoCall>, shutdown: bool)

  function Presents(frames: seq<Frame>): (r: seq<VideoCall>)
    ensures |r| == |frames|
    ensures forall i :: 0 <= i < |frames| ==> r[i] == Present(frames[i])
  {
    seq(|frames|, i requires 0 <= i < |frames| => Present(frames[i]))
  }

  /** `retro_run` (audio and background music left out): pace, iterate the
      game with only the last iteration presented, and ask for shutdown
      once the game is done. The loop stops at the end of the game. A run
      of n scheduled iterations moves the manager as n manager frames do,
      and while the game goes on it presents the n-th frame. */
  function RetroRun(c: Core, t: Timing, fe: FrameEnv): (r: Result<RunOutput>)
    requires ManagerValid(c.manager) && FrameEnvValid(fe)
    ensures r.Ok? ==> r.value.core.total == Schedule(c.total, FrameTime(t)).0
    ensures r.Ok? ==> ManagerValid(r.value.core.manager) && r.value.core.manager.levels == c.manager.levels
    ensures r.Ok? ==> r.value.shutdown == Done(r.value.core.manager)
    ensures r.Ok? ==> |r.value.video| <= 1
    ensures r.Ok? && !r.value.shutdown ==> |r.value.video| == 1
    ensures FrameCount(c.total + Added(FrameTime(t))) <= 0 ==>
      r == Ok(RunOutput(Core(c.total + Added(FrameTime(t)), c.manager), [Duplicate], Done(c.manager)))
    ensures var n := |Schedule(c.total, FrameTime(t)).1|; var fe' := fe.(hasVideo := true);
      n > 0 ==> && (r.Ok? <==> Play(c.manager, n, fe').Ok?)
                && (r.Ok? ==> r.value.core.manager == Play(c.manager, n, fe').value)
    ensures var n := |Schedule(c.total, FrameTime(t)).1|;
      n > 0 && r.Ok? && !r.value.shutdown ==>
        NthFrame(c.manager, n, fe).Some? && r.value.video == [Present(NthFrame(c.manager, n, fe).value)]
  {
    var (total, flags) := Schedule(c.total, FrameTime(t));
    if |flags| == 0 then Ok(RunOutput(Core(total, c.manager), [Duplicate], Done(c.manager)))
    else
      FlagsPresentOnce(|flags|);
      assert flags == Flags(|flags|);
      ScheduledBatch(c.manager, |flags|, fe);
      match PlayBatch(c.manager, flags, fe)
      case Err(e) => Err(e)
      case Ok((m, frames)) => Ok(RunOutput(Core(total, m), Presents(frames), Done(m)))
  }

  /** At the nominal rate a run of a game in progress is one frame of the
      manager, presented. */
  lemma NominalRun(c: Core, t: Timing, fe: FrameEnv)
    requires ManagerValid(c.manager) && FrameEnvValid(fe) && !Done(c.manager)
    requires Balanced(c.total) && FrameTime(t) == TimeReference
    ensures var fe' := fe.(hasVideo := true);
      var step := GameManagers.Iterate(c.manager, fe');
      && (RetroRun(c, t, fe).Ok? <==> step.0.Ok?)
      && (step.0.Ok? ==>
            RetroRun(c, t, fe).value
            == RunOutput(Core(c.total, step.0.value), [Present(step.1.value)], Done(step.0.value)))
  {
    NominalRateOneIteration(c.total);
    var fe' := fe.(hasVideo := true);
    IterateValid(c.manager, fe');
    assert [true][1..] == [];
  }
}

=== FILE: render_target.dfy ===
/** `RenderTarget` (render_target.cpp): an owned frame buffer whose `rect`
    holds the buffer size and the camera position, and alpha-tested
    blitting of surfaces into it. `Surface::sub` (surface.cpp), which renders
    through a scratch target, lives here as well. */
module RenderTargets {

  import opened Results
  import opened Blit
  import opened Surfaces
  import Grid

  /** The frame buffer and the camera rectangle: `rect.pos` is the camera,
      `rect.w`/`rect.h` the buffer size. */
  datatype Target = Target(buffer: seq<Pixel>, rect: Rect)

  predicate TargetValid(t: Target) {
    t.rect.w >= 0 && t.rect.h >= 0 && |t.buffer| == t.rect.w * t.rect.h
  }

  /** `RenderTarget(width, height)`: w*h zero pixels, camera at the origin. */
  function NewTarget(w: nat, h: nat): (t: Target)
    ensures TargetValid(t)
    ensures |t.buffer| == w * h && forall i :: 0 <= i < |t.buffer| ==> t.buffer[i] == 0
    ensures t.rect == Rect(Origin, w, h)
  {
    Target(seq(w * h, _ => 0), Rect(Origin, w, h))
  }

  /** `clear`: every pixel becomes `pix`; size and camera are kept. */
  function Clear(t: Target, pix: Pixel): (r: Target)
    ensures |r.buffer| == |t.buffer| && r.rect == t.rect
    ensures forall i :: 0 <= i < |r.buffer| ==> r.buffer[i] == pix
  {
    t.(buffer := seq(|t.buffer|, _ => pix))
  }

  /** `camera_move`: the camera moves by `o`; the buffer is untouched. */
  function CameraMove(t: Target, o: Pos): (r: Target)
    ensures r.rect.pos == t.rect.pos.Add(o)
    ensures r.rect.w == t.rect.w && r.rect.h == t.rect.h && r.buffer == t.buffer
  {
    t.(rect := t.rect.Shift(o))
  }

  /** `camera_set`: the camera is placed at `p`; the buffer is untouched. */
  function CameraSet(t: Target, p: Pos): (r: Target)
    ensures r.rect.pos == p
    ensures r.rect.w == t.rect.w && r.rect.h == t.rect.h && r.buffer == t.buffer
  {
    t.(rect := t.rect.(pos := p))
  }

  /** Setting the camera forgets every earlier move; moving twice is moving
      by the sum. */
  lemma CameraLaws(t: Target, p: Pos, a: Pos, b: Pos)
    ensures CameraSet(CameraMove(t, a), p) == CameraSet(t, p)
    ensures CameraMove(CameraMove(t, a), b) == CameraMove(t, a.Add(b))
    ensures CameraMove(CameraSet(t, p), a).rect.pos == p.Add(a)
  {
  }

  /** `pixel_raw_no_offset`: the buffer index of buffer coordinate `p`, or
      `logic_error` outside [0, w) x [0, h). */
  function PixelRawNoOffset(t: Target, p: Pos): (r: Result<nat>)
    ensures r.Ok? <==> 0 <= p.x < t.rect.w && 0 <= p.y < t.rect.h
    ensures r.Err? ==> r.error == LogicError
    ensures r.Ok? ==> r.value == p.y * t.rect.w + p.x
    ensures r.Ok? && TargetValid(t) ==> r.value < |t.buffer|
  {
    if p.x >= t.rect.w || p.y >= t.rect.h || p.x < 0 || p.y < 0 then Err(LogicError)
    else
      Grid.CellIndex(p.x, p.y, t.rect.w, t.rect.h);
      Ok(p.y * t.rect.w + p.x)
  }

  /** `pixel_raw`: world coordinate `p` is first made camera-relative. */
  function PixelRaw(t: Target, p: Pos): (r: Result<nat>)
    ensures r == PixelRawNoOffset(t, p.Sub(t.rect.pos))
    ensures r.Ok? <==> t.rect.Contains(p)
  {
    PixelRawNoOffset(t, p.Sub(t.rect.pos))
  }

  /** `convert_surface`: the buffer becomes the data of a surface of the
      target's size at the origin; the target is left with an empty
      rectangle (and, the buffer having been moved out, no pixels). */
  function ConvertSurface(t: Target): (r: (Surface, Target))
    requires TargetValid(t)
    ensures r.0 == SurfaceOf(Data(t.buffer, t.rect.w, t.rect.h))
    ensures Blittable(r.0)
    ensures r.1.rect == EmptyRect && TargetValid(r.1)
  {
    (SurfaceOf(MakeData(t.buffer, t.rect.w, t.rect.h)), Target([], EmptyRect))
  }

  /** The destination rectangle of a blit: the camera rectangle, or the
      same size at the origin for a surface that ignores the camera. */
  function DestRect(t: Target, s: Surface): (r: Rect)
    ensures r.w == t.rect.w && r.h == t.rect.h
    ensures r.pos == if s.ignoreCamera then Origin else t.rect.pos
  {
    if s.ignoreCamera then t.rect.(pos := Origin) else t.rect
  }

  /** Where the blitted copy of `s` sits: its rectangle moved by `offset`. */
  function Placed(s: Surface, offset: Pos): Rect {
    s.rect.Shift(offset)
  }

  /** The rectangle `blit_offset` writes: placed surface, destination and,
      when `subrect` is non-empty, `subrect` relative to the placed surface. */
  function BlitClip(t: Target, s: Surface, subrect: Rect, offset: Pos): (r: Rect)
    ensures r == EmptyRect || (r.Truthy() && r.Within(Placed(s, offset)) && r.Within(DestRect(t, s)))
    ensures forall q :: r.Contains(q) <==>
      Placed(s, offset).Contains(q) && DestRect(t, s).Contains(q)
      && (subrect.Truthy() ==> subrect.Shift(Placed(s, offset).pos).Contains(q))
  {
    var sr := Placed(s, offset);
    var b := Intersect(sr, DestRect(t, s));
    var r := if subrect.Truthy() then Intersect(b, subrect.Shift(sr.pos)) else b;
    assert forall q :: r.Contains(q) <==>
      sr.Contains(q) && DestRect(t, s).Contains(q) && (subrect.Truthy() ==> subrect.Shift(sr.pos).Contains(q)) by {
      forall q
        ensures r.Contains(q) <==>
          sr.Contains(q) && DestRect(t, s).Contains(q) && (subrect.Truthy() ==> subrect.Shift(sr.pos).Contains(q))
      {
        IntersectExact(sr, DestRect(t, s), q);
        if subrect.Truthy() {
          IntersectExact(b, subrect.Shift(sr.pos), q);
        }
      }
    }
    r
  }

  /** The world position that buffer index `k` shows in a blit of `s`. */
  function WorldOf(t: Target, s: Surface, k: int): Pos
    requires t.rect.w > 0
  {
    Pos(k % t.rect.w, k / t.rect.w).Add(DestRect(t, s).pos)
  }

  /** The source pixel of `s` shown at world position `q` when `s` is
      placed at `Placed(s, offset)`. */
  function SourcePixel(s: Surface, offset: Pos, q: Pos): (r: Pixel)
    requires Blittable(s) && Placed(s, offset).Contains(q)
    ensures var d := s.data.value; var l := q.Sub(Placed(s, offset).pos);
      0 <= l.y * d.w + l.x < |d.pixels| && r == d.pixels[l.y * d.w + l.x]
  {
    var d := s.data.value;
    var l := q.Sub(Placed(s, offset).pos);
    Grid.CellIndex(l.x, l.y, d.w, d.h);
    d.pixels[l.y * d.w + l.x]
  }

  /** Reference meaning of `blit_offset`, pixel by pixel: a buffer pixel
      whose world position is in the clip takes the surface's pixel there
      if that pixel has non-zero alpha; every other pixel is kept. */
  function Composite(t: Target, s: Surface, subrect: Rect, offset: Pos): (r: Target)
    requires TargetValid(t) && Blittable(s)
    ensures r.rect == t.rect && |r.buffer| == |t.buffer| && TargetValid(r)
  {
    var clip := BlitClip(t, s, subrect, offset);
    if !clip.Truthy() then t
    else
      t.(buffer := seq(|t.buffer|, k requires 0 <= k < |t.buffer| =>
        assert t.rect.w > 0;
        var q := WorldOf(t, s, k);
        if clip.Contains(q) then SetIfAlpha(t.buffer[k], SourcePixel(s, offset, q)) else t.buffer[k]))
  }

  /** Pixel-level reading of `Composite`, for clients. */
  lemma CompositeAt(t: Target, s: Surface, subrect: Rect, offset: Pos, k: int)
    requires TargetValid(t) && Blittable(s) && 0 <= k < |t.buffer|
    ensures t.rect.w > 0
    ensures var r := Composite(t, s, subrect, offset).buffer[k]; var q := WorldOf(t, s, k);
      if BlitClip(t, s, subrect, offset).Contains(q)
      then Placed(s, offset).Contains(q) && r == SetIfAlpha(t.buffer[k], SourcePixel(s, offset, q))
      else r == t.buffer[k]
  {
  }

  /** Row `row` of a `w`-wide buffer, columns [col, col + n), is the index
      range [row*w + col, row*w + col + n). */
  lemma RowSegment(k: int, w: int, row: int, col: int, n: int)
    requires w > 0 && row >= 0 && 0 <= col && col + n <= w && k >= 0
    ensures row * w + col <= k < row * w + col + n <==> k / w == row && col <= k % w < col + n
  {
    if row * w + col <= k < row * w + col + n {
      Grid.DivModUnique(k, w, row, k - row * w);
    }
    Grid.DivModUnique(k, w, k / w, k % w);
  }

  /** The first row of the clip starts inside the buffer, and so does the
      first source row: neither `pixel_raw` call of `blit_offset` throws. */
  lemma BlitStartsInBounds(t: Target, s: Surface, subrect: Rect, offset: Pos)
    requires TargetValid(t) && Blittable(s) && BlitClip(t, s, subrect, offset).Truthy()
    ensures s.data.Some?
    ensures var clip := BlitClip(t, s, subrect, offset);
      Surfaces.PixelRaw(s.(rect := Placed(s, offset)), clip.pos).Ok?
      && (if s.ignoreCamera then PixelRawNoOffset(t, clip.pos) else PixelRaw(t, clip.pos)).Ok?
  {
  }

  /** After `y` rows of the clip: exactly the clip pixels of those rows
      have been composited. */
  ghost predicate RowsDone(t: Target, s: Surface, subrect: Rect, offset: Pos, buf: seq<Pixel>, y: int)
    requires TargetValid(t) && Blittable(s) && t.rect.w > 0
  {
    var clip := BlitClip(t, s, subrect, offset);
    |buf| == |t.buffer| &&
    forall k :: 0 <= k < |buf| ==>
      buf[k] == (if clip.Contains(WorldOf(t, s, k)) && WorldOf(t, s, k).y < clip.pos.y + y
                 then SetIfAlpha(t.buffer[k], SourcePixel(s, offset, WorldOf(t, s, k)))
                 else t.buffer[k])
  }

  /** One `set_line_if_alpha` call on row `y` of the clip extends
      `RowsDone` by that row. */
  lemma RowStep(t: Target, s: Surface, subrect: Rect, offset: Pos,
                buf: seq<Pixel>, next: seq<Pixel>, y: int, dst: int, src: int)
    requires TargetValid(t) && Blittable(s)
    requires BlitClip(t, s, subrect, offset).Truthy() && 0 <= y < BlitClip(t, s, subrect, offset).h
    requires t.rect.w > 0 && s.data.Some?
    requires RowsDone(t, s, subrect, offset, buf, y)
    requires var clip := BlitClip(t, s, subrect, offset); var d := DestRect(t, s).pos;
      var sp := Placed(s, offset).pos;
      dst == (clip.pos.y - d.y + y) * t.rect.w + (clip.pos.x - d.x)
      && src == (clip.pos.y - sp.y + y) * s.data.value.w + (clip.pos.x - sp.x)
      && 0 <= dst && dst + clip.w <= |buf| && 0 <= src && src + clip.w <= |s.data.value.pixels|
    requires |next| == |buf|
    requires var n := BlitClip(t, s, subrect, offset).w;
      forall i :: dst <= i < dst + n ==> next[i] == SetIfAlpha(buf[i], s.data.value.pixels[src + i - dst])
    requires var n := BlitClip(t, s, subrect, offset).w;
      forall i :: 0 <= i < |buf| && !(dst <= i < dst + n) ==> next[i] == buf[i]
    ensures RowsDone(t, s, subrect, offset, next, y + 1)
  {
    forall k | 0 <= k < |next|
      ensures next[k] == RowPixel(t, s, subrect, offset, k, y + 1)
    {
      assert buf[k] == RowPixel(t, s, subrect, offset, k, y);
      RowStepAt(t, s, subrect, offset, k, y, dst, src, buf[k], next[k]);
    }
  }

  /** Pixel `k` once `y` rows of the clip have been composited. */
  function RowPixel(t: Target, s: Surface, subrect: Rect, offset: Pos, k: int, y: int): Pixel
    requires TargetValid(t) && Blittable(s) && t.rect.w > 0 && 0 <= k < |t.buffer|
  {
    var clip := BlitClip(t, s, subrect, offset);
    var q := WorldOf(t, s, k);
    if clip.Contains(q) && q.y < clip.pos.y + y then SetIfAlpha(t.buffer[k], SourcePixel(s, offset, q))
    else t.buffer[k]
  }

  /** `RowStep` for a single buffer index. */
  lemma RowStepAt(t: Target, s: Surface, subrect: Rect, offset: Pos,
                  k: int, y: int, dst: int, src: int, before: Pixel, after: Pixel)
    requires TargetValid(t) && Blittable(s) && t.rect.w > 0 && s.data.Some? && 0 <= k < |t.buffer|
    requires BlitClip(t, s, subrect, offset).Truthy() && 0 <= y < BlitClip(t, s, subrect, offset).h
    requires var clip := BlitClip(t, s, subrect, offset); var d := DestRect(t, s).pos;
      var sp := Placed(s, offset).pos;
      dst == (clip.pos.y - d.y + y) * t.rect.w + (clip.pos.x - d.x)
      && src == (clip.pos.y - sp.y + y) * s.data.value.w + (clip.pos.x - sp.x)
      && 0 <= dst && 0 <= src && src + clip.w <= |s.data.value.pixels|
    requires before == RowPixel(t, s, subrect, offset, k, y)
    requires var n := BlitClip(t, s, subrect, offset).w;
      dst <= k < dst + n ==> after == SetIfAlpha(before, s.data.value.pixels[src + k - dst])
    requires var n := BlitClip(t, s, subrect, offset).w;
      !(dst <= k < dst + n) ==> after == before
    ensures after == RowPixel(t, s, subrect, offset, k, y + 1)
  {
    var clip := BlitClip(t, s, subrect, offset);
    var d := DestRect(t, s).pos;
    var q := WorldOf(t, s, k);
    RowSegment(k, t.rect.w, clip.pos.y - d.y + y, clip.pos.x - d.x, clip.w);
    assert q == Pos(k % t.rect.w + d.x, k / t.rect.w + d.y);
    if dst <= k < dst + clip.w {
      assert q.y == clip.pos.y + y;
      assert clip.Contains(q);
      var row := k / t.rect.w;
      assert row == clip.pos.y - d.y + y;
      assert dst == row * t.rect.w + (clip.pos.x - d.x);
      Grid.Decompose(k, t.rect.w);
      assert k - dst == q.x - clip.pos.x;
    }
  }

  /** Once every row of the clip is done the buffer is `Composite`'s. */
  lemma AllRowsDone(t: Target, s: Surface, subrect: Rect, offset: Pos, buf: seq<Pixel>)
    requires TargetValid(t) && Blittable(s) && t.rect.w > 0
    requires BlitClip(t, s, subrect, offset).Truthy()
    requires RowsDone(t, s, subrect, offset, buf, BlitClip(t, s, subrect, offset).h)
    ensures t.(buffer := buf) == Composite(t, s, subrect, offset)
  {
  }

  /** `blit_offset`, as written: clip, fetch the first source and
      destination pixel with the bounds-checked `pixel_raw`, then copy the
      clip row by row with `set_line_if_alpha`, stepping the source by the
      surface width and the destination by the buffer width. It computes
      exactly `Composite`. */
  method BlitOffset(t: Target, s: Surface, subrect: Rect, offset: Pos) returns (r: Target)
    requires TargetValid(t) && Blittable(s)
    ensures r == Composite(t, s, subrect, offset)
  {
    var surf := s.(rect := s.rect.Shift(offset));
    var surfRect := surf.rect;
    var destRect := t.rect;
    var ignore := surf.ignoreCamera;
    if ignore {
      destRect := destRect.(pos := Origin);
    }
    var blitRect := Intersect(surfRect, destRect);
    if subrect.Truthy() {
      blitRect := Intersect(blitRect, subrect.Shift(surf.rect.pos));
    }
    assert blitRect == BlitClip(t, s, subrect, offset);
    if !blitRect.Truthy() {
      return t;
    }
    BlitStartsInBounds(t, s, subrect, offset);
    RowFits(t, s, subrect, offset, 0);
    var src := Surfaces.PixelRaw(surf, blitRect.pos).value;
    var dst := (if ignore then PixelRawNoOffset(t, blitRect.pos) else PixelRaw(t, blitRect.pos)).value;
    var buf := BlitRows(t, s, subrect, offset, blitRect, dst, src);
    AllRowsDone(t, s, subrect, offset, buf);
    r := t.(buffer := buf);
  }

  /** The row loop of `blit_offset`, from the first destination index
      `dst` and source index `src` of the clip: one `set_line_if_alpha`
      per row, stepping the source by the surface width and the
      destination by the buffer width. */
  method BlitRows(t: Target, s: Surface, subrect: Rect, offset: Pos, clip: Rect, dst: int, src: int)
    returns (buf: seq<Pixel>)
    requires TargetValid(t) && Blittable(s)
    requires clip == BlitClip(t, s, subrect, offset) && clip.Truthy()
    requires dst == (clip.pos.y - DestRect(t, s).pos.y) * t.rect.w + (clip.pos.x - DestRect(t, s).pos.x)
    requires s.data.Some? ==>
               src == (clip.pos.y - Placed(s, offset).pos.y) * s.data.value.w + (clip.pos.x - Placed(s, offset).pos.x)
    ensures t.rect.w > 0
    ensures RowsDone(t, s, subrect, offset, buf, clip.h)
  {
    RowFits(t, s, subrect, offset, 0);
    var pixels := s.data.value.pixels;
    var sw := s.data.value.w;
    ghost var d := DestRect(t, s).pos;
    ghost var sp := Placed(s, offset).pos;
    buf := t.buffer;
    var dOff, sOff := dst, src;
    var y := 0;
    while y < clip.h
      invariant 0 <= y <= clip.h
      invariant dOff == (clip.pos.y - d.y + y) * t.rect.w + (clip.pos.x - d.x)
      invariant sOff == (clip.pos.y - sp.y + y) * sw + (clip.pos.x - sp.x)
      invariant RowsDone(t, s, subrect, offset, buf, y)
    {
      RowFits(t, s, subrect, offset, y);
      var next := SetLineIfAlpha(buf, dOff, pixels, sOff, clip.w);
      RowStep(t, s, subrect, offset, buf, next, y, dOff, sOff);
      Grid.NextRow(clip.pos.y - d.y + y, t.rect.w, clip.pos.x - d.x);
      Grid.NextRow(clip.pos.y - sp.y + y, sw, clip.pos.x - sp.x);
      buf := next;
      y := y + 1;
      sOff := sOff + sw;
      dOff := dOff + t.rect.w;
    }
  }

  /** Row `y` of the clip lies inside the destination buffer and inside
      the source pixels. */
  lemma RowFits(t: Target, s: Surface, subrect: Rect, offset: Pos, y: int)
    requires TargetValid(t) && Blittable(s)
    requires BlitClip(t, s, subrect, offset).Truthy() && 0 <= y < BlitClip(t, s, subrect, offset).h
    ensures t.rect.w > 0 && s.data.Some?
    ensures var clip := BlitClip(t, s, subrect, offset); var d := DestRect(t, s).pos;
      var sp := Placed(s, offset).pos; var dw := s.data.value.w;
      (clip.pos.y - d.y + y) * t.rect.w + (clip.pos.x - d.x) + clip.w <= |t.buffer|
      && 0 <= (clip.pos.y - d.y + y) * t.rect.w + (clip.pos.x - d.x)
      && (clip.pos.y - sp.y + y) * dw + (clip.pos.x - sp.x) + clip.w <= |s.data.value.pixels|
      && 0 <= (clip.pos.y - sp.y + y) * dw + (clip.pos.x - sp.x)
  {
    var clip := BlitClip(t, s, subrect, offset);
    var d := DestRect(t, s).pos;
    var sp := Placed(s, offset).pos;
    var dd := s.data.value;
    Grid.CellIndex(clip.pos.x - d.x + clip.w - 1, clip.pos.y - d.y + y, t.rect.w, t.rect.h);
    Grid.CellIndex(clip.pos.x - sp.x + clip.w - 1, clip.pos.y - sp.y + y, dd.w, dd.h);
    Grid.CellIndex(clip.pos.x - d.x, clip.pos.y - d.y + y, t.rect.w, t.rect.h);
    Grid.CellIndex(clip.pos.x - sp.x, clip.pos.y - sp.y + y, dd.w, dd.h);
  }

  /** `blit`: `blit_offset` with a zero offset. */
  method BlitSurface(t: Target, s: Surface, subrect: Rect) returns (r: Target)
    requires TargetValid(t) && Blittable(s)
    ensures r == Composite(t, s, subrect, Origin)
  {
    r := BlitOffset(t, s, subrect, Origin);
  }

  /** Blitting with an offset is blitting a copy of the surface moved by
      that offset; the caller's surface itself is not moved. */
  lemma OffsetIsMovedCopy(t: Target, s: Surface, subrect: Rect, offset: Pos)
    requires TargetValid(t) && Blittable(s)
    ensures Blittable(s.(rect := s.rect.Shift(offset)))
    ensures Composite(t, s, subrect, offset) == Composite(t, s.(rect := s.rect.Shift(offset)), subrect, Origin)
  {
    var m := s.(rect := s.rect.Shift(offset));
    assert Placed(m, Origin) == Placed(s, offset);
    assert DestRect(t, m) == DestRect(t, s);
    assert BlitClip(t, m, subrect, Origin) == BlitClip(t, s, subrect, offset);
  }

  /** A surface with no opaque pixel leaves the target as it was. */
  lemma TransparentBlitChangesNothing(t: Target, s: Surface, subrect: Rect, offset: Pos)
    requires TargetValid(t) && Blittable(s)
    requires s.data.Some? ==> forall i :: 0 <= i < |s.data.value.pixels| ==> !Opaque(s.data.value.pixels[i])
    ensures Composite(t, s, subrect, offset) == t
  {
    var r := Composite(t, s, subrect, offset);
    forall k | 0 <= k < |t.buffer|
      ensures r.buffer[k] == t.buffer[k]
    {
      CompositeAt(t, s, subrect, offset, k);
    }
  }

  /** A fully opaque surface overwrites every pixel of the clip with its
      own pixel, and nothing outside the clip. */
  lemma OpaqueBlitOverwritesClip(t: Target, s: Surface, subrect: Rect, offset: Pos, k: int)
    requires TargetValid(t) && Blittable(s) && 0 <= k < |t.buffer|
    requires s.data.Some? ==> forall i :: 0 <= i < |s.data.value.pixels| ==> Opaque(s.data.value.pixels[i])
    ensures t.rect.w > 0
    ensures var q := WorldOf(t, s, k); var r := Composite(t, s, subrect, offset).buffer[k];
      if BlitClip(t, s, subrect, offset).Contains(q)
      then Placed(s, offset).Contains(q) && r == SourcePixel(s, offset, q)
      else r == t.buffer[k]
  {
    CompositeAt(t, s, subrect, offset, k);
  }

  /** `Surface::sub`: render the surface, moved so that `rect.pos` lands on
      the origin, into a fresh `rect.w` x `rect.h` target through `rect`
      as the sub-rectangle, and take the target's buffer as a new surface. */
  function Sub(s: Surface, rect: Rect): (r: Surface)
    requires Blittable(s) && rect.w >= 0 && rect.h >= 0
    ensures Blittable(r) && r.rect == Rect(Origin, rect.w, rect.h) && !r.ignoreCamera
    ensures r.data.Some? && r.data.value.w == rect.w && r.data.value.h == rect.h
  {
    ConvertSurface(Composite(SubTarget(rect), SubSource(s, rect), rect, Origin)).0
  }

  /** The scratch target and the moved surface `sub` renders with. */
  function SubTarget(rect: Rect): Target
    requires rect.w >= 0 && rect.h >= 0
  {
    NewTarget(rect.w, rect.h)
  }

  function SubSource(s: Surface, rect: Rect): Surface {
    s.(rect := s.rect.(pos := rect.pos.Neg()))
  }

  /** Pixel (i, j) of the sub-surface is buffer index j*w + i of the
      scratch target, which shows world position (i, j). */
  lemma SubReadsScratch(s: Surface, rect: Rect, i: int, j: int)
    requires Blittable(s) && rect.w >= 0 && rect.h >= 0
    requires 0 <= i < rect.w && 0 <= j < rect.h
    ensures 0 <= j * rect.w + i < rect.w * rect.h
    ensures WorldOf(SubTarget(rect), SubSource(s, rect), j * rect.w + i) == Pos(i, j)
    ensures PixelAt(Sub(s, rect), Pos(i, j))
            == Composite(SubTarget(rect), SubSource(s, rect), rect, Origin).buffer[j * rect.w + i]
  {
    Grid.CellIndex(i, j, rect.w, rect.h);
  }

  /** In the scratch blit, (i, j) is clipped in exactly when the original
      pixel (rect.x + i, rect.y + j) lies in the image. */
  lemma SubClip(s: Surface, rect: Rect, i: int, j: int)
    requires Blittable(s) && s.data.Some? && rect.w >= 0 && rect.h >= 0
    requires 0 <= i < rect.w && 0 <= j < rect.h
    ensures BlitClip(SubTarget(rect), SubSource(s, rect), rect, Origin).Contains(Pos(i, j))
            <==> 0 <= rect.pos.x + i < s.data.value.w && 0 <= rect.pos.y + j < s.data.value.h
  {
    assert Placed(SubSource(s, rect), Origin) == Rect(rect.pos.Neg(), s.data.value.w, s.data.value.h);
  }

  /** Pixel (i, j) of `sub(rect)` is the original's pixel at
      (rect.x + i, rect.y + j) when that pixel lies in the image and has
      non-zero alpha, and 0 otherwise. */
  lemma SubPixel(s: Surface, rect: Rect, i: int, j: int)
    requires Blittable(s) && s.data.Some? && rect.w >= 0 && rect.h >= 0
    requires 0 <= i < rect.w && 0 <= j < rect.h
    ensures var d := s.data.value; var x := rect.pos.x + i; var y := rect.pos.y + j;
      var p := PixelAt(Sub(s, rect), Pos(i, j));
      if 0 <= x < d.w && 0 <= y < d.h
      then p == (if Opaque(DataPixel(d, x, y)) then DataPixel(d, x, y) else 0)
      else p == 0
  {
    var k := j * rect.w + i;
    SubReadsScratch(s, rect, i, j);
    SubClip(s, rect, i, j);
    CompositeAt(SubTarget(rect), SubSource(s, rect), rect, Origin, k);
  }
}

=== FILE: results.dfy ===
/** Error and optional-value wrappers shared by every module of the engine model.
    The engine reports failures with C++ exceptions; each exception class it
    throws is one `Error` constructor, and an operation that may throw returns
    a `Result`. A null pointer returned by a lookup is `None`. */
module Results {

  /** The exception classes the engine throws. */
  datatype Error =
    | LogicError     // std::logic_error: malformed content or an out-of-bounds fetch
    | RuntimeError   // std::runtime_error: a document or image failed to load
    | OutOfRange     // std::out_of_range: std::vector::at with a bad index
    | LengthError    // std::length_error: a std::vector asked for a negative size

  datatype Option<+T> = None | Some(value: T) {
    predicate IsFailure() { None? }

    function PropagateFailure<U>(): Option<U>
      requires None?
    {
      None
    }

    function Extract(): T
      requires Some?
    {
      value
    }
  }

  datatype Result<+T> = Ok(value: T) | Err(error: Error) {
    predicate IsFailure() { Err? }

    function PropagateFailure<U>(): Result<U>
      requires Err?
    {
      Err(error)
    }

    function Extract(): T
      requires Ok?
    {
      value
    }
  }
}

=== FILE: surface.dfy ===
/** `Surface` (surface.hpp, surface.cpp): an immutable, shared pixel buffer
    (`Data`) plus a mutable placement rectangle, a camera flag, an attribute
    map and the table of alternative buffers ("alts"). A C++ copy shares the
    `Data` and copies everything else; with value semantics here, sharing
    the immutable `Data` is simply equality of the `data` field. */
module Surfaces {

  import opened Results
  import opened Blit
  import Grid

  /** `Surface::Data`: pixels and the declared width and height. */
  datatype Data = Data(pixels: seq<Pixel>, w: int, h: int)

  /** The declared geometry matches the pixel count. */
  predicate DataValid(d: Data) {
    d.w >= 0 && d.h >= 0 && |d.pixels| == d.w * d.h
  }

  /** `Data(std::vector<Pixel>, int, int)`: the arguments, verbatim. */
  function MakeData(pixels: seq<Pixel>, w: int, h: int): (d: Data)
    ensures d.pixels == pixels && d.w == w && d.h == h
    ensures |pixels| == w * h && w >= 0 && h >= 0 ==> DataValid(d)
  {
    Data(pixels, w, h)
  }

  /** The pixel at image coordinate (x, y), stored row-major. */
  function DataPixel(d: Data, x: int, y: int): (r: Pixel)
    requires DataValid(d) && 0 <= x < d.w && 0 <= y < d.h
    ensures 0 <= y * d.w + x < |d.pixels| && r == d.pixels[y * d.w + x]
  {
    Grid.CellIndex(x, y, d.w, d.h);
    d.pixels[y * d.w + x]
  }

  /** `Data(Pixel, int, int)`: `w*h` copies of `pix`. The constructor never
      assigns the `w` and `h` members, so they hold whatever the caller of
      this model supplies as `unsetW`/`unsetH`. */
  function FillData(pix: Pixel, w: nat, h: nat, unsetW: int, unsetH: int): (d: Data)
    ensures |d.pixels| == w * h
    ensures forall i :: 0 <= i < |d.pixels| ==> d.pixels[i] == pix
    ensures d.w == unsetW && d.h == unsetH
  {
    Data(seq(w * h, _ => pix), unsetW, unsetH)
  }

  /** `Surface::Alt`: one alternative buffer and its id. */
  datatype Alt = Alt(data: Data, tag: string)

  datatype Surface = Surface(
    data: Option<Data>,            // null for `Surface()`
    rect: Rect,                    // placement
    ignoreCamera: bool,
    attrs: map<string, string>,
    alts: seq<(string, Data)>,     // the alt multimap, in key order
    activeAlt: string,
    activeAltIndex: nat)

  /** `Surface()`: no pixel data and a 0x0 rectangle at the origin. */
  function EmptySurface(): (s: Surface)
    ensures s.data.None? && s.rect == Rect(Origin, 0, 0) && !s.ignoreCamera
    ensures !s.rect.Truthy()
  {
    Surface(None, EmptyRect, false, map[], [], "", 0)
  }

  /** `Surface(std::shared_ptr<const Data>)`: placed at the origin with the
      data's own width and height. */
  function SurfaceOf(d: Data): (s: Surface)
    ensures s.data == Some(d)
    ensures s.rect == Rect(Origin, d.w, d.h) && !s.ignoreCamera
  {
    Surface(Some(d), Rect(Origin, d.w, d.h), false, map[], [], "", 0)
  }

  /** The constructor as written leaves the declared size unset: with
      whatever 0x0 the members happen to hold, a 2x2 buffer of four pixels
      is not valid data, and a surface built on it cannot be blitted. */
  lemma FillDataLeavesSizeUnset()
    ensures |FillData(0, 2, 2, 0, 0).pixels| == 4
    ensures !DataValid(FillData(0, 2, 2, 0, 0))
    ensures !Blittable(Surface(Some(FillData(0, 2, 2, 0, 0)), Rect(Origin, 2, 2), false, map[], [], "", 0))
  {
  }

  /** `Data(Pixel, int, int)` with the size recorded, as the other
      constructor does: `w*h` copies of `pix` in a valid w x h buffer. */
  function FilledData(pix: Pixel, w: nat, h: nat): (d: Data)
    ensures DataValid(d) && d.w == w && d.h == h
    ensures forall i :: 0 <= i < |d.pixels| ==> d.pixels[i] == pix
  {
    Data(seq(w * h, _ => pix), w, h)
  }

  /** `Surface(Pixel, int, int)`, on the corrected `Data`: a w x h surface at
      the origin that can be blitted and reads `pix` everywhere inside. */
  function FilledSurface(pix: Pixel, w: nat, h: nat): (s: Surface)
    ensures s.rect == Rect(Origin, w, h) && !s.ignoreCamera
    ensures Blittable(s)
    ensures forall p: Pos :: 0 <= p.x < w && 0 <= p.y < h ==> PixelAt(s, p) == pix
  {
    var s := Surface(Some(FilledData(pix, w, h)), Rect(Origin, w, h), false, map[], [], "", 0);
    assert forall p: Pos :: 0 <= p.x < w && 0 <= p.y < h ==> PixelAt(s, p) == pix by {
      forall p: Pos | 0 <= p.x < w && 0 <= p.y < h
        ensures PixelAt(s, p) == pix
      {
        Grid.CellIndex(p.x, p.y, w, h);
      }
    }
    s
  }

  /** The surface can be handed to a blit: either its rectangle is empty
      (nothing is ever read), or its rectangle has exactly the size of its
      valid pixel data, which is what the row stride of a blit assumes. */
  predicate Blittable(s: Surface) {
    match s.data
    case None => !s.rect.Truthy()
    case Some(d) => DataValid(d) && s.rect.w == d.w && s.rect.h == d.h
  }

  /** Placement relative to the surface's own rectangle. */
  function Local(s: Surface, p: Pos): Pos {
    p.Sub(s.rect.pos)
  }

  /** `Surface::pixel`: 0 past the right or bottom edge, otherwise the
      stored pixel. The source does not check negative relative
      coordinates, so they are excluded here. */
  function PixelAt(s: Surface, p: Pos): (r: Pixel)
    requires s.data.Some? && DataValid(s.data.value)
    requires Local(s, p).x >= 0 && Local(s, p).y >= 0
    ensures Local(s, p).x >= s.data.value.w || Local(s, p).y >= s.data.value.h ==> r == 0
    ensures Local(s, p).x < s.data.value.w && Local(s, p).y < s.data.value.h ==>
              var i := Local(s, p).y * s.data.value.w + Local(s, p).x;
              i < |s.data.value.pixels| && r == s.data.value.pixels[i]
  {
    var q := Local(s, p);
    var d := s.data.value;
    if q.x >= d.w || q.y >= d.h then 0
    else
      Grid.CellIndex(q.x, q.y, d.w, d.h);
      d.pixels[q.y * d.w + q.x]
  }

  /** `Surface::pixel_raw`: the index of the pixel in the data, or
      `logic_error` for any coordinate outside the data. */
  function PixelRaw(s: Surface, p: Pos): (r: Result<nat>)
    requires s.data.Some?
    ensures r.Ok? <==> 0 <= Local(s, p).x < s.data.value.w && 0 <= Local(s, p).y < s.data.value.h
    ensures r.Err? ==> r.error == LogicError
    ensures r.Ok? ==> r.value == Local(s, p).y * s.data.value.w + Local(s, p).x
    ensures r.Ok? && DataValid(s.data.value) ==> r.value < |s.data.value.pixels|
  {
    var q := Local(s, p);
    var d := s.data.value;
    if q.x >= d.w || q.y >= d.h || q.x < 0 || q.y < 0 then Err(LogicError)
    else
      Grid.CellIndex(q.x, q.y, d.w, d.h);
      Ok(q.y * d.w + q.x)
  }

  /** A surface built from valid data reads back exactly that data: every
      in-range position through `pixel_raw`, and `pixel` agrees with it. */
  lemma SurfaceOfReadsData(d: Data, p: Pos)
    requires DataValid(d) && 0 <= p.x < d.w && 0 <= p.y < d.h
    ensures Blittable(SurfaceOf(d))
    ensures PixelRaw(SurfaceOf(d), p) == Ok(p.y * d.w + p.x)
    ensures p.y * d.w + p.x < |d.pixels| && PixelAt(SurfaceOf(d), p) == d.pixels[p.y * d.w + p.x]
  {
  }

  /** `ignore_camera(bool)` setter. */
  function SetIgnoreCamera(s: Surface, ignore: bool): (r: Surface)
    ensures r.ignoreCamera == ignore
    ensures r.data == s.data && r.rect == s.rect && r.attrs == s.attrs
    ensures r.alts == s.alts && r.activeAlt == s.activeAlt && r.activeAltIndex == s.activeAltIndex
  {
    s.(ignoreCamera := ignore)
  }

  /** `active_alt()` getter: the current alt id and index. */
  function ActiveAlt(s: Surface): (r: (string, nat))
    ensures r.0 == s.activeAlt && r.1 == s.activeAltIndex
  {
    (s.activeAlt, s.activeAltIndex)
  }

  /** Moving a surface (`rect().pos = ...`) or replacing its attributes
      (`attr() = ...`) touches that field only: the pixels, the camera flag
      and the active alt are those of the original. */
  lemma PlacementIsIndependent(s: Surface, p: Pos, attrs: map<string, string>)
    ensures var m := s.(rect := s.rect.(pos := p));
      m.data == s.data && ActiveAlt(m) == ActiveAlt(s) && m.attrs == s.attrs
      && m.ignoreCamera == s.ignoreCamera && m.rect.w == s.rect.w && m.rect.h == s.rect.h
    ensures var a := s.(attrs := attrs);
      a.data == s.data && ActiveAlt(a) == ActiveAlt(s) && a.rect == s.rect
  {
  }
}

=== FILE: surface_cache.dfy ===
/** `SurfaceCache` (surface_cache.cpp): images loaded once per path and
    shared afterwards, sprites as lists of alternative images, and the
    conversion of decoded RGBA bytes to packed pixels. The PNG decoder and
    the sprite XML reader are parameters: a decoder maps a path to its
    decoded bytes or an error code, and a sprite reader maps a path to the
    parsed `<sprite>` element or to nothing when the file fails to load. */
module SurfaceCaches {

  import opened Results
  import opened Utils
  import opened Blit
  import opened Surfaces

  /** What `lodepng::decode` hands back: RGBA bytes and the image size, or
      a non-zero error code. */
  datatype Decoded = Decoded(rgba: seq<bv8>, w: nat, h: nat) | DecodeError(code: nat)

  /** The decoder delivers four bytes per pixel. */
  predicate DecodedValid(d: Decoded) {
    d.Decoded? ==> |d.rgba| == 4 * (d.w * d.h)
  }

  /** A decoder's answer, which always has four bytes per pixel. */
  type ValidDecoded = d: Decoded | DecodedValid(d) witness DecodeError(1)

  /** The PNG decoder, as a function of the file path. */
  type Decoder = string -> ValidDecoded

  /** The loop of `load_image`: pixel i packs the bytes 4i..4i+3, which the
      decoder delivers in R, G, B, A order, as ARGB. */
  function ConvertRgba(rgba: seq<bv8>, w: nat, h: nat): (pix: seq<Pixel>)
    requires |rgba| == 4 * (w * h)
    ensures |pix| == w * h
  {
    seq(w * h, i requires 0 <= i < w * h => RgbaPixel(rgba, i))
  }

  /** Pixel i of the decoded bytes: `ARGB(b[4i+3], b[4i], b[4i+1], b[4i+2])`. */
  function RgbaPixel(rgba: seq<bv8>, i: nat): Pixel
    requires 4 * i + 3 < |rgba|
  {
    ARGB(rgba[4 * i + 3] as bv32, rgba[4 * i] as bv32, rgba[4 * i + 1] as bv32, rgba[4 * i + 2] as bv32)
  }

  /** Every converted pixel gives back its four source bytes, channel by
      channel: nothing is lost or reordered other than A moving to the top. */
  lemma ConvertRgbaChannels(rgba: seq<bv8>, w: nat, h: nat, i: nat)
    requires |rgba| == 4 * (w * h) && i < w * h
    ensures var p := ConvertRgba(rgba, w, h)[i];
      ExtractColor(p, 24) == rgba[4 * i + 3] as bv32 && ExtractColor(p, 16) == rgba[4 * i] as bv32
      && ExtractColor(p, 8) == rgba[4 * i + 1] as bv32 && ExtractColor(p, 0) == rgba[4 * i + 2] as bv32
  {
    ARGBRoundTrip(rgba[4 * i + 3] as bv32, rgba[4 * i] as bv32, rgba[4 * i + 1] as bv32, rgba[4 * i + 2] as bv32);
  }

  /** `load_image`: `runtime_error` on a decoder error, otherwise valid data
      of the decoded size holding the converted pixels. */
  function LoadImage(path: string, decode: Decoder): (r: Result<Data>)
    ensures decode(path).DecodeError? <==> r.Err?
    ensures r.Err? ==> r.error == RuntimeError
    ensures r.Ok? ==>
              && DataValid(r.value) && r.value.w == decode(path).w && r.value.h == decode(path).h
              && r.value.pixels == ConvertRgba(decode(path).rgba, decode(path).w, decode(path).h)
  {
    match decode(path)
    case DecodeError(_) => Err(RuntimeError)
    case Decoded(rgba, w, h) => Ok(MakeData(ConvertRgba(rgba, w, h), w, h))
  }

  /** The cache: path to shared data; `operator[]` on a missing path leaves
      a null (`None`) entry behind. */
  type Cache = map<string, Option<Data>>

  /** Every cached image is valid data. */
  predicate CacheValid(c: Cache) {
    forall p :: p in c && c[p].Some? ==> DataValid(c[p].value)
  }

  /** The lookup shared by `from_image` and `from_sprite`: a non-null entry
      is returned as is; otherwise the image is loaded and stored. A load
      that throws leaves the null entry `operator[]` created. */
  function Lookup(c: Cache, path: string, decode: Decoder): (r: (Result<Data>, Cache))
    ensures path in c && c[path].Some? ==> r == (Ok(c[path].value), c)
    ensures !(path in c && c[path].Some?) ==>
              && (r.0.Ok? <==> LoadImage(path, decode).Ok?)
              && (r.0.Ok? ==> r.0.value == LoadImage(path, decode).value)
              && (r.0.Err? ==> r.0.error == RuntimeError && path in r.1 && r.1[path].None?)
    ensures r.0.Ok? ==> path in r.1 && r.1[path] == Some(r.0.value)
    ensures forall p :: p in c && p != path ==> p in r.1 && r.1[p] == c[p]
    ensures r.1.Keys == c.Keys + {path}
  {
    var c1 := if path in c then c else c[path := None];
    if c1[path].Some? then (Ok(c1[path].value), c1)
    else
      match LoadImage(path, decode)
      case Ok(d) => (Ok(d), c1[path := Some(d)])
      case Err(e) => (Err(e), c1)
  }

  /** `from_image`: the cached or freshly loaded image as a surface. */
  function FromImage(c: Cache, path: string, decode: Decoder): (r: (Result<Surface>, Cache))
    ensures r.1 == Lookup(c, path, decode).1
    ensures r.0.Ok? <==> Lookup(c, path, decode).0.Ok?
    ensures r.0.Ok? ==> r.0.value == SurfaceOf(Lookup(c, path, decode).0.value)
    ensures r.0.Err? ==> r.0.error == RuntimeError
  {
    var (d, c') := Lookup(c, path, decode);
    match d
    case Ok(data) => (Ok(SurfaceOf(data)), c')
    case Err(e) => (Err(e), c')
  }

  /** Memoisation: once `from_image` succeeded, asking again returns the
      same surface whatever the decoder would now do, so the image is not
      loaded a second time; after a failed load the next call decodes the
      file afresh. */
  lemma FromImageMemoises(c: Cache, path: string, decode: Decoder, later: Decoder)
    ensures var (s, c') := FromImage(c, path, decode);
      s.Ok? ==> FromImage(c', path, later) == (s, c')
    ensures var (s, c') := FromImage(c, path, decode);
      s.Err? ==> (FromImage(c', path, later).0.Ok? <==> later(path).Decoded?)
  {
  }

  /** An XML element with its attributes; a missing attribute reads as "". */
  datatype XmlNode = XmlNode(name: string, attrs: map<string, string>)

  function Attr(n: XmlNode, key: string): string {
    if key in n.attrs then n.attrs[key] else ""
  }

  /** The `<sprite>` element: its children in document order and its
      `start_id` attribute. */
  datatype SpriteDoc = SpriteDoc(children: seq<XmlNode>, startId: string)

  /** The nodes `from_sprite` visits: from the first `face` child through
      every later sibling, whatever its name. */
  function FaceNodes(children: seq<XmlNode>): (r: seq<XmlNode>)
    ensures |r| <= |children|
    ensures |r| > 0 ==> r[0].name == "face" && r == children[|children| - |r|..]
    ensures forall i :: 0 <= i < |children| - |r| ==> children[i].name != "face"
    decreases |children|
  {
    if |children| == 0 then []
    else if children[0].name == "face" then children
    else FaceNodes(children[1..])
  }

  /** The image path of one face: `basedir/source`. */
  function FacePath(dir: string, n: XmlNode): string {
    Join([dir, "/", Attr(n, "source")])
  }

  /** An image can be had for `path`: it is cached, or it decodes. */
  predicate Available(c: Cache, path: string, decode: Decoder) {
    (path in c && c[path].Some?) || decode(path).Decoded?
  }

  /** The image a lookup of an available path yields: the cached one, or
      the freshly decoded one. */
  function ImageOf(c: Cache, path: string, decode: Decoder): Data
    requires Available(c, path, decode)
  {
    if path in c && c[path].Some? then c[path].value else LoadImage(path, decode).value
  }

  /** A lookup changes neither which paths are available nor what image
      an available path yields. */
  lemma LookupKeepsImages(c: Cache, path: string, decode: Decoder, p: string)
    ensures var c' := Lookup(c, path, decode).1;
      && (Available(c', p, decode) <==> Available(c, p, decode))
      && (Available(c, p, decode) ==> ImageOf(c', p, decode) == ImageOf(c, p, decode))
  {
  }

  /** The loop of `from_sprite`: one alt per node, in order, each holding
      the node's `id` and the cached image of its path. It succeeds exactly
      when every face's image is cached or decodes, and a face shows the
      image its path had before the loop, or its decoded image. */
  function FaceAlts(c: Cache, dir: string, nodes: seq<XmlNode>, decode: Decoder): (r: (Result<seq<Alt>>, Cache))
    ensures r.0.Ok? <==> forall i :: 0 <= i < |nodes| ==> Available(c, FacePath(dir, nodes[i]), decode)
    ensures r.0.Ok? ==> |r.0.value| == |nodes|
    ensures r.0.Ok? ==> forall i :: 0 <= i < |nodes| ==> r.0.value[i].data == ImageOf(c, FacePath(dir, nodes[i]), decode)
    ensures r.0.Ok? ==> forall i :: 0 <= i < |nodes| ==>
      r.0.value[i].tag == Attr(nodes[i], "id") && FacePath(dir, nodes[i]) in r.1
      && r.1[FacePath(dir, nodes[i])] == Some(r.0.value[i].data)
    ensures r.0.Err? ==> r.0.error == RuntimeError
    ensures forall p :: p in c && c[p].Some? ==> p in r.1 && r.1[p] == c[p]
    decreases |nodes|
  {
    if |nodes| == 0 then (Ok([]), c)
    else
      var (d, c1) := Lookup(c, FacePath(dir, nodes[0]), decode);
      match d
      case Err(e) => (Err(e), c1)
      case Ok(data) =>
        var (rest, c2) := FaceAlts(c1, dir, nodes[1..], decode);
        assert forall i :: 0 < i < |nodes| ==> nodes[1..][i - 1] == nodes[i];
        assert forall p ::
          && (Available(c1, p, decode) <==> Available(c, p, decode))
          && (Available(c, p, decode) ==> ImageOf(c1, p, decode) == ImageOf(c, p, decode)) by {
          forall p {
            LookupKeepsImages(c, FacePath(dir, nodes[0]), decode, p);
          }
        }
        match rest
        case Err(e) => (Err(e), c2)
        case Ok(alts) => (Ok([Alt(data, Attr(nodes[0], "id"))] + alts), c2)
  }

  /** `from_sprite`: `runtime_error` when the sprite document does not
      load, otherwise the alts of its faces and the start id, which the
      alt-list `Surface` constructor turns into a surface; a face image
      that is neither cached nor decodes is a `runtime_error`. */
  function FromSprite(c: Cache, path: string, sprites: string -> Option<SpriteDoc>, decode: Decoder)
    : (r: (Result<(seq<Alt>, string)>, Cache))
    ensures sprites(path).None? ==> r == (Err(RuntimeError), c)
    ensures sprites(path).Some? && r.0.Ok? ==>
      var nodes := FaceNodes(sprites(path).value.children);
      r.0.value.1 == sprites(path).value.startId && |r.0.value.0| == |nodes|
      && forall i :: 0 <= i < |nodes| ==>
           r.0.value.0[i].tag == Attr(nodes[i], "id")
           && FacePath(Basedir(path), nodes[i]) in r.1 && r.1[FacePath(Basedir(path), nodes[i])] == Some(r.0.value.0[i].data)
    ensures forall p :: p in c && c[p].Some? ==> p in r.1 && r.1[p] == c[p]
    ensures r.0.Err? ==> r.0.error == RuntimeError
    ensures sprites(path).Some? ==> var nodes := FaceNodes(sprites(path).value.children);
      && (r.0.Ok? <==> forall i :: 0 <= i < |nodes| ==> Available(c, FacePath(Basedir(path), nodes[i]), decode))
      && (r.0.Ok? ==> forall i :: 0 <= i < |nodes| ==>
            r.0.value.0[i].data == ImageOf(c, FacePath(Basedir(path), nodes[i]), decode))
  {
    match sprites(path)
    case None => (Err(RuntimeError), c)
    case Some(doc) =>
      var (alts, c') := FaceAlts(c, Basedir(path), FaceNodes(doc.children), decode);
      assert alts == FaceAlts(c, Basedir(path), FaceNodes(sprites(path).value.children), decode).0;
      match alts
      case Err(e) => (Err(e), c')
      case Ok(a) => (Ok((a, doc.startId)), c')
  }

  /** A face whose image is already cached reuses that image: sprites and
      `from_image` share one cache. */
  lemma SpriteSharesImageCache(c: Cache, path: string, sprites: string -> Option<SpriteDoc>,
                               decode: Decoder, i: nat)
    requires sprites(path).Some?
    requires i < |FaceNodes(sprites(path).value.children)|
    requires var p := FacePath(Basedir(path), FaceNodes(sprites(path).value.children)[i]); p in c && c[p].Some?
    ensures var r := FromSprite(c, path, sprites, decode);
      r.0.Ok? ==> r.0.value.0[i].data == c[FacePath(Basedir(path), FaceNodes(sprites(path).value.children)[i])].value
  {
  }
}

=== FILE: surface_cluster.dfy ===
/** `SurfaceCluster` (surface_cluster.cpp) and the `Renderable` position
    it inherits (surface.hpp): an ordered list of surfaces with offsets,
    rendered together, with an optional transform of each offset. */
module Clusters {

  import opened Results
  import opened Blit
  import opened Surfaces
  import opened RenderTargets

  /** `SurfaceCluster::Elem`. */
  datatype Elem = Elem(surf: Surface, offset: Pos, tag: nat)

  /** The element list (`vec()`), the `Renderable` position and the
      transform set by `set_transform` (an empty std::function is `None`). */
  datatype Cluster = Cluster(elems: seq<Elem>, position: Pos, transform: Option<Pos -> Pos>)

  /** `SurfaceCluster()`. */
  const EmptyCluster := Cluster([], Origin, None)

  /** Every element can be blitted. */
  predicate ElemsBlittable(es: seq<Elem>) {
    forall i :: 0 <= i < |es| ==> Blittable(es[i].surf)
  }

  /** `SurfaceCluster::pos(Pos)`: every element's surface is placed at
      exactly `p` (element offsets are left alone) and `p` becomes the
      cluster position. */
  function SetPos(c: Cluster, p: Pos): (r: Cluster)
    ensures r.position == p && r.transform == c.transform && |r.elems| == |c.elems|
    ensures forall i :: 0 <= i < |c.elems| ==>
      r.elems[i].surf.rect.pos == p
      && r.elems[i].surf == c.elems[i].surf.(rect := c.elems[i].surf.rect.(pos := p))
      && r.elems[i].offset == c.elems[i].offset && r.elems[i].tag == c.elems[i].tag
  {
    c.(elems := seq(|c.elems|, i requires 0 <= i < |c.elems| =>
         var e := c.elems[i]; e.(surf := e.surf.(rect := e.surf.rect.(pos := p)))),
       position := p)
  }

  /** `Renderable::move`: `pos(pos() + offset)`. */
  function Move(c: Cluster, offset: Pos): (r: Cluster)
    ensures r.position == c.position.Add(offset)
    ensures |r.elems| == |c.elems|
    ensures forall i :: 0 <= i < |c.elems| ==> r.elems[i].surf.rect.pos == c.position.Add(offset)
  {
    SetPos(c, c.position.Add(offset))
  }

  /** Placing a cluster twice keeps only the second placement, and placing
      keeps every element blittable. */
  lemma SetPosLaws(c: Cluster, p: Pos, q: Pos)
    ensures SetPos(SetPos(c, p), q) == SetPos(c, q)
    ensures ElemsBlittable(c.elems) ==> ElemsBlittable(SetPos(c, p).elems)
  {
  }

  /** `set_transform`. */
  function SetTransform(c: Cluster, f: Pos -> Pos): (r: Cluster)
    ensures r.transform == Some(f) && r.elems == c.elems && r.position == c.position
  {
    c.(transform := Some(f))
  }

  /** The offset an element is blitted with: the transformed offset when a
      transform is set, the offset itself otherwise. */
  function EffectiveOffset(e: Elem, f: Option<Pos -> Pos>): Pos {
    match f
    case Some(g) => g(e.offset)
    case None => e.offset
  }

  /** Reference meaning of `render`: blit the elements in list order, each
      with an empty sub-rectangle, later ones on top. */
  function RenderElems(t: Target, es: seq<Elem>, f: Option<Pos -> Pos>): (r: Target)
    requires TargetValid(t) && ElemsBlittable(es)
    ensures r.rect == t.rect && |r.buffer| == |t.buffer| && TargetValid(r)
    decreases |es|
  {
    if |es| == 0 then t
    else RenderElems(Composite(t, es[0].surf, EmptyRect, EffectiveOffset(es[0], f)), es[1..], f)
  }

  /** Rendering one more element blits it over what the earlier ones drew. */
  lemma {:induction false} RenderElemsSnoc(t: Target, es: seq<Elem>, e: Elem, f: Option<Pos -> Pos>)
    requires TargetValid(t) && ElemsBlittable(es) && Blittable(e.surf)
    ensures ElemsBlittable(es + [e])
    ensures RenderElems(t, es + [e], f)
            == Composite(RenderElems(t, es, f), e.surf, EmptyRect, EffectiveOffset(e, f))
    decreases |es|
  {
    if |es| == 0 {
      assert es + [e] == [e];
    } else {
      assert (es + [e])[1..] == es[1..] + [e];
      RenderElemsSnoc(Composite(t, es[0].surf, EmptyRect, EffectiveOffset(es[0], f)), es[1..], e, f);
    }
  }

  /** Rendering with a transform is rendering the elements whose offsets
      have been transformed, without a transform. */
  lemma {:induction false} TransformIsOffsetMap(t: Target, es: seq<Elem>, g: Pos -> Pos)
    requires TargetValid(t) && ElemsBlittable(es)
    ensures var mapped := seq(|es|, i requires 0 <= i < |es| => es[i].(offset := g(es[i].offset)));
      ElemsBlittable(mapped) && RenderElems(t, es, Some(g)) == RenderElems(t, mapped, None)
    decreases |es|
  {
    var mapped := seq(|es|, i requires 0 <= i < |es| => es[i].(offset := g(es[i].offset)));
    if |es| > 0 {
      var t' := Composite(t, es[0].surf, EmptyRect, g(es[0].offset));
      TransformIsOffsetMap(t', es[1..], g);
      assert mapped[1..] == seq(|es[1..]|, i requires 0 <= i < |es[1..]| => es[1..][i].(offset := g(es[1..][i].offset)));
    }
  }

  /** `SurfaceCluster::render`, as written: one `blit_offset` per element,
      in list order. */
  method Render(t: Target, c: Cluster) returns (r: Target)
    requires TargetValid(t) && ElemsBlittable(c.elems)
    ensures r == RenderElems(t, c.elems, c.transform)
  {
    r := t;
    var i := 0;
    while i < |c.elems|
      invariant 0 <= i <= |c.elems|
      invariant TargetValid(r)
      invariant r == RenderElems(t, c.elems[..i], c.transform)
    {
      var e := c.elems[i];
      r := BlitOffset(r, e.surf, EmptyRect, EffectiveOffset(e, c.transform));
      RenderElemsSnoc(t, c.elems[..i], e, c.transform);
      assert c.elems[..i + 1] == c.elems[..i] + [e];
      i := i + 1;
    }
    assert c.elems[..i] == c.elems;
  }
}

=== FILE: tilemap.dfy ===
/** `Tilemap` (tilemap.cpp): a TMX map built from an already-parsed
    document. Tilesets cut their image into numbered tiles, layers place
    tiles on a grid and collect the collision set, and the queries look
    tiles and layers up. The XML reader is replaced by the descriptor
    datatypes below; the image and sprite loaders come in an `Env`. */
module Tilemaps {

  import opened Results
  import opened Utils
  import opened Blit
  import opened Surfaces
  import opened RenderTargets
  import opened Clusters
  import opened SurfaceCaches
  import Grid

  /** A list of `<property name=".." value="..">` children, in document order. */
  type Props = seq<(string, string)>

  /** One `<tile id="..">` child of a tileset and its properties. */
  datatype TileDesc = TileDesc(id: int, props: Props)

  /** One `<tileset>`: first gid, tile size, `<image>` source and declared
      size, tileset-wide properties and the `<tile>` children. */
  datatype TilesetDesc = TilesetDesc(
    firstGid: int, tilewidth: nat, tileheight: nat,
    source: string, width: int, height: int,
    props: Props, tiles: seq<TileDesc>)

  /** One `<layer>`: name, size, the gid of every `<tile>` under `<data>`
      in document order, and its properties. */
  datatype LayerDesc = LayerDesc(name: string, width: int, height: int, gids: seq<nat>, props: Props)

  /** The `<map>` element. */
  datatype MapDesc = MapDesc(
    width: int, height: int, tilewidth: int, tileheight: int,
    tilesets: seq<TilesetDesc>, layers: seq<LayerDesc>)

  /** The loaders a tilemap calls: the PNG decoder and the sprite XML
      reader used by the surface cache, and the alt-list `Surface`
      constructor, whose definition is not part of this model. */
  datatype Env = Env(
    decode: Decoder,
    sprites: string -> Option<SpriteDoc>,
    makeSprite: (seq<Alt>, string) -> Surface)

  /** The tile table being built: `std::map<unsigned, Surface>`. */
  type Tiles = map<int, Surface>

  /** A layer: its cluster of placed tiles, its properties and name. */
  datatype Layer = Layer(cluster: Cluster, attrs: map<string, string>, name: string)

  datatype Tilemap = Tilemap(
    layers: seq<Layer>,
    width: int, height: int, tilewidth: int, tileheight: int,
    dir: string,
    collisions: set<Pos>,
    position: Pos)

  // ---------------------------------------------------------------- attributes

  /** Property i carries the first occurrence of its name. */
  predicate FirstOfName(props: Props, i: int)
    requires 0 <= i < |props|
  {
    forall j :: 0 <= j < i ==> props[j].0 != props[i].0
  }

  /** `get_attributes`: a property list as a map. `std::map::insert` keeps
      an existing key, so the first occurrence of a repeated name wins. */
  function GetAttributes(props: Props): (r: map<string, string>)
    ensures forall k :: k in r <==> exists i :: 0 <= i < |props| && props[i].0 == k
    decreases |props|
  {
    if |props| == 0 then map[]
    else GetAttributes(props[1..])[props[0].0 := props[0].1]
  }

  /** Every name maps to the value of its first occurrence. */
  lemma {:induction false} GetAttributesFirstWins(props: Props, i: int)
    requires 0 <= i < |props| && FirstOfName(props, i)
    ensures props[i].0 in GetAttributes(props) && GetAttributes(props)[props[i].0] == props[i].1
    decreases |props|
  {
    if i > 0 {
      assert props[1..][i - 1] == props[i];
      GetAttributesFirstWins(props[1..], i - 1);
    }
  }

  /** Copying `from` into `into` through `std::inserter`: `insert` never
      replaces, so keys of `into` keep their value and the others are added. */
  function Merge(into: map<string, string>, from: map<string, string>): (r: map<string, string>)
    ensures r.Keys == into.Keys + from.Keys
    ensures forall k :: k in into ==> r[k] == into[k]
    ensures forall k :: k in from && k !in into ==> r[k] == from[k]
  {
    map k | k in into.Keys + from.Keys :: if k in into then into[k] else from[k]
  }

  /** The attributes a `<tile>` ends up with: its own properties, then the
      tileset-wide ones it does not override. */
  function TileAttrs(n: TileDesc, globals: map<string, string>): map<string, string> {
    MergeProps(n.props, globals)
  }

  /** A property list laid over a map, the first occurrence of a name
      applied last so that it wins. */
  function MergeProps(props: Props, globals: map<string, string>): map<string, string>
    decreases |props|
  {
    if |props| == 0 then globals
    else MergeProps(props[1..], globals)[props[0].0 := props[0].1]
  }

  /** Laying the properties over the globals one by one is `get_attributes`
      followed by the `std::inserter` copy of the globals. */
  lemma {:induction false} MergePropsIsMerge(props: Props, globals: map<string, string>)
    ensures MergeProps(props, globals) == Merge(GetAttributes(props), globals)
    decreases |props|
  {
    if |props| > 0 {
      MergePropsIsMerge(props[1..], globals);
      MergeUpdate(GetAttributes(props[1..]), globals, props[0].0, props[0].1);
    }
  }

  /** Setting a key before merging is setting it after. */
  lemma MergeUpdate(into: map<string, string>, from: map<string, string>, k: string, v: string)
    ensures Merge(into[k := v], from) == Merge(into, from)[k := v]
  {
    var a, b := Merge(into[k := v], from), Merge(into, from)[k := v];
    assert a.Keys == b.Keys;
    forall j | j in a ensures a[j] == b[j] {
    }
  }

  /** A tile's own property overrides a tileset-wide one of the same name;
      tileset-wide names it lacks are still present; nothing else is. */
  lemma TileAttributePrecedence(n: TileDesc, globals: map<string, string>, i: int)
    requires 0 <= i < |n.props| && FirstOfName(n.props, i)
    ensures n.props[i].0 in TileAttrs(n, globals) && TileAttrs(n, globals)[n.props[i].0] == n.props[i].1
    ensures forall k :: k in globals && (forall j :: 0 <= j < |n.props| ==> n.props[j].0 != k) ==>
              k in TileAttrs(n, globals) && TileAttrs(n, globals)[k] == globals[k]
    ensures forall k :: k in TileAttrs(n, globals) ==>
              k in globals || exists j :: 0 <= j < |n.props| && n.props[j].0 == k
  {
    GetAttributesFirstWins(n.props, i);
    MergePropsIsMerge(n.props, globals);
  }

  // ---------------------------------------------------------------- tilesets

  /** A tileset whose four dimensions passed the zero check and whose
      image matched its declared size (so the width is positive). */
  predicate GeometryOk(ts: TilesetDesc) {
    ts.tilewidth > 0 && ts.tileheight > 0 && ts.width > 0 && ts.height > 0
  }

  /** Tiles per row, ⌈width / tilewidth⌉, and rows, ⌈height / tileheight⌉. */
  function Columns(ts: TilesetDesc): nat
    requires GeometryOk(ts)
  {
    CeilDiv(ts.width, ts.tilewidth)
  }

  function Rows(ts: TilesetDesc): nat
    requires GeometryOk(ts)
  {
    CeilDiv(ts.height, ts.tileheight)
  }

  function TileCount(ts: TilesetDesc): nat
    requires GeometryOk(ts)
  {
    Rows(ts) * Columns(ts)
  }

  /** The image rectangle of the k-th tile, numbering row-major. */
  function TileRect(ts: TilesetDesc, k: nat): Rect
    requires GeometryOk(ts)
  {
    Rect(Pos((k % Columns(ts)) * ts.tilewidth, (k / Columns(ts)) * ts.tileheight), ts.tilewidth, ts.tileheight)
  }

  /** The k-th tile: that part of the image, carrying the tileset-wide
      attributes. */
  function CutTile(img: Surface, ts: TilesetDesc, globals: map<string, string>, k: nat): Surface
    requires Blittable(img) && GeometryOk(ts)
  {
    CutPiece(img, TileRect(ts, k), globals)
  }

  /** `surf.sub(rect)` followed by inserting the tileset-wide attributes. */
  function CutPiece(img: Surface, rect: Rect, globals: map<string, string>): Surface
    requires Blittable(img) && rect.w >= 0 && rect.h >= 0
  {
    var s := Sub(img, rect);
    s.(attrs := Merge(s.attrs, globals))
  }

  /** The k-th tile as a function of k. */
  function Pieces(img: Surface, ts: TilesetDesc, globals: map<string, string>): nat -> Surface
    requires Blittable(img) && GeometryOk(ts)
  {
    (k: nat) => CutTile(img, ts, globals, k)
  }

  lemma PiecesApply(img: Surface, ts: TilesetDesc, globals: map<string, string>, k: nat)
    requires Blittable(img) && GeometryOk(ts)
    ensures Pieces(img, ts, globals)(k) == CutTile(img, ts, globals, k)
  {
  }

  /** The table after storing `piece(k)` under `base + k` for k = 0, 1,
      .., n - 1 in turn. */
  function Numbering(tiles: Tiles, base: int, n: nat, piece: nat -> Surface): (r: Tiles)
    ensures forall id :: id in r <==> id in tiles || base <= id < base + n
  {
    if n == 0 then tiles else Numbering(tiles, base, n - 1, piece)[base + n - 1 := piece(n - 1)]
  }

  /** Reference meaning of the cutting loops: ids `firstGid ..
      firstGid + TileCount - 1` get the tiles, every other id is kept. */
  function Cut(tiles: Tiles, img: Surface, ts: TilesetDesc, globals: map<string, string>): (r: Tiles)
    requires Blittable(img) && GeometryOk(ts)
  {
    Numbering(tiles, ts.firstGid, TileCount(ts), Pieces(img, ts, globals))
  }

  /** The ids the tileset numbers: `firstGid` up to `firstGid + TileCount - 1`. */
  predicate Numbered(ts: TilesetDesc, id: int)
    requires GeometryOk(ts)
  {
    ts.firstGid <= id < ts.firstGid + TileCount(ts)
  }

  /** What the cut table holds under a numbered id: the k-th tile under
      `firstGid + k`. */
  lemma CutAt(tiles: Tiles, img: Surface, ts: TilesetDesc, globals: map<string, string>, id: int)
    requires Blittable(img) && GeometryOk(ts) && Numbered(ts, id)
    ensures id in Cut(tiles, img, ts, globals)
    ensures Cut(tiles, img, ts, globals)[id] == CutTile(img, ts, globals, id - ts.firstGid)
  {
    CutAtPiece(tiles, img, ts, globals, id);
    PiecesApply(img, ts, globals, id - ts.firstGid);
  }

  lemma CutAtPiece(tiles: Tiles, img: Surface, ts: TilesetDesc, globals: map<string, string>, id: int)
    requires Blittable(img) && GeometryOk(ts) && Numbered(ts, id)
    ensures id in Cut(tiles, img, ts, globals)
    ensures Cut(tiles, img, ts, globals)[id] == Pieces(img, ts, globals)(id - ts.firstGid)
  {
    NumberingAt(tiles, ts.firstGid, TileCount(ts), Pieces(img, ts, globals), id);
  }

  /** Every id the tileset does not number keeps its earlier entry, or its
      absence. */
  lemma CutKeeps(tiles: Tiles, img: Surface, ts: TilesetDesc, globals: map<string, string>, id: int)
    requires Blittable(img) && GeometryOk(ts) && !Numbered(ts, id)
    ensures id in Cut(tiles, img, ts, globals) <==> id in tiles
    ensures id in tiles ==> Cut(tiles, img, ts, globals)[id] == tiles[id]
  {
    NumberingAt(tiles, ts.firstGid, TileCount(ts), Pieces(img, ts, globals), id);
  }

  /** The entry `Numbering` leaves under one id: `piece(id - base)` inside
      the range, the earlier tile outside it. */
  lemma {:induction false} NumberingAt(tiles: Tiles, base: int, n: nat, piece: nat -> Surface, id: int)
    ensures base <= id < base + n ==>
              id in Numbering(tiles, base, n, piece) && Numbering(tiles, base, n, piece)[id] == piece(id - base)
    ensures !(base <= id < base + n) && id in tiles ==> Numbering(tiles, base, n, piece)[id] == tiles[id]
  {
    if n > 0 {
      NumberingAt(tiles, base, n - 1, piece, id);
    }
  }

  /** c equals ⌈a / b⌉ when c·b is the first multiple of b reaching a. */
  lemma {:induction false} CeilDivUnique(a: nat, b: nat, c: int)
    requires b > 0 && 0 <= c && a <= c * b < a + b
    ensures c == CeilDiv(a, b)
  {
    Grid.DivModUnique(a + b - 1, b, c, a + b - 1 - c * b);
  }

  /** c·b < a <= d·b with b > 0 gives c < d. */
  lemma {:induction false} MulLess(c: int, d: int, b: int, a: int)
    requires b > 0 && c * b < a <= d * b
    ensures c < d
  {
    assert (d - c) * b == d * b - c * b;
  }

  /** Tile number `row * cols + col` lies at (col, row) of the tile grid. */
  lemma TileRectAt(ts: TilesetDesc, row: nat, col: nat)
    requires GeometryOk(ts) && col < Columns(ts)
    ensures TileRect(ts, row * Columns(ts) + col) ==
            Rect(Pos(col * ts.tilewidth, row * ts.tileheight), ts.tilewidth, ts.tileheight)
  {
    Grid.DivModUnique(row * Columns(ts) + col, Columns(ts), row, col);
  }

  /** The piece numbered row·cols + col is the one cut at (col·tw, row·th). */
  lemma PieceAtCell(img: Surface, ts: TilesetDesc, globals: map<string, string>, row: nat, col: nat, n: nat, rect: Rect)
    requires Blittable(img) && GeometryOk(ts) && col * ts.tilewidth < ts.width
    requires n == row * Columns(ts) + col
    requires rect == Rect(Pos(col * ts.tilewidth, row * ts.tileheight), ts.tilewidth, ts.tileheight)
    ensures Pieces(img, ts, globals)(n) == CutPiece(img, rect, globals)
  {
    var cols := Columns(ts);
    CeilDivUnique(ts.width, ts.tilewidth, cols);
    MulLess(col, cols, ts.tilewidth, ts.width);
    TileRectAt(ts, row, col);
    PiecesApply(img, ts, globals, n);
  }

  /** Numbering one more id is one more table update. */
  lemma NumberingStep(tiles: Tiles, base: int, n: nat, piece: nat -> Surface)
    ensures Numbering(tiles, base, n + 1, piece) == Numbering(tiles, base, n, piece)[base + n := piece(n)]
  {
  }

  /** The image cut at pixel (x, y) into a tile-sized piece carrying the
      tileset-wide attributes: the body of the cutting loops. */
  function Cutter(img: Surface, ts: TilesetDesc, globals: map<string, string>): (int, int) -> Surface
    requires Blittable(img)
  {
    (x: int, y: int) => CutPiece(img, Rect(Pos(x, y), ts.tilewidth, ts.tileheight), globals)
  }

  /** The cut at cell (col, row) is the piece numbered row·cols + col. */
  ghost predicate Agrees(ts: TilesetDesc, piece: nat -> Surface, cut: (int, int) -> Surface, row: nat, col: nat)
    requires GeometryOk(ts)
  {
    piece(row * Columns(ts) + col) == cut(col * ts.tilewidth, row * ts.tileheight)
  }

  /** Row-major numbering agrees with the cuts of the loops at every cell
      inside the image. */
  lemma CutterAgrees(img: Surface, ts: TilesetDesc, globals: map<string, string>)
    requires Blittable(img) && GeometryOk(ts)
    ensures forall row: nat, col: nat :: col * ts.tilewidth < ts.width ==>
              Agrees(ts, Pieces(img, ts, globals), Cutter(img, ts, globals), row, col)
  {
    forall row: nat, col: nat | col * ts.tilewidth < ts.width
      ensures Agrees(ts, Pieces(img, ts, globals), Cutter(img, ts, globals), row, col)
    {
      CellAgrees(img, ts, globals, row, col);
    }
  }

  /** One cell of `CutterAgrees`. */
  lemma CellAgrees(img: Surface, ts: TilesetDesc, globals: map<string, string>, row: nat, col: nat)
    requires Blittable(img) && GeometryOk(ts) && col * ts.tilewidth < ts.width
    ensures Agrees(ts, Pieces(img, ts, globals), Cutter(img, ts, globals), row, col)
  {
    var rect := Rect(Pos(col * ts.tilewidth, row * ts.tileheight), ts.tilewidth, ts.tileheight);
    PieceAtCell(img, ts, globals, row, col, row * Columns(ts) + col, rect);
    assert Cutter(img, ts, globals)(col * ts.tilewidth, row * ts.tileheight) == CutPiece(img, rect, globals);
  }

  /** The two loops of `add_tileset` that cut the image: y steps by the
      tile height and x by the tile width while inside the image, and each
      step stores the sub-image under `first_gid + id_cnt` with the
      tileset-wide attributes inserted. */
  method CutTiles(tiles: Tiles, img: Surface, ts: TilesetDesc, globals: map<string, string>) returns (r: Tiles)
    requires Blittable(img) && GeometryOk(ts)
    ensures r == Cut(tiles, img, ts, globals)
  {
    CutterAgrees(img, ts, globals);
    r := CutGrid(tiles, ts, Pieces(img, ts, globals), Cutter(img, ts, globals));
  }

  /** One turn of the inner loop numbers one more tile. */
  lemma GridStep(r: Tiles, tiles: Tiles, ts: TilesetDesc, piece: nat -> Surface, cut: (int, int) -> Surface,
                 row: nat, col: nat, n: nat, x: int, y: int)
    requires GeometryOk(ts) && Agrees(ts, piece, cut, row, col)
    requires x == col * ts.tilewidth && y == row * ts.tileheight && n == row * Columns(ts) + col
    requires r == Numbering(tiles, ts.firstGid, n, piece)
    ensures x + ts.tilewidth == (col + 1) * ts.tilewidth
    ensures r[ts.firstGid + n := cut(x, y)] == Numbering(tiles, ts.firstGid, n + 1, piece)
  {
    Grid.NextRow(col, ts.tilewidth, 0);
    NumberingStep(tiles, ts.firstGid, n, piece);
  }

  /** The cutting loops for any cut agreeing with a numbering. */
  method CutGrid(tiles: Tiles, ts: TilesetDesc, ghost piece: nat -> Surface, cut: (int, int) -> Surface)
    returns (r: Tiles)
    requires GeometryOk(ts)
    requires forall row: nat, col: nat :: col * ts.tilewidth < ts.width ==> Agrees(ts, piece, cut, row, col)
    ensures r == Numbering(tiles, ts.firstGid, TileCount(ts), piece)
  {
    var th := ts.tileheight;
    ghost var cols := Columns(ts);
    r := tiles;
    var idCnt := 0;
    var y := 0;
    ghost var row := 0;
    while y < ts.height
      invariant 0 <= row && y == row * th && y < ts.height + th
      invariant idCnt == row * cols
      invariant r == Numbering(tiles, ts.firstGid, idCnt, piece)
      decreases ts.height - y
    {
      r, idCnt := CutRow(r, tiles, ts, piece, cut, y, row, idCnt);
      Grid.NextRow(row, cols, 0);
      Grid.NextRow(row, th, 0);
      y := y + th;
      row := row + 1;
    }
    CeilDivUnique(ts.height, th, row);
  }

  /** The inner loop: the tiles of one row, left to right, numbered on
      from `idCnt`. */
  method CutRow(r0: Tiles, ghost tiles: Tiles, ts: TilesetDesc, ghost piece: nat -> Surface, cut: (int, int) -> Surface,
                y: int, ghost row: nat, idCnt0: nat) returns (r: Tiles, idCnt: nat)
    requires GeometryOk(ts)
    requires forall row: nat, col: nat :: col * ts.tilewidth < ts.width ==> Agrees(ts, piece, cut, row, col)
    requires y == row * ts.tileheight && idCnt0 == row * Columns(ts)
    requires r0 == Numbering(tiles, ts.firstGid, idCnt0, piece)
    ensures idCnt == idCnt0 + Columns(ts)
    ensures r == Numbering(tiles, ts.firstGid, idCnt, piece)
  {
    var tw := ts.tilewidth;
    r, idCnt := r0, idCnt0;
    var x := 0;
    ghost var col := 0;
    while x < ts.width
      invariant 0 <= col && x == col * tw && x < ts.width + tw
      invariant idCnt == row * Columns(ts) + col
      invariant r == Numbering(tiles, ts.firstGid, idCnt, piece)
      decreases ts.width - x
    {
      GridStep(r, tiles, ts, piece, cut, row, col, idCnt, x, y);
      r := r[ts.firstGid + idCnt := cut(x, y)];
      x := x + tw;
      idCnt := idCnt + 1;
      col := col + 1;
    }
    CeilDivUnique(ts.width, tw, col);
  }

  /** The tile stored under `id` before a `<tile>` node is applied: the
      existing one, or the default `Surface()` `operator[]` creates. */
  function TileOrEmpty(tiles: Tiles, id: int): Surface {
    if id in tiles then tiles[id] else EmptySurface()
  }

  /** The path a `sprite` attribute refers to. */
  function SpritePath(dir: string, attrs: map<string, string>): string
    requires "sprite" in attrs
  {
    Join([dir, "/", attrs["sprite"]])
  }

  /** Node i is the last `<tile>` node naming its id. */
  predicate LastOfId(nodes: seq<TileDesc>, i: int)
    requires 0 <= i < |nodes|
  {
    forall j :: i < j < |nodes| ==> nodes[j].id != nodes[i].id
  }

  /** A sprite loader: the sprite surface a path names, and the cache
      afterwards. */
  type Loader = (Cache, string) -> (Result<Surface>, Cache)

  /** What `add_tileset` does for a `sprite` attribute: `from_sprite`
      through the tileset's cache, then the alt-list `Surface` constructor. */
  function LoadSprite(env: Env, cache: Cache, path: string): (r: (Result<Surface>, Cache))
    ensures r.0.Err? ==> r.0.error == RuntimeError
    ensures env.sprites(path).None? ==> r.0.Err?
  {
    var (sp, cache') := FromSprite(cache, path, env.sprites, env.decode);
    match sp
    case Err(e) => (Err(e), cache')
    case Ok(s) => (Ok(env.makeSprite(s.0, s.1)), cache')
  }

  function SpriteLoader(env: Env): Loader {
    (c: Cache, p: string) => LoadSprite(env, c, p)
  }

  lemma SpriteLoaderApply(env: Env, c: Cache, p: string)
    ensures SpriteLoader(env)(c, p) == LoadSprite(env, c, p)
  {
  }

  /** One `<tile>` node: its attributes become the tile's attributes, and a
      `sprite` attribute first replaces the tile by the sprite `load`
      returns for it, the loader's error stopping the loop. A node naming
      an id nobody cut starts from the default `Surface()`. */
  function ApplyTile(tiles: Tiles, cache: Cache, dir: string, firstGid: int, globals: map<string, string>,
                     n: TileDesc, load: Loader): (r: Result<(Tiles, Cache)>)
    ensures r.Err? ==> "sprite" in TileAttrs(n, globals) && load(cache, SpritePath(dir, TileAttrs(n, globals))).0 == Err(r.error)
    ensures r.Ok? ==> firstGid + n.id in r.value.0 && r.value.0 == tiles[firstGid + n.id := r.value.0[firstGid + n.id]]
    ensures r.Ok? ==> r.value.0[firstGid + n.id].attrs == TileAttrs(n, globals)
    ensures r.Ok? && "sprite" !in TileAttrs(n, globals) ==>
              r.value.0[firstGid + n.id] == TileOrEmpty(tiles, firstGid + n.id).(attrs := TileAttrs(n, globals))
    ensures "sprite" !in TileAttrs(n, globals) ==> r.Ok?
    ensures "sprite" in TileAttrs(n, globals) ==>
              (r.Err? <==> load(cache, SpritePath(dir, TileAttrs(n, globals))).0.Err?)
    ensures r.Ok? && "sprite" in TileAttrs(n, globals) ==>
              var loaded := load(cache, SpritePath(dir, TileAttrs(n, globals)));
              r.value.0[firstGid + n.id] == loaded.0.value.(attrs := TileAttrs(n, globals))
              && r.value.1 == loaded.1
    ensures r.Ok? && "sprite" !in TileAttrs(n, globals) ==> r.value.1 == cache
  {
    var id := firstGid + n.id;
    var attrs := TileAttrs(n, globals);
    if "sprite" in attrs then
      var (sp, cache') := load(cache, SpritePath(dir, attrs));
      match sp
      case Err(e) => Err(e)
      case Ok(s) => Ok((tiles[id := s.(attrs := attrs)], cache'))
    else
      Ok((tiles[id := TileOrEmpty(tiles, id).(attrs := attrs)], cache))
  }

  /** The `<tile>` loop of `add_tileset` from node `from` on, in document
      order; the first failing sprite stops it. */
  function ApplyTiles(tiles: Tiles, cache: Cache, dir: string, firstGid: int, globals: map<string, string>,
                      nodes: seq<TileDesc>, from: nat, load: Loader): (r: Result<Tiles>)
    requires from <= |nodes|
    ensures (forall i :: from <= i < |nodes| ==> "sprite" !in TileAttrs(nodes[i], globals)) ==> r.Ok?
    decreases |nodes| - from
  {
    if from == |nodes| then Ok(tiles)
    else
      match ApplyTile(tiles, cache, dir, firstGid, globals, nodes[from], load)
      case Err(e) => Err(e)
      case Ok(tc) => ApplyTiles(tc.0, tc.1, dir, firstGid, globals, nodes, from + 1, load)
  }

  /** With the cache's sprite loader the loop can only fail with
      `runtime_error`. */
  lemma {:induction false} ApplyTilesRuntimeError(tiles: Tiles, cache: Cache, dir: string, firstGid: int,
                                                  globals: map<string, string>, nodes: seq<TileDesc>, from: nat, env: Env)
    requires from <= |nodes|
    ensures var r := ApplyTiles(tiles, cache, dir, firstGid, globals, nodes, from, SpriteLoader(env));
      r.Err? ==> r.error == RuntimeError
    decreases |nodes| - from
  {
    if from < |nodes| {
      var step := ApplyTile(tiles, cache, dir, firstGid, globals, nodes[from], SpriteLoader(env));
      if step.Ok? {
        ApplyTilesRuntimeError(step.value.0, step.value.1, dir, firstGid, globals, nodes, from + 1, env);
      } else {
        SpriteLoaderApply(env, cache, SpritePath(dir, TileAttrs(nodes[from], globals)));
      }
    }
  }

  /** Some node from `from` on names `id`. */
  predicate Named(nodes: seq<TileDesc>, from: nat, firstGid: int, id: int) {
    exists i :: from <= i < |nodes| && firstGid + nodes[i].id == id
  }

  lemma NamedStep(nodes: seq<TileDesc>, from: nat, firstGid: int, id: int)
    requires from < |nodes|
    ensures Named(nodes, from, firstGid, id) <==> firstGid + nodes[from].id == id || Named(nodes, from + 1, firstGid, id)
  {
  }

  /** A successful `<tile>` loop is the loop over the remaining nodes from
      the state the first node leaves. */
  lemma ApplyTilesRest(tiles: Tiles, cache: Cache, dir: string, firstGid: int,
                       globals: map<string, string>, nodes: seq<TileDesc>, from: nat, load: Loader)
    returns (t: Tiles, c: Cache)
    requires from < |nodes|
    ensures ApplyTiles(tiles, cache, dir, firstGid, globals, nodes, from, load).Ok? ==>
              ApplyTiles(tiles, cache, dir, firstGid, globals, nodes, from, load)
              == ApplyTiles(t, c, dir, firstGid, globals, nodes, from + 1, load)
  {
    var step := ApplyTile(tiles, cache, dir, firstGid, globals, nodes[from], load);
    if step.Ok? {
      t, c := step.value.0, step.value.1;
    } else {
      t, c := tiles, cache;
    }
  }

  /** The `<tile>` loop adds exactly the ids its nodes name, and an id no
      node names keeps its tile. */
  lemma {:induction false} ApplyTilesFrame(tiles: Tiles, cache: Cache, dir: string, firstGid: int,
                                           globals: map<string, string>, nodes: seq<TileDesc>, from: nat, load: Loader)
    requires from <= |nodes|
    ensures var r := ApplyTiles(tiles, cache, dir, firstGid, globals, nodes, from, load);
      r.Ok? ==> forall id :: id in r.value <==> id in tiles || Named(nodes, from, firstGid, id)
    ensures var r := ApplyTiles(tiles, cache, dir, firstGid, globals, nodes, from, load);
      r.Ok? ==> forall id :: id in tiles && !Named(nodes, from, firstGid, id) ==> r.value[id] == tiles[id]
    decreases |nodes| - from
  {
    if from < |nodes| {
      var step := ApplyTile(tiles, cache, dir, firstGid, globals, nodes[from], load);
      if step.Ok? {
        ApplyTilesFrame(step.value.0, step.value.1, dir, firstGid, globals, nodes, from + 1, load);
        forall id {
          NamedStep(nodes, from, firstGid, id);
        }
      }
    }
  }

  /** The last node naming an id decides that tile's attributes: its own
      properties over the tileset-wide ones. */
  lemma {:induction false} ApplyTilesAttrs(tiles: Tiles, cache: Cache, dir: string, firstGid: int,
                                           globals: map<string, string>, nodes: seq<TileDesc>, from: nat,
                                           load: Loader, i: int)
    requires from <= i < |nodes| && LastOfId(nodes, i)
    ensures var r := ApplyTiles(tiles, cache, dir, firstGid, globals, nodes, from, load);
      r.Ok? ==> firstGid + nodes[i].id in r.value && r.value[firstGid + nodes[i].id].attrs == TileAttrs(nodes[i], globals)
    decreases |nodes| - from
  {
    if i == from {
      ApplyTilesAttrsHead(tiles, cache, dir, firstGid, globals, nodes, from, load);
    } else {
      var t, c := ApplyTilesRest(tiles, cache, dir, firstGid, globals, nodes, from, load);
      ApplyTilesAttrs(t, c, dir, firstGid, globals, nodes, from + 1, load, i);
    }
  }

  /** The node at `from`, when no later node names its id, decides its
      tile's attributes. */
  lemma ApplyTilesAttrsHead(tiles: Tiles, cache: Cache, dir: string, firstGid: int,
                            globals: map<string, string>, nodes: seq<TileDesc>, from: nat, load: Loader)
    requires from < |nodes| && LastOfId(nodes, from)
    ensures var r := ApplyTiles(tiles, cache, dir, firstGid, globals, nodes, from, load);
      r.Ok? ==> firstGid + nodes[from].id in r.value
                && r.value[firstGid + nodes[from].id].attrs == TileAttrs(nodes[from], globals)
  {
    var step := ApplyTile(tiles, cache, dir, firstGid, globals, nodes[from], load);
    if step.Ok? {
      var id := firstGid + nodes[from].id;
      assert !Named(nodes, from + 1, firstGid, id);
      ApplyTilesFrame(step.value.0, step.value.1, dir, firstGid, globals, nodes, from + 1, load);
      assert id in step.value.0 && step.value.0[id].attrs == TileAttrs(nodes[from], globals);
    }
  }

  /** The zero check of `add_tileset`. */
  predicate ZeroDimension(ts: TilesetDesc) {
    ts.width == 0 || ts.height == 0 || ts.tilewidth == 0 || ts.tileheight == 0
  }

  /** The decoded image does not have the declared size. */
  predicate SizeMismatch(d: Decoded, ts: TilesetDesc) {
    d.Decoded? && (d.w != ts.width || d.h != ts.height)
  }

  /** The zero check of the `Tilemap` constructor. */
  predicate MapZeroDimension(m: MapDesc) {
    m.width == 0 || m.height == 0 || m.tilewidth == 0 || m.tileheight == 0
  }

  /** The file name of a tileset image. */
  function ImagePath(dir: string, ts: TilesetDesc): string {
    Join([dir, "/", ts.source])
  }

  /** The tileset has no zero dimension and its image decodes to the
      declared size. */
  predicate ImageFits(dir: string, ts: TilesetDesc, env: Env) {
    !ZeroDimension(ts) && env.decode(ImagePath(dir, ts)).Decoded? && !SizeMismatch(env.decode(ImagePath(dir, ts)), ts)
  }

  /** No `<tile>` node of the tileset has a `sprite` attribute. */
  predicate NoSprites(ts: TilesetDesc) {
    forall i :: 0 <= i < |ts.tiles| ==> "sprite" !in TileAttrs(ts.tiles[i], GetAttributes(ts.props))
  }

  /** `add_tileset`: `logic_error` for a zero dimension or an image whose
      size differs from the declared one, `runtime_error` when the image or
      a sprite fails to load; otherwise the cut tiles with the `<tile>`
      nodes applied. Each tileset loads through a cache of its own. */
  function AddTileset(tiles: Tiles, dir: string, ts: TilesetDesc, env: Env): (r: Result<Tiles>)
    ensures ZeroDimension(ts) ==> r == Err(LogicError)
    ensures !ZeroDimension(ts) && env.decode(ImagePath(dir, ts)).DecodeError? ==> r == Err(RuntimeError)
    ensures !ZeroDimension(ts) && SizeMismatch(env.decode(ImagePath(dir, ts)), ts) ==> r == Err(LogicError)
    ensures !ZeroDimension(ts) && !SizeMismatch(env.decode(ImagePath(dir, ts)), ts) && r.Err? ==> r.error == RuntimeError
    ensures r.Ok? ==> GeometryOk(ts)
    ensures ImageFits(dir, ts, env) && NoSprites(ts) ==> r.Ok?
  {
    if ZeroDimension(ts) then Err(LogicError)
    else
      var (img, cache) := FromImage(map[], ImagePath(dir, ts), env.decode);
      match img
      case Err(e) => Err(e)
      case Ok(surf) =>
        if surf.rect.w != ts.width || surf.rect.h != ts.height then Err(LogicError)
        else
          var globals := GetAttributes(ts.props);
          var cut := Cut(tiles, surf, ts, globals);
          ApplyTilesRuntimeError(cut, cache, dir, ts.firstGid, globals, ts.tiles, 0, env);
          ApplyTiles(cut, cache, dir, ts.firstGid, globals, ts.tiles, 0, SpriteLoader(env))
  }

  /** The image a tileset cuts, as the cache loads it. */
  function TilesetImage(dir: string, ts: TilesetDesc, env: Env): Surface
    requires env.decode(ImagePath(dir, ts)).Decoded?
  {
    SurfaceOf(LoadImage(ImagePath(dir, ts), env.decode).value)
  }

  /** After a successful tileset, every id it numbers that no `<tile>` node
      names holds the matching cut of the image (row-major from `firstGid`)
      with the tileset-wide attributes, and every earlier id outside both
      keeps its tile. */
  lemma AddTilesetTiles(tiles: Tiles, dir: string, ts: TilesetDesc, env: Env)
    ensures var r := AddTileset(tiles, dir, ts, env);
      r.Ok? ==> (env.decode(ImagePath(dir, ts)).Decoded?
      && forall id :: Numbered(ts, id) && !Named(ts.tiles, 0, ts.firstGid, id) ==>
           id in r.value && r.value[id] == CutTile(TilesetImage(dir, ts, env), ts, GetAttributes(ts.props), id - ts.firstGid))
    ensures var r := AddTileset(tiles, dir, ts, env);
      r.Ok? ==> forall id :: id in tiles && !Numbered(ts, id) && !Named(ts.tiles, 0, ts.firstGid, id) ==>
        id in r.value && r.value[id] == tiles[id]
  {
    if !ZeroDimension(ts) {
      var (img, cache) := FromImage(map[], ImagePath(dir, ts), env.decode);
      if img.Ok? && img.value.rect.w == ts.width && img.value.rect.h == ts.height {
        var globals := GetAttributes(ts.props);
        assert img.value == TilesetImage(dir, ts, env);
        var cut := Cut(tiles, img.value, ts, globals);
        var r := ApplyTiles(cut, cache, dir, ts.firstGid, globals, ts.tiles, 0, SpriteLoader(env));
        assert AddTileset(tiles, dir, ts, env) == r;
        ApplyTilesFrame(cut, cache, dir, ts.firstGid, globals, ts.tiles, 0, SpriteLoader(env));
        forall id | Numbered(ts, id) {
          CutAt(tiles, img.value, ts, globals, id);
        }
        forall id | !Numbered(ts, id) {
          CutKeeps(tiles, img.value, ts, globals, id);
        }
      }
    }
  }

  /** A cut tile is a tile-sized surface at the origin carrying exactly the
      tileset-wide attributes. */
  lemma CutTileShape(img: Surface, ts: TilesetDesc, globals: map<string, string>, k: nat)
    requires Blittable(img) && GeometryOk(ts)
    ensures var s := CutTile(img, ts, globals, k);
      s.rect == Rect(Origin, ts.tilewidth, ts.tileheight) && s.attrs == globals && Blittable(s)
  {
  }

  /** Whether the `<tile>` loop fails, and how, does not depend on the
      tiles it starts from: only sprites can fail, and they load through
      the cache. */
  lemma {:induction false} ApplyTilesOutcome(t1: Tiles, t2: Tiles, cache: Cache, dir: string, firstGid: int,
                                             globals: map<string, string>, nodes: seq<TileDesc>, from: nat, load: Loader)
    requires from <= |nodes|
    ensures var r1 := ApplyTiles(t1, cache, dir, firstGid, globals, nodes, from, load);
      var r2 := ApplyTiles(t2, cache, dir, firstGid, globals, nodes, from, load);
      r1.Ok? == r2.Ok? && (r1.Err? ==> r1.error == r2.error)
    decreases |nodes| - from
  {
    if from < |nodes| {
      var s1 := ApplyTile(t1, cache, dir, firstGid, globals, nodes[from], load);
      var s2 := ApplyTile(t2, cache, dir, firstGid, globals, nodes[from], load);
      if s1.Ok? {
        ApplyTilesOutcome(s1.value.0, s2.value.0, s1.value.1, dir, firstGid, globals, nodes, from + 1, load);
      }
    }
  }

  /** Whether a tileset loads, and how it fails, does not depend on the
      tiles added before it. */
  lemma AddTilesetOutcome(t1: Tiles, t2: Tiles, dir: string, ts: TilesetDesc, env: Env)
    ensures AddTileset(t1, dir, ts, env).Ok? == AddTileset(t2, dir, ts, env).Ok?
    ensures AddTileset(t1, dir, ts, env).Err? ==> AddTileset(t1, dir, ts, env).error == AddTileset(t2, dir, ts, env).error
  {
    if !ZeroDimension(ts) {
      var (img, cache) := FromImage(map[], ImagePath(dir, ts), env.decode);
      if img.Ok? && img.value.rect.w == ts.width && img.value.rect.h == ts.height {
        var globals := GetAttributes(ts.props);
        ApplyTilesOutcome(Cut(t1, img.value, ts, globals), Cut(t2, img.value, ts, globals), cache, dir,
                          ts.firstGid, globals, ts.tiles, 0, SpriteLoader(env));
      }
    }
  }

  /** The `<tileset>` loop: each tileset in order; the first error stops.
      It succeeds exactly when every tileset loads on its own, and
      otherwise fails with the error of the first one that does not. */
  function AddTilesets(tiles: Tiles, dir: string, sets: seq<TilesetDesc>, env: Env): (r: Result<Tiles>)
    ensures r.Ok? ==> forall i :: 0 <= i < |sets| ==> GeometryOk(sets[i])
    decreases |sets|
  {
    if |sets| == 0 then Ok(tiles)
    else
      match AddTileset(tiles, dir, sets[0], env)
      case Err(e) => Err(e)
      case Ok(t) => AddTilesets(t, dir, sets[1..], env)
  }

  /** The `<tileset>` loop succeeds exactly when every tileset loads on
      its own, and otherwise fails with the error of the first one that
      does not. */
  lemma {:induction false} AddTilesetsOutcome(tiles: Tiles, dir: string, sets: seq<TilesetDesc>, env: Env)
    ensures var r := AddTilesets(tiles, dir, sets, env);
      r.Ok? <==> forall i :: 0 <= i < |sets| ==> AddTileset(map[], dir, sets[i], env).Ok?
    ensures var r := AddTilesets(tiles, dir, sets, env);
      r.Err? ==> exists i :: 0 <= i < |sets| && (forall j :: 0 <= j < i ==> AddTileset(map[], dir, sets[j], env).Ok?)
                             && AddTileset(map[], dir, sets[i], env).Err? && r == Err(AddTileset(map[], dir, sets[i], env).error)
    decreases |sets|
  {
    if |sets| > 0 {
      AddTilesetOutcome(tiles, map[], dir, sets[0], env);
      var alone := (ts: TilesetDesc) => AddTileset(map[], dir, ts, env);
      var first := AddTileset(tiles, dir, sets[0], env);
      if first.Err? {
        FirstFails(alone, sets);
      } else {
        AddTilesetsOutcome(first.value, dir, sets[1..], env);
        LaterFails(alone, sets, AddTilesets(first.value, dir, sets[1..], env));
      }
    }
  }

  /** A fold whose first step fails stops with that failure. */
  lemma FirstFails<T, U>(step: T -> Result<U>, sets: seq<T>)
    requires |sets| > 0 && step(sets[0]).Err?
    ensures exists i :: 0 <= i < |sets| && (forall j :: 0 <= j < i ==> step(sets[j]).Ok?)
                        && step(sets[i]) == step(sets[0])
  {
  }

  /** After a first step that succeeds, the fold over the rest decides:
      it succeeds when every later step does, and otherwise fails with the
      first later failure. */
  lemma LaterFails<T, U, V>(step: T -> Result<U>, sets: seq<T>, r: Result<V>)
    requires |sets| > 0 && step(sets[0]).Ok?
    requires r.Ok? <==> forall i :: 0 <= i < |sets[1..]| ==> step(sets[1..][i]).Ok?
    requires r.Err? ==> exists i :: 0 <= i < |sets[1..]| && (forall j :: 0 <= j < i ==> step(sets[1..][j]).Ok?)
                                    && step(sets[1..][i]).Err? && r == Err(step(sets[1..][i]).error)
    ensures r.Ok? <==> forall i :: 0 <= i < |sets| ==> step(sets[i]).Ok?
    ensures r.Err? ==> exists i :: 0 <= i < |sets| && (forall j :: 0 <= j < i ==> step(sets[j]).Ok?)
                                   && step(sets[i]).Err? && r == Err(step(sets[i]).error)
  {
    assert forall i :: 0 < i < |sets| ==> sets[1..][i - 1] == sets[i];
    if r.Err? {
      var k :| 0 <= k < |sets[1..]| && (forall j :: 0 <= j < k ==> step(sets[1..][j]).Ok?)
               && step(sets[1..][k]).Err? && r == Err(step(sets[1..][k]).error);
      assert forall j :: 0 <= j < k + 1 ==> step(sets[j]).Ok?;
    }
  }

  // ---------------------------------------------------------------- layers

  /** Cell `index` of a layer `width` cells wide, as C++ `%` and `/`
      compute it. */
  function CellPos(index: nat, width: int): Pos
    requires width != 0
  {
    Pos(CRem(index, width), CDiv(index, width))
  }

  /** For a positive width, cell i is column i mod width of row i / width. */
  lemma CellPosRowMajor(index: nat, width: int)
    requires width > 0
    ensures CellPos(index, width) == Pos(index % width, index / width)
    ensures 0 <= CellPos(index, width).x < width && index == CellPos(index, width).y * width + CellPos(index, width).x
  {
    TruncatingDivision(index, width);
  }

  /** A surface with its placement forgotten. */
  function Unplaced(s: Surface): Surface {
    s.(rect := s.rect.(pos := Origin))
  }

  /** What gid stands for, whatever placement an earlier cell gave it. */
  function Base(tiles: Tiles, gid: int): Surface {
    Unplaced(TileOrEmpty(tiles, gid))
  }

  /** The surface a cell shows: the gid's tile moved to pixel cell·(tw, th). */
  function PlacedAt(tiles: Tiles, gid: int, cell: Pos, tw: int, th: int): (s: Surface)
    ensures s.rect.pos == cell.Mul(Pos(tw, th)) && Unplaced(s) == Base(tiles, gid)
  {
    var b := Base(tiles, gid);
    b.(rect := b.rect.(pos := cell.Mul(Pos(tw, th))))
  }

  /** The tile of gid is marked as colliding. */
  predicate IsCollider(tiles: Tiles, gid: int) {
    FindOrDefault(Base(tiles, gid).attrs, "collision", "") == "true"
  }

  /** The state `add_layer` updates: the tile table (whose entries it
      moves), the layer's element list and the map's collision set. */
  datatype Placement = Placement(tiles: Tiles, elems: seq<Elem>, collisions: set<Pos>)

  /** One cell of the `<data>` loop. Gid 0 is an empty cell; otherwise the
      table entry is moved to the cell, a copy is appended with offset
      (0, 0), and the cell becomes a collision when the tile says so. */
  function PlaceCell(st: Placement, gid: nat, cell: Pos, tw: int, th: int): Placement {
    if gid == 0 then st
    else
      var s := PlacedAt(st.tiles, gid, cell, tw, th);
      Placement(st.tiles[gid := s], st.elems + [Elem(s, Origin, 0)],
                if IsCollider(st.tiles, gid) then st.collisions + {cell} else st.collisions)
  }

  /** Placing one cell does not change what any gid stands for. */
  lemma PlaceCellBase(st: Placement, gid: nat, cell: Pos, tw: int, th: int)
    ensures forall g :: Base(PlaceCell(st, gid, cell, tw, th).tiles, g) == Base(st.tiles, g)
  {
  }

  /** The `<data>` loop from cell `index` on. */
  function PlaceCells(st: Placement, gids: seq<nat>, index: nat, width: int, tw: int, th: int): (r: Placement)
    requires width != 0
    decreases |gids|
  {
    if |gids| == 0 then st
    else PlaceCells(PlaceCell(st, gids[0], CellPos(index, width), tw, th), gids[1..], index + 1, width, tw, th)
  }

  /** Number of non-empty cells. */
  function NonZero(gids: seq<nat>): nat
    ensures NonZero(gids) <= |gids|
  {
    if |gids| == 0 then 0 else (if gids[0] != 0 then 1 else 0) + NonZero(gids[1..])
  }

  /** The empty cells of a prefix grow one by one. */
  lemma {:induction false} NonZeroSnoc(gids: seq<nat>, i: int)
    requires 0 <= i < |gids|
    ensures NonZero(gids[..i + 1]) == NonZero(gids[..i]) + (if gids[i] != 0 then 1 else 0)
    decreases i
  {
    if i == 0 {
      assert gids[..1][1..] == [];
    } else {
      assert gids[..i + 1][1..] == gids[1..][..i];
      assert gids[..i][1..] == gids[1..][..i - 1];
      NonZeroSnoc(gids[1..], i - 1);
    }
  }

  /** Placing cells only moves table entries: what each gid stands for is
      unchanged. */
  lemma {:induction false} PlaceCellsKeepsTiles(st: Placement, gids: seq<nat>, index: nat, width: int, tw: int, th: int)
    requires width != 0
    ensures var r := PlaceCells(st, gids, index, width, tw, th);
      forall g :: Base(r.tiles, g) == Base(st.tiles, g)
    decreases |gids|
  {
    if |gids| > 0 {
      PlaceCellBase(st, gids[0], CellPos(index, width), tw, th);
      PlaceCellsKeepsTiles(PlaceCell(st, gids[0], CellPos(index, width), tw, th), gids[1..], index + 1, width, tw, th);
    }
  }

  /** Some cell holds gid `g`. */
  predicate Occurs(gids: seq<nat>, g: int) {
    exists i :: 0 <= i < |gids| && gids[i] == g
  }

  lemma OccursCons(gids: seq<nat>, g: int)
    requires |gids| > 0
    ensures Occurs(gids, g) <==> gids[0] == g || Occurs(gids[1..], g)
  {
    if Occurs(gids, g) && gids[0] != g {
      var i :| 0 <= i < |gids| && gids[i] == g;
      assert gids[1..][i - 1] == gids[i];
    }
    if Occurs(gids[1..], g) {
      var i :| 0 <= i < |gids[1..]| && gids[1..][i] == g;
      assert gids[i + 1] == gids[1..][i];
    }
  }

  /** Only the non-empty gids of the layer gain a table entry. */
  lemma {:induction false} PlaceCellsKeys(st: Placement, gids: seq<nat>, index: nat, width: int, tw: int, th: int)
    requires width != 0
    ensures var r := PlaceCells(st, gids, index, width, tw, th);
      forall g :: g in r.tiles <==> g in st.tiles || (g != 0 && Occurs(gids, g))
    decreases |gids|
  {
    if |gids| > 0 {
      var next := PlaceCell(st, gids[0], CellPos(index, width), tw, th);
      PlaceCellsKeys(next, gids[1..], index + 1, width, tw, th);
      var r := PlaceCells(st, gids, index, width, tw, th);
      assert r == PlaceCells(next, gids[1..], index + 1, width, tw, th);
      forall g
        ensures g in r.tiles <==> g in st.tiles || (g != 0 && Occurs(gids, g))
      {
        OccursCons(gids, g);
        assert g in next.tiles <==> g in st.tiles || (g != 0 && g == gids[0]);
      }
    }
  }

  /** The elements `add_layer` appends: one per non-empty cell, after the
      earlier ones, which are kept. */
  lemma {:induction false} PlaceCellsElems(st: Placement, gids: seq<nat>, index: nat, width: int, tw: int, th: int)
    requires width != 0
    ensures var r := PlaceCells(st, gids, index, width, tw, th);
      |r.elems| == |st.elems| + NonZero(gids) && r.elems[..|st.elems|] == st.elems
    decreases |gids|
  {
    if |gids| > 0 {
      var next := PlaceCell(st, gids[0], CellPos(index, width), tw, th);
      PlaceCellsElems(next, gids[1..], index + 1, width, tw, th);
      var r := PlaceCells(st, gids, index, width, tw, th);
      assert r.elems[..|st.elems|] == st.elems by {
        assert r.elems[..|next.elems|] == next.elems;
        assert next.elems[..|st.elems|] == st.elems;
      }
    }
  }

  /** The element of a non-empty cell, in cell order: that gid's tile at
      the cell's pixel position, with offset (0, 0). */
  lemma {:induction false} PlaceCellsElemAt(st: Placement, gids: seq<nat>, index: nat, width: int, tw: int, th: int, i: int)
    requires width != 0 && 0 <= i < |gids| && gids[i] != 0
    ensures var r := PlaceCells(st, gids, index, width, tw, th);
      |st.elems| + NonZero(gids[..i]) < |r.elems|
      && r.elems[|st.elems| + NonZero(gids[..i])] ==
         Elem(PlacedAt(st.tiles, gids[i], CellPos(index + i, width), tw, th), Origin, 0)
    decreases |gids|
  {
    if i == 0 {
      PlaceCellsElemHead(st, gids, index, width, tw, th);
    } else {
      var next := PlaceCell(st, gids[0], CellPos(index, width), tw, th);
      var r := PlaceCells(st, gids, index, width, tw, th);
      assert r == PlaceCells(next, gids[1..], index + 1, width, tw, th);
      PlaceCellsElems(next, gids[1..], index + 1, width, tw, th);
      PlaceCellsElemAt(next, gids[1..], index + 1, width, tw, th, i - 1);
      assert gids[1..][i - 1] == gids[i];
      NonZeroCons(gids, i);
      assert |st.elems| + NonZero(gids[..i]) == |next.elems| + NonZero(gids[1..][..i - 1]);
      assert CellPos(index + 1 + (i - 1), width) == CellPos(index + i, width);
      PlaceCellBase(st, gids[0], CellPos(index, width), tw, th);
      PlacedAtSameBase(next.tiles, st.tiles, gids[i], CellPos(index + i, width), tw, th);
    }
  }

  /** The element of a non-empty first cell comes right after the earlier
      elements. */
  lemma PlaceCellsElemHead(st: Placement, gids: seq<nat>, index: nat, width: int, tw: int, th: int)
    requires width != 0 && 0 < |gids| && gids[0] != 0
    ensures var r := PlaceCells(st, gids, index, width, tw, th);
      |st.elems| < |r.elems| && r.elems[|st.elems|] == Elem(PlacedAt(st.tiles, gids[0], CellPos(index, width), tw, th), Origin, 0)
  {
    var next := PlaceCell(st, gids[0], CellPos(index, width), tw, th);
    var r := PlaceCells(st, gids, index, width, tw, th);
    assert r == PlaceCells(next, gids[1..], index + 1, width, tw, th);
    PlaceCellsElems(next, gids[1..], index + 1, width, tw, th);
    assert r.elems[..|next.elems|] == next.elems;
    assert next.elems[|st.elems|] == Elem(PlacedAt(st.tiles, gids[0], CellPos(index, width), tw, th), Origin, 0);
  }

  /** The non-empty cells of a prefix: the first cell, then the rest. */
  lemma NonZeroCons(gids: seq<nat>, i: int)
    requires 0 < i <= |gids|
    ensures NonZero(gids[..i]) == (if gids[0] != 0 then 1 else 0) + NonZero(gids[1..][..i - 1])
  {
    assert gids[..i][1..] == gids[1..][..i - 1];
  }

  /** Tables that agree on what gid stands for place it alike. */
  lemma PlacedAtSameBase(t1: Tiles, t2: Tiles, gid: int, cell: Pos, tw: int, th: int)
    requires Base(t1, gid) == Base(t2, gid)
    ensures PlacedAt(t1, gid, cell, tw, th) == PlacedAt(t2, gid, cell, tw, th)
  {
  }

  /** Some non-empty cell of `gids`, numbered from `index`, lies at p and
      holds a tile marked as colliding. */
  predicate CollidesIn(tiles: Tiles, gids: seq<nat>, index: nat, width: int, p: Pos)
    requires width != 0
  {
    exists i :: 0 <= i < |gids| && gids[i] != 0 && CellPos(index + i, width) == p && IsCollider(tiles, gids[i])
  }

  lemma CollidesInCons(tiles: Tiles, gids: seq<nat>, index: nat, width: int, p: Pos)
    requires width != 0 && |gids| > 0
    ensures CollidesIn(tiles, gids, index, width, p) <==>
              (gids[0] != 0 && CellPos(index, width) == p && IsCollider(tiles, gids[0]))
              || CollidesIn(tiles, gids[1..], index + 1, width, p)
  {
    if CollidesIn(tiles, gids[1..], index + 1, width, p) {
      var i :| 0 <= i < |gids[1..]| && gids[1..][i] != 0 && CellPos(index + 1 + i, width) == p && IsCollider(tiles, gids[1..][i]);
      assert gids[i + 1] != 0 && CellPos(index + (i + 1), width) == p && IsCollider(tiles, gids[i + 1]);
    }
    if CollidesIn(tiles, gids, index, width, p) {
      var i :| 0 <= i < |gids| && gids[i] != 0 && CellPos(index + i, width) == p && IsCollider(tiles, gids[i]);
      if i > 0 {
        assert gids[1..][i - 1] != 0 && CellPos(index + 1 + (i - 1), width) == p && IsCollider(tiles, gids[1..][i - 1]);
      }
    }
  }

  /** Tables that agree on what every gid stands for agree on colliders. */
  lemma CollidesInSameBase(t1: Tiles, t2: Tiles, gids: seq<nat>, index: nat, width: int, p: Pos)
    requires width != 0 && forall g :: Base(t1, g) == Base(t2, g)
    ensures CollidesIn(t1, gids, index, width, p) <==> CollidesIn(t2, gids, index, width, p)
  {
    assert forall g :: IsCollider(t1, g) == IsCollider(t2, g);
  }

  /** A cell enters the collision set exactly when a non-empty gid is
      placed there whose tile has `collision` equal to "true". */
  lemma {:induction false} PlaceCellsCollisions(st: Placement, gids: seq<nat>, index: nat, width: int, tw: int, th: int)
    requires width != 0
    ensures var r := PlaceCells(st, gids, index, width, tw, th);
      forall p :: p in r.collisions <==> p in st.collisions || CollidesIn(st.tiles, gids, index, width, p)
    decreases |gids|
  {
    if |gids| > 0 {
      var next := PlaceCell(st, gids[0], CellPos(index, width), tw, th);
      PlaceCellsCollisions(next, gids[1..], index + 1, width, tw, th);
      PlaceCellBase(st, gids[0], CellPos(index, width), tw, th);
      forall p
        ensures CollidesIn(st.tiles, gids, index, width, p) <==>
                  (gids[0] != 0 && CellPos(index, width) == p && IsCollider(st.tiles, gids[0]))
                  || CollidesIn(next.tiles, gids[1..], index + 1, width, p)
      {
        CollidesInCons(st.tiles, gids, index, width, p);
        CollidesInSameBase(next.tiles, st.tiles, gids[1..], index + 1, width, p);
      }
    }
  }

  /** A non-empty cell of layer `ld` lies at p and holds a tile of `tiles`
      marked as colliding. */
  predicate LayerCollides(tiles: Tiles, ld: LayerDesc, p: Pos) {
    ld.width != 0 && CollidesIn(tiles, ld.gids, 0, ld.width, p)
  }

  /** Cell i of layer `ld` is non-empty, and the layer's element for it
      (the one after the earlier non-empty cells) is that gid's tile of
      `tiles` at the cell's pixel position, with offset (0, 0). */
  predicate ElemOfCell(layer: Layer, tiles: Tiles, ld: LayerDesc, i: int, tw: int, th: int)
    requires ld.width != 0 && 0 <= i < |ld.gids| && ld.gids[i] != 0
  {
    NonZero(ld.gids[..i]) < |layer.cluster.elems|
    && layer.cluster.elems[NonZero(ld.gids[..i])]
       == Elem(PlacedAt(tiles, ld.gids[i], CellPos(i, ld.width), tw, th), Origin, 0)
  }

  /** Every non-empty cell of `ld` has its element in `layer`. */
  predicate ElemsOfCells(layer: Layer, tiles: Tiles, ld: LayerDesc, tw: int, th: int) {
    ld.width != 0
    && forall i :: 0 <= i < |ld.gids| && ld.gids[i] != 0 ==> ElemOfCell(layer, tiles, ld, i, tw, th)
  }

  /** All the elements of a `<data>` loop started on an empty list. */
  lemma PlaceCellsAllElems(tiles: Tiles, collisions: set<Pos>, ld: LayerDesc, tw: int, th: int)
    requires ld.width != 0
    ensures var p := PlaceCells(Placement(tiles, [], collisions), ld.gids, 0, ld.width, tw, th);
      ElemsOfCells(Layer(Cluster(p.elems, Origin, None), GetAttributes(ld.props), ld.name), tiles, ld, tw, th)
  {
    var p := PlaceCells(Placement(tiles, [], collisions), ld.gids, 0, ld.width, tw, th);
    var layer := Layer(Cluster(p.elems, Origin, None), GetAttributes(ld.props), ld.name);
    forall i | 0 <= i < |ld.gids| && ld.gids[i] != 0
      ensures ElemOfCell(layer, tiles, ld, i, tw, th)
    {
      PlaceCellsElemAt(Placement(tiles, [], collisions), ld.gids, 0, ld.width, tw, th, i);
    }
  }

  /** `add_layer`: `logic_error` for a zero width or height; otherwise the
      placed layer with its properties and name, at the origin without a
      transform, one element per non-empty cell showing that cell's tile,
      and the colliding cells added to the collision set. The returned
      table has moved entries but stands for the same tiles. */
  function AddLayer(tiles: Tiles, collisions: set<Pos>, ld: LayerDesc, tw: int, th: int)
    : (r: Result<(Tiles, Layer, set<Pos>)>)
    ensures r.Err? <==> ld.width == 0 || ld.height == 0
    ensures r.Err? ==> r.error == LogicError
    ensures r.Ok? ==> var (t, layer, c) := r.value;
      layer.name == ld.name && layer.attrs == GetAttributes(ld.props)
      && layer.cluster.position == Origin && layer.cluster.transform.None?
      && |layer.cluster.elems| == NonZero(ld.gids)
      && ElemsOfCells(layer, tiles, ld, tw, th)
      && (forall g :: Base(t, g) == Base(tiles, g))
      && (forall p :: p in c <==> p in collisions || LayerCollides(tiles, ld, p))
  {
    if ld.width == 0 || ld.height == 0 then Err(LogicError)
    else
      var st := Placement(tiles, [], collisions);
      PlaceCellsElems(st, ld.gids, 0, ld.width, tw, th);
      PlaceCellsAllElems(tiles, collisions, ld, tw, th);
      PlaceCellsKeepsTiles(st, ld.gids, 0, ld.width, tw, th);
      PlaceCellsCollisions(st, ld.gids, 0, ld.width, tw, th);
      var p := PlaceCells(st, ld.gids, 0, ld.width, tw, th);
      Ok((p.tiles, Layer(Cluster(p.elems, Origin, None), GetAttributes(ld.props), ld.name), p.collisions))
  }

  /** Tables that agree on what every gid stands for place every cell alike. */
  lemma ElemsOfCellsSameBase(layer: Layer, t1: Tiles, t2: Tiles, ld: LayerDesc, tw: int, th: int)
    requires forall g :: Base(t1, g) == Base(t2, g)
    ensures ElemsOfCells(layer, t1, ld, tw, th) <==> ElemsOfCells(layer, t2, ld, tw, th)
  {
    if ld.width != 0 {
      forall i | 0 <= i < |ld.gids| && ld.gids[i] != 0
        ensures ElemOfCell(layer, t1, ld, i, tw, th) <==> ElemOfCell(layer, t2, ld, i, tw, th)
      {
        PlacedAtSameBase(t1, t2, ld.gids[i], CellPos(i, ld.width), tw, th);
      }
    }
  }

  /** Some layer of `lds` has a colliding cell at p. */
  predicate AnyLayerCollides(tiles: Tiles, lds: seq<LayerDesc>, p: Pos) {
    exists i :: 0 <= i < |lds| && LayerCollides(tiles, lds[i], p)
  }

  lemma AnyLayerCollidesCons(t1: Tiles, t2: Tiles, lds: seq<LayerDesc>, p: Pos)
    requires |lds| > 0 && forall g :: Base(t1, g) == Base(t2, g)
    ensures AnyLayerCollides(t1, lds, p) <==> LayerCollides(t1, lds[0], p) || AnyLayerCollides(t2, lds[1..], p)
  {
    forall i | 0 <= i < |lds| && lds[i].width != 0
      ensures LayerCollides(t1, lds[i], p) <==> LayerCollides(t2, lds[i], p)
    {
      CollidesInSameBase(t1, t2, lds[i].gids, 0, lds[i].width, p);
    }
    if AnyLayerCollides(t2, lds[1..], p) {
      var i :| 0 <= i < |lds[1..]| && LayerCollides(t2, lds[1..][i], p);
      assert LayerCollides(t1, lds[i + 1], p);
    }
    if AnyLayerCollides(t1, lds, p) && !LayerCollides(t1, lds[0], p) {
      var i :| 0 <= i < |lds| && LayerCollides(t1, lds[i], p);
      assert lds[1..][i - 1] == lds[i];
    }
  }

  /** The `<layer>` loop: layers in document order sharing the tile table
      and the collision set; the first error stops. The collision set
      gains exactly the colliding cells of every layer, and each layer
      shows the tiles of the table it started from, since placing cells
      only moves the table's entries. */
  function AddLayers(tiles: Tiles, collisions: set<Pos>, lds: seq<LayerDesc>, tw: int, th: int)
    : (r: Result<(seq<Layer>, set<Pos>)>)
    ensures r.Ok? <==> forall i :: 0 <= i < |lds| ==> lds[i].width != 0 && lds[i].height != 0
    ensures r.Err? ==> r.error == LogicError
    ensures r.Ok? ==> |r.value.0| == |lds|
    ensures r.Ok? ==> forall i :: 0 <= i < |lds| ==>
      (r.value.0[i].name == lds[i].name
       && r.value.0[i].attrs == GetAttributes(lds[i].props)
       && |r.value.0[i].cluster.elems| == NonZero(lds[i].gids)
       && r.value.0[i].cluster.position == Origin && r.value.0[i].cluster.transform.None?
       && ElemsOfCells(r.value.0[i], tiles, lds[i], tw, th))
    ensures r.Ok? ==> forall p :: p in r.value.1 <==> p in collisions || AnyLayerCollides(tiles, lds, p)
    decreases |lds|
  {
    if |lds| == 0 then Ok(([], collisions))
    else
      match AddLayer(tiles, collisions, lds[0], tw, th)
      case Err(e) => Err(e)
      case Ok((t, layer, c)) =>
        match AddLayers(t, c, lds[1..], tw, th)
        case Err(e) => Err(e)
        case Ok((rest, c')) =>
          AddLayersStep(tiles, t, lds, layer, rest, tw, th);
          assert forall p :: p in c' <==> p in collisions || AnyLayerCollides(tiles, lds, p) by {
            forall p ensures AnyLayerCollides(tiles, lds, p) <==> LayerCollides(tiles, lds[0], p) || AnyLayerCollides(t, lds[1..], p) {
              AnyLayerCollidesCons(tiles, t, lds, p);
            }
          }
          Ok(([layer] + rest, c'))
  }

  /** The elements of the layers after the first, stated against the
      table the first layer left, hold against the original one. */
  lemma AddLayersStep(tiles: Tiles, t: Tiles, lds: seq<LayerDesc>, layer: Layer, rest: seq<Layer>, tw: int, th: int)
    requires |lds| > 0 && |rest| == |lds| - 1 && forall g :: Base(t, g) == Base(tiles, g)
    requires ElemsOfCells(layer, tiles, lds[0], tw, th)
    requires forall i :: 0 <= i < |lds[1..]| ==> ElemsOfCells(rest[i], t, lds[1..][i], tw, th)
    ensures forall i :: 0 <= i < |lds| ==> ElemsOfCells(([layer] + rest)[i], tiles, lds[i], tw, th)
  {
    forall i | 0 < i < |lds|
      ensures ElemsOfCells(([layer] + rest)[i], tiles, lds[i], tw, th)
    {
      assert lds[1..][i - 1] == lds[i];
      ElemsOfCellsSameBase(rest[i - 1], t, tiles, lds[i], tw, th);
    }
  }

  // ---------------------------------------------------------------- construction

  /** `Tilemap(path)`: `doc` is what the XML reader made of the file (None
      when it failed to load, a `runtime_error`). A zero map dimension is a
      `logic_error`; then the tilesets and the layers are added in order.
      Each layer element shows the tile the tilesets gave its gid, and a
      cell is a collision exactly when some layer places a tile there whose
      `collision` property is "true". */
  function Build(path: string, doc: Option<MapDesc>, env: Env): (r: Result<Tilemap>)
    ensures doc.None? ==> r == Err(RuntimeError)
    ensures doc.Some? && MapZeroDimension(doc.value) ==> r == Err(LogicError)
    ensures r.Ok? ==> var m := doc.value;
      && r.value.width == m.width && r.value.height == m.height
      && r.value.tilewidth == m.tilewidth && r.value.tileheight == m.tileheight
      && m.width != 0 && m.height != 0 && m.tilewidth != 0 && m.tileheight != 0
      && r.value.dir == Basedir(path) && r.value.position == Origin
      && |r.value.layers| == |m.layers|
      && (forall i :: 0 <= i < |m.tilesets| ==> GeometryOk(m.tilesets[i]))
      && (forall i :: 0 <= i < |m.layers| ==>
            (m.layers[i].width != 0 && m.layers[i].height != 0 && r.value.layers[i].name == m.layers[i].name))
    ensures r.Ok? <==> doc.Some? && !MapZeroDimension(doc.value)
                       && AddTilesets(map[], Basedir(path), doc.value.tilesets, env).Ok?
                       && forall i :: 0 <= i < |doc.value.layers| ==> doc.value.layers[i].width != 0 && doc.value.layers[i].height != 0
    ensures r.Ok? ==> var m := doc.value;
      var tiles := AddTilesets(map[], Basedir(path), m.tilesets, env).value;
      && (forall i :: 0 <= i < |m.layers| ==>
            r.value.layers[i].attrs == GetAttributes(m.layers[i].props)
            && |r.value.layers[i].cluster.elems| == NonZero(m.layers[i].gids)
            && r.value.layers[i].cluster.position == Origin && r.value.layers[i].cluster.transform.None?
            && ElemsOfCells(r.value.layers[i], tiles, m.layers[i], m.tilewidth, m.tileheight))
      && (forall p :: p in r.value.collisions <==> AnyLayerCollides(tiles, m.layers, p))
  {
    match doc
    case None => Err(RuntimeError)
    case Some(m) =>
      if MapZeroDimension(m) then Err(LogicError)
      else
        var dir := Basedir(path);
        match AddTilesets(map[], dir, m.tilesets, env)
        case Err(e) => Err(e)
        case Ok(tiles) =>
          match AddLayers(tiles, {}, m.layers, m.tilewidth, m.tileheight)
          case Err(e) => Err(e)
          case Ok((layers, collisions)) =>
            Ok(Tilemap(layers, m.width, m.height, m.tilewidth, m.tileheight, dir, collisions, Origin))
  }

  /** `pix_width()` and `pix_height()`: the map size in pixels. */
  function PixWidth(tm: Tilemap): int {
    tm.width * tm.tilewidth
  }

  function PixHeight(tm: Tilemap): int {
    tm.height * tm.tileheight
  }

  // ---------------------------------------------------------------- placement and rendering

  /** `Tilemap::pos`: every layer's cluster is placed at p, and p is
      recorded as the map position. */
  function SetMapPos(tm: Tilemap, p: Pos): (r: Tilemap)
    ensures r.position == p && |r.layers| == |tm.layers| && r.collisions == tm.collisions
    ensures forall i :: 0 <= i < |tm.layers| ==>
      r.layers[i].cluster == SetPos(tm.layers[i].cluster, p)
      && r.layers[i].name == tm.layers[i].name && r.layers[i].attrs == tm.layers[i].attrs
  {
    tm.(layers := seq(|tm.layers|, i requires 0 <= i < |tm.layers| =>
          tm.layers[i].(cluster := SetPos(tm.layers[i].cluster, p))),
        position := p)
  }

  /** Every layer can be drawn. */
  predicate LayersBlittable(layers: seq<Layer>) {
    forall i :: 0 <= i < |layers| ==> ElemsBlittable(layers[i].cluster.elems)
  }

  /** `Tilemap::render`: each layer's cluster in order, so later layers are
      drawn over earlier ones. */
  function RenderLayers(t: Target, layers: seq<Layer>): (r: Target)
    requires TargetValid(t) && LayersBlittable(layers)
    ensures r.rect == t.rect && |r.buffer| == |t.buffer| && TargetValid(r)
    decreases |layers|
  {
    if |layers| == 0 then t
    else RenderLayers(RenderElems(t, layers[0].cluster.elems, layers[0].cluster.transform), layers[1..])
  }

  /** Rendering one more layer draws it over what the earlier ones drew. */
  lemma {:induction false} RenderLayersSnoc(t: Target, layers: seq<Layer>, l: Layer)
    requires TargetValid(t) && LayersBlittable(layers) && ElemsBlittable(l.cluster.elems)
    ensures LayersBlittable(layers + [l])
    ensures RenderLayers(t, layers + [l]) ==
            RenderElems(RenderLayers(t, layers), l.cluster.elems, l.cluster.transform)
    decreases |layers|
  {
    if |layers| > 0 {
      assert (layers + [l])[1..] == layers[1..] + [l];
      RenderLayersSnoc(RenderElems(t, layers[0].cluster.elems, layers[0].cluster.transform), layers[1..], l);
    }
  }

  // ---------------------------------------------------------------- queries

  /** Element e sits at pixel `offset`: its surface position plus its own
      offset. */
  predicate ElemAt(e: Elem, offset: Pos) {
    e.surf.rect.pos.Add(e.offset) == offset
  }

  /** `std::find_if` over a layer's elements from index `from`. */
  function FindElem(elems: seq<Elem>, offset: Pos, from: nat): (r: Option<nat>)
    requires from <= |elems|
    ensures r.Some? ==> from <= r.value < |elems| && ElemAt(elems[r.value], offset)
    ensures r.Some? ==> forall j :: from <= j < r.value ==> !ElemAt(elems[j], offset)
    ensures r.None? ==> forall j :: from <= j < |elems| ==> !ElemAt(elems[j], offset)
    decreases |elems| - from
  {
    if from == |elems| then None
    else if ElemAt(elems[from], offset) then Some(from)
    else FindElem(elems, offset, from + 1)
  }

  /** `find_tile(layer_index, offset)`: the index of the first element of
      that layer at `offset`, none when there is none, `out_of_range` from
      `vector::at` for a layer index past the end. */
  function FindTile(tm: Tilemap, layerIndex: nat, offset: Pos): (r: Result<Option<nat>>)
    ensures r.Err? <==> layerIndex >= |tm.layers|
    ensures r.Err? ==> r.error == OutOfRange
    ensures r.Ok? && r.value.Some? ==> var elems := tm.layers[layerIndex].cluster.elems;
              r.value.value < |elems| && ElemAt(elems[r.value.value], offset)
              && forall j :: 0 <= j < r.value.value ==> !ElemAt(elems[j], offset)
    ensures r.Ok? && r.value.None? ==> var elems := tm.layers[layerIndex].cluster.elems;
              forall j :: 0 <= j < |elems| ==> !ElemAt(elems[j], offset)
  {
    if layerIndex >= |tm.layers| then Err(OutOfRange)
    else Ok(FindElem(tm.layers[layerIndex].cluster.elems, offset, 0))
  }

  /** The layer name a query is compared with: the stored name lower-cased;
      the query itself is taken as given. */
  predicate NameMatches(l: Layer, query: string) {
    ToLower(l.name) == query
  }

  function FindLayerFrom(layers: seq<Layer>, query: string, from: nat): (r: Option<nat>)
    requires from <= |layers|
    ensures r.Some? ==> from <= r.value < |layers| && NameMatches(layers[r.value], query)
    ensures r.Some? ==> forall j :: from <= j < r.value ==> !NameMatches(layers[j], query)
    ensures r.None? ==> forall j :: from <= j < |layers| ==> !NameMatches(layers[j], query)
    decreases |layers| - from
  {
    if from == |layers| then None
    else if NameMatches(layers[from], query) then Some(from)
    else FindLayerFrom(layers, query, from + 1)
  }

  /** `find_layer`: the index of the first layer whose lower-cased name is
      the query, if any. */
  function FindLayer(tm: Tilemap, query: string): (r: Option<nat>)
    ensures r.Some? ==> r.value < |tm.layers| && NameMatches(tm.layers[r.value], query)
    ensures r.Some? ==> forall j :: 0 <= j < r.value ==> !NameMatches(tm.layers[j], query)
    ensures r.None? <==> forall j :: 0 <= j < |tm.layers| ==> !NameMatches(tm.layers[j], query)
  {
    FindLayerFrom(tm.layers, query, 0)
  }

  /** A query holding an upper-case letter never finds a layer, whatever
      the layers are called, since only the stored names are lower-cased. */
  lemma UpperCaseQueryMisses(tm: Tilemap, query: string, k: int)
    requires 0 <= k < |query| && 'A' <= query[k] <= 'Z'
    ensures FindLayer(tm, query).None?
  {
    forall j | 0 <= j < |tm.layers|
      ensures !NameMatches(tm.layers[j], query)
    {
      if |tm.layers[j].name| == |query| {
        assert ToLower(tm.layers[j].name)[k] != query[k];
      }
    }
  }

  /** `find_tile(name, pos)`: the layer found by name and the element found
      in it, as (layer index, element index). */
  function FindTileByName(tm: Tilemap, query: string, pos: Pos): (r: Option<(nat, nat)>)
    ensures r.Some? <==> (FindLayer(tm, query).Some? &&
              var elems := tm.layers[FindLayer(tm, query).value].cluster.elems;
              exists j :: 0 <= j < |elems| && ElemAt(elems[j], pos))
    ensures r.Some? ==> r.value.0 == FindLayer(tm, query).value
    ensures r.Some? ==> r.value.1 < |tm.layers[r.value.0].cluster.elems|
    ensures r.Some? ==> ElemAt(tm.layers[r.value.0].cluster.elems[r.value.1], pos)
  {
    match FindLayer(tm, query)
    case None => None
    case Some(l) =>
      match FindTile(tm, l, pos)
      case Ok(Some(j)) => Some((l, j))
      case _ => None
  }

  /** `collision(tile)`: the tile is in the collision set, or the layer
      named "blocks" has an element at the tile's pixel position. */
  function Collision(tm: Tilemap, tile: Pos): (r: bool)
    ensures r <==> tile in tm.collisions
                   || (FindLayer(tm, "blocks").Some?
                       && var elems := tm.layers[FindLayer(tm, "blocks").value].cluster.elems;
                       exists j :: 0 <= j < |elems| && ElemAt(elems[j], Pos(tile.x * tm.tilewidth, tile.y * tm.tileheight)))
  {
    tile in tm.collisions || FindTileByName(tm, "blocks", Pos(tile.x * tm.tilewidth, tile.y * tm.tileheight)).Some?
  }

  // ---------------------------------------------------------------- drawability

  /** Every tile of the table can be blitted. */
  predicate TilesBlittable(tiles: Tiles) {
    forall id :: id in tiles ==> Blittable(tiles[id])
  }

  /** The alt-list `Surface` constructor hands back surfaces that can be
      blitted. */
  ghost predicate SpritesBlittable(env: Env) {
    forall alts, tag :: Blittable(env.makeSprite(alts, tag))
  }

  /** A loader whose surfaces can be blitted. */
  ghost predicate LoaderBlittable(load: Loader) {
    forall c, p :: load(c, p).0.Ok? ==> Blittable(load(c, p).0.value)
  }

  lemma SpriteLoaderBlittable(env: Env)
    requires SpritesBlittable(env)
    ensures LoaderBlittable(SpriteLoader(env))
  {
    forall c, p | SpriteLoader(env)(c, p).0.Ok?
      ensures Blittable(SpriteLoader(env)(c, p).0.value)
    {
      SpriteLoaderApply(env, c, p);
    }
  }

  /** Numbering blittable pieces into a blittable table keeps it so. */
  lemma {:induction false} NumberingBlittable(tiles: Tiles, base: int, n: nat, piece: nat -> Surface)
    requires TilesBlittable(tiles) && forall k: nat :: k < n ==> Blittable(piece(k))
    ensures TilesBlittable(Numbering(tiles, base, n, piece))
  {
    if n > 0 {
      NumberingBlittable(tiles, base, n - 1, piece);
    }
  }

  /** The cut of a blittable image adds blittable tiles. */
  lemma CutBlittable(tiles: Tiles, img: Surface, ts: TilesetDesc, globals: map<string, string>)
    requires Blittable(img) && GeometryOk(ts) && TilesBlittable(tiles)
    ensures TilesBlittable(Cut(tiles, img, ts, globals))
  {
    forall k: nat | k < TileCount(ts)
      ensures Blittable(Pieces(img, ts, globals)(k))
    {
      PiecesApply(img, ts, globals, k);
      CutTileShape(img, ts, globals, k);
    }
    NumberingBlittable(tiles, ts.firstGid, TileCount(ts), Pieces(img, ts, globals));
  }

  /** The `<tile>` loop stores only blittable tiles when its loader
      delivers blittable sprites. */
  lemma {:induction false} ApplyTilesBlittable(tiles: Tiles, cache: Cache, dir: string, firstGid: int,
                                               globals: map<string, string>, nodes: seq<TileDesc>, from: nat, load: Loader)
    requires from <= |nodes| && TilesBlittable(tiles) && LoaderBlittable(load)
    ensures var r := ApplyTiles(tiles, cache, dir, firstGid, globals, nodes, from, load);
      r.Ok? ==> TilesBlittable(r.value)
    decreases |nodes| - from
  {
    if from < |nodes| {
      var step := ApplyTile(tiles, cache, dir, firstGid, globals, nodes[from], load);
      if step.Ok? {
        ApplyTileBlittable(tiles, cache, dir, firstGid, globals, nodes[from], load);
        ApplyTilesBlittable(step.value.0, step.value.1, dir, firstGid, globals, nodes, from + 1, load);
      }
    }
  }

  lemma ApplyTileBlittable(tiles: Tiles, cache: Cache, dir: string, firstGid: int, globals: map<string, string>,
                           n: TileDesc, load: Loader)
    requires TilesBlittable(tiles) && LoaderBlittable(load)
    ensures var r := ApplyTile(tiles, cache, dir, firstGid, globals, n, load);
      r.Ok? ==> TilesBlittable(r.value.0)
  {
  }

  /** A successful tileset leaves a blittable table blittable. */
  lemma AddTilesetBlittable(tiles: Tiles, dir: string, ts: TilesetDesc, env: Env)
    requires TilesBlittable(tiles) && SpritesBlittable(env)
    ensures var r := AddTileset(tiles, dir, ts, env);
      r.Ok? ==> TilesBlittable(r.value)
  {
    if !ZeroDimension(ts) {
      var (img, cache) := FromImage(map[], ImagePath(dir, ts), env.decode);
      if img.Ok? && img.value.rect.w == ts.width && img.value.rect.h == ts.height {
        var globals := GetAttributes(ts.props);
        var cut := Cut(tiles, img.value, ts, globals);
        assert AddTileset(tiles, dir, ts, env) == ApplyTiles(cut, cache, dir, ts.firstGid, globals, ts.tiles, 0, SpriteLoader(env));
        CutBlittable(tiles, img.value, ts, globals);
        SpriteLoaderBlittable(env);
        ApplyTilesBlittable(cut, cache, dir, ts.firstGid, globals, ts.tiles, 0, SpriteLoader(env));
      }
    }
  }

  lemma {:induction false} AddTilesetsBlittable(tiles: Tiles, dir: string, sets: seq<TilesetDesc>, env: Env)
    requires TilesBlittable(tiles) && SpritesBlittable(env)
    ensures var r := AddTilesets(tiles, dir, sets, env);
      r.Ok? ==> TilesBlittable(r.value)
    decreases |sets|
  {
    if |sets| > 0 {
      AddTilesetBlittable(tiles, dir, sets[0], env);
      var t := AddTileset(tiles, dir, sets[0], env);
      if t.Ok? {
        AddTilesetsBlittable(t.value, dir, sets[1..], env);
      }
    }
  }

  /** Placing cells keeps the table and the element list blittable. */
  lemma {:induction false} PlaceCellsBlittable(st: Placement, gids: seq<nat>, index: nat, width: int, tw: int, th: int)
    requires width != 0 && TilesBlittable(st.tiles) && ElemsBlittable(st.elems)
    ensures var r := PlaceCells(st, gids, index, width, tw, th);
      TilesBlittable(r.tiles) && ElemsBlittable(r.elems)
    decreases |gids|
  {
    if |gids| > 0 {
      var next := PlaceCell(st, gids[0], CellPos(index, width), tw, th);
      PlaceCellBlittable(st, gids[0], CellPos(index, width), tw, th);
      PlaceCellsBlittable(next, gids[1..], index + 1, width, tw, th);
    }
  }

  lemma PlaceCellBlittable(st: Placement, gid: nat, cell: Pos, tw: int, th: int)
    requires TilesBlittable(st.tiles) && ElemsBlittable(st.elems)
    ensures var r := PlaceCell(st, gid, cell, tw, th);
      TilesBlittable(r.tiles) && ElemsBlittable(r.elems)
  {
    if gid != 0 {
      var s := PlacedAt(st.tiles, gid, cell, tw, th);
      assert Blittable(s);
    }
  }

  /** The layer loop builds only layers whose elements can be blitted. */
  lemma {:induction false} AddLayersBlittable(tiles: Tiles, collisions: set<Pos>, lds: seq<LayerDesc>, tw: int, th: int)
    requires TilesBlittable(tiles)
    ensures var r := AddLayers(tiles, collisions, lds, tw, th);
      r.Ok? ==> LayersBlittable(r.value.0)
    decreases |lds|
  {
    if |lds| > 0 {
      var ld := lds[0];
      if ld.width != 0 && ld.height != 0 {
        PlaceCellsBlittable(Placement(tiles, [], collisions), ld.gids, 0, ld.width, tw, th);
        var p := PlaceCells(Placement(tiles, [], collisions), ld.gids, 0, ld.width, tw, th);
        AddLayersBlittable(p.tiles, p.collisions, lds[1..], tw, th);
      }
    }
  }

  /** A map built with a sprite constructor that yields blittable surfaces
      can be rendered: every element of every layer can be blitted. */
  lemma BuildBlittable(path: string, doc: Option<MapDesc>, env: Env)
    requires SpritesBlittable(env)
    ensures var r := Build(path, doc, env);
      r.Ok? ==> LayersBlittable(r.value.layers)
  {
    if doc.Some? && !MapZeroDimension(doc.value) {
      var m := doc.value;
      AddTilesetsBlittable(map[], Basedir(path), m.tilesets, env);
      var t := AddTilesets(map[], Basedir(path), m.tilesets, env);
      if t.Ok? {
        AddLayersBlittable(t.value, {}, m.layers, m.tilewidth, m.tileheight);
      }
    }
  }
}

=== FILE: utils.dfy ===
/** String helpers of `Utils` (utils.hpp) and the integer conventions of C++
    that the rest of the model needs. */
module Utils {

  import opened Results

  /** True for the two characters `find_last_of("/\\")` looks for. */
  predicate IsSeparator(c: char) {
    c == '/' || c == '\\'
  }

  /** Index of the last path separator, if any (std::string::find_last_of). */
  function LastSeparator(path: string): (r: Option<nat>)
    ensures r.Some? ==> r.value < |path| && IsSeparator(path[r.value])
    ensures r.Some? ==> forall j :: r.value < j < |path| ==> !IsSeparator(path[j])
    ensures r.None? <==> forall j :: 0 <= j < |path| ==> !IsSeparator(path[j])
    decreases |path|
  {
    if |path| == 0 then None
    else if IsSeparator(path[|path| - 1]) then Some(|path| - 1)
    else LastSeparator(path[..|path| - 1])
  }

  /** The directory part of a path: everything strictly before the last
      separator, or "." when the path has no separator. */
  function Basedir(path: string): (r: string)
    ensures (forall j :: 0 <= j < |path| ==> !IsSeparator(path[j])) ==> r == "."
    ensures (exists j :: 0 <= j < |path| && IsSeparator(path[j])) ==>
              |r| < |path| && r == path[..|r|] && IsSeparator(path[|r|])
              && forall j :: |r| < j < |path| ==> !IsSeparator(path[j])
  {
    match LastSeparator(path)
    case Some(i) => path[..i]
    case None => "."
  }

  /** `Utils::join` over arguments that are already strings: the
      concatenation of the parts, in order. */
  function Join(parts: seq<string>): (r: string)
    ensures |parts| == 1 ==> r == parts[0]
    decreases |parts|
  {
    if |parts| == 0 then "" else parts[0] + Join(parts[1..])
  }

  /** Joining splits over concatenation of the argument list. */
  lemma {:induction false} JoinAppend(a: seq<string>, b: seq<string>)
    ensures Join(a + b) == Join(a) + Join(b)
    decreases |a|
  {
    if |a| == 0 {
      assert a + b == b;
    } else {
      assert (a + b)[1..] == a[1..] + b;
      JoinAppend(a[1..], b);
    }
  }

  /** Character `c` lower-cased in the "C" locale (only 'A'..'Z' change). */
  function LowerChar(c: char): (r: char)
    ensures 'A' <= c <= 'Z' ==> r as int == c as int + 32
    ensures !('A' <= c <= 'Z') ==> r == c
  {
    if 'A' <= c <= 'Z' then (c as int + 32) as char else c
  }

  /** `Utils::tolower` applied to a whole string. */
  function ToLower(s: string): (r: string)
    ensures |r| == |s|
    ensures forall i :: 0 <= i < |s| ==> r[i] == LowerChar(s[i])
  {
    seq(|s|, i requires 0 <= i < |s| => LowerChar(s[i]))
  }

  /** C++ integer division, which truncates toward zero (Dafny's `/` is
      Euclidean). */
  function CDiv(a: int, b: int): int
    requires b != 0
  {
    var m := (if a < 0 then -a else a) / (if b < 0 then -b else b);
    if (a < 0) != (b < 0) then -m else m
  }

  /** C++ `%` on `int`: the remainder that goes with truncating division. */
  function CRem(a: int, b: int): int
    requires b != 0
  {
    a - CDiv(a, b) * b
  }

  /** Truncating division and its remainder: `a == q*b + m`, the remainder
      is smaller than the divisor in magnitude and takes the sign of the
      dividend, and for non-negative operands both agree with Dafny's
      Euclidean `/` and `%`. */
  lemma {:induction false} TruncatingDivision(a: int, b: int)
    requires b != 0
    ensures a == CDiv(a, b) * b + CRem(a, b)
    ensures -(if b < 0 then -b else b) < CRem(a, b) < (if b < 0 then -b else b)
    ensures a > 0 ==> CRem(a, b) >= 0
    ensures a < 0 ==> CRem(a, b) <= 0
    ensures a >= 0 && b > 0 ==> CDiv(a, b) == a / b && CRem(a, b) == a % b
    ensures a < 0 && b > 0 ==> CDiv(a, b) == -((-a) / b)
  {
    var ab := if b < 0 then -b else b;
    var aa := if a < 0 then -a else a;
    CRemMagnitude(a, b);
    assert 0 <= aa % ab < ab;
  }

  /** The remainder is the magnitudes' remainder, signed like the dividend. */
  lemma CRemMagnitude(a: int, b: int)
    requires b != 0
    ensures var aa, ab := (if a < 0 then -a else a), (if b < 0 then -b else b);
      CRem(a, b) == (if a < 0 then -(aa % ab) else aa % ab)
  {
    var ab := if b < 0 then -b else b;
    var aa := if a < 0 then -a else a;
    var m := aa / ab;
    assert aa == m * ab + aa % ab;
    if b < 0 {
      assert m * b == -(m * ab);
    }
  }

  /** `find_or_default`: the value under `key`, or `default` when absent. */
  function FindOrDefault(m: map<string, string>, key: string, default: string): (r: string)
    ensures key in m ==> r == m[key]
    ensures key !in m ==> r == default
  {
    if key in m then m[key] else default
  }

  /** Ceiling division of non-negative numbers. */
  function CeilDiv(a: nat, b: nat): nat
    requires b > 0
  {
    (a + b - 1) / b
  }
}

/** Row-major addressing of a `w`-wide grid, used by every pixel buffer. */
module Grid {

  /** Cell (x, y) of a w x h grid has index y*w + x, inside the buffer, and
      the index gives the cell back by division. */
  lemma {:induction false} CellIndex(x: int, y: int, w: int, h: int)
    requires 0 <= x < w && 0 <= y < h
    ensures 0 <= y * w + x < w * h
    ensures (y * w + x) / w == y && (y * w + x) % w == x
  {
    assert y * w + x < y * w + w == (y + 1) * w;
    assert (y + 1) * w <= h * w by {
      assert y + 1 <= h;
    }
    DivModUnique(y * w + x, w, y, x);
  }

  /** Quotient and remainder are the unique pair with k == q*w + m, 0 <= m < w. */
  lemma {:induction false} DivModUnique(k: int, w: int, q: int, m: int)
    requires w > 0 && 0 <= m < w && k == q * w + m
    ensures k / w == q && k % w == m
  {
    var q', m' := k / w, k % w;
    assert (q - q') * w == m' - m;
    SmallMultiple(q - q', w);
  }

  /** The only multiple of w strictly between -w and w is zero. */
  lemma {:induction false} SmallMultiple(d: int, w: int)
    requires w > 0 && -w < d * w < w
    ensures d == 0
  {
  }

  /** Stepping a row pointer by the width moves it one row down. */
  lemma NextRow(row: int, w: int, col: int)
    ensures (row + 1) * w + col == row * w + col + w
  {
  }

  /** An index is its row times the width plus its column. */
  lemma Decompose(k: int, w: int)
    requires w > 0
    ensures k == (k / w) * w + k % w && 0 <= k % w < w
  {
  }

  /** Every index of a w x h buffer is a cell of the grid. */
  lemma IndexCell(k: int, w: int, h: int)
    requires w > 0 && 0 <= k < w * h
    ensures 0 <= k % w < w && 0 <= k / w < h
    ensures k == (k / w) * w + k % w
  {
  }
}
